=== FILE: README.md ===
# Mellon vault core in Dafny

Mellon is a browser password vault. Secrets are kept in a local PouchDB
database, and only their `password` field is encrypted, with AES-GCM under a
key stored next to them. Around that vault layer sit the following parts:

- a React application that walks a new user through onboarding and locks
  itself after two minutes of inactivity;
- input validators and small UI state machines;
- a CouchDB replication set-up;
- a server-side account provisioning API (`generateUUID`);
- the build script's command-line parser.

This project models that core as pure Dafny functions over immutable data and
proves what each operation promises.

- **Store.** The database is a `map<string, Doc>` whose documents are maps from
  field names to strings (`DocStore`). The PouchDB operations the code uses are
  modelled as functions over it: `get`, `put` with revision checking, `remove`
  and the descending `allDocs` range query.
- **Crypto.** AES-GCM is a pair of uninterpreted functions (`Cipher`). The one
  fact assumed of them is the `Correct` predicate: opening what was sealed
  under the same key and IV gives the plaintext back.
  - The key, the IV, fresh ids, revisions, timestamps and random words are
    inputs.
  - The framing around the cipher is modelled concretely:
    - `JSON.stringify` and `JSON.parse` for strings;
    - UTF-8 `TextEncoder`/`TextDecoder`;
    - Base64 `btoa`/`atob` after the alphabet of RFC 4648, section 4;
    - the 12-byte IV prefix.
- **Services.** `createSecret`, `getAllSecrets`, `getSecret`, `updateSecret`
  and `deleteSecret` take a `Vault` (the secrets store and the user store) and
  return an `Outcome`. An outcome is the `{success, data | message | error}`
  response, the new vault, and the trace of I/O effects performed. The trace
  makes "validation happens before any I/O" a checkable statement.
- **React components.** These become event-driven transition functions:
  - the onboarding and lock/unlock logic of `App` (events instead of React
    state and timers, with times as numbers);
  - the delete button's countdown, with one event per interval tick;
  - the copy-all button and the secret form.
- **Provisioning.** `generateUUID` and its repositories are functions of the
  outcomes of the injected calls: each is returned or thrown.

Modules: `Wrappers`, `Bytes`, `Text`, `Service`, `Base64`, `Utf8`, `Json`,
`DocStore`, `FieldEncryption`, `SecretStore`, `Validation`, `Users`,
`RecoveryForm`, `SecretForm`, `CopyAll`, `DeleteButton`, `App`, `PouchSync`,
`PasswordGen`, `ApiErrors`, `Provisioning`, `BuildArgs`.

The two secret validators differ: src/services/secrets.ts rejects a blank
username, while src/app/services/validation.ts accepts one, even an empty one. Both validators are modelled as
written: `SecretStore.ValidateSecret` and `Validation.ValidateSecret`.
`Validation.ValidatorsDifferOnBlankUsername` proves that they disagree on
exactly that case.

## Model

| member | source | states |
|---|---|---|
| Text.Trim | src/services/secrets.ts:18 | `trim()` never lengthens a string and leaves no white space at either end |
| Text.TrimStart | src/services/secrets.ts:18 | the leading-white-space half of `trim()`: a suffix of the input, what was dropped is all white space, and it does not start with white space |
| Text.TrimEnd | src/services/secrets.ts:18 | the trailing half of `trim()`: a prefix of the input, what was dropped is all white space, and it does not end with white space |
| Text.TrimStartOfBlank | src/services/secrets.ts:18 | a string of white space only trims to nothing from the start |
| Text.TrimEmptyIffBlank | src/services/secrets.ts:18 | `s.trim().length > 0` holds exactly when some character of `s` is not white space |
| Text.TrimIdempotent | src/services/secrets.ts:18 | trimming twice is trimming once |
| Text.ContainsChar | build.ts:57 | `includes` of a one-character string holds exactly when that character occurs in the text |
| Text.ContainsIffOccurs | src/api/user-repository.ts:95 | `includes` holds exactly when the substring occurs at some position |
| Text.IndexOf | src/services/users.ts:130 | `None` exactly when the character is absent; otherwise the first position holding it |
| Text.AsciiLower | src/api/user-repository.ts:94 | `toLowerCase` keeps the length and maps each ASCII capital to its lower-case letter, position by position |
| Text.Split | build.ts:57 | `split` on one character yields at least one piece, and no piece contains the separator |
| Text.JoinSplit | build.ts:57 | joining the pieces of a split with the separator gives back the original text |
| Text.SplitJoin | src/components/RecoveryForm.tsx:44-47 | splitting a join of separator-free pieces gives back the pieces |
| Text.SplitSep | build.ts:57 | a text starting with the separator splits into an empty piece followed by the pieces of the rest |
| Text.SplitCons | build.ts:57 | a text starting with another character splits with that character at the front of the first piece |
| Text.JoinCons | src/components/ButtonCopyAll.tsx:18 | a join whose first piece is non-empty starts with that piece's first character |
| Text.NatToString | src/components/SecretForm.tsx:23-28 | `String(n)` is a non-empty digit string with no leading zero unless `n` is 0 |
| Text.NatToStringRoundTrip | src/components/SecretForm.tsx:23-28 | reading the decimal spelling back gives `n` |
| Text.PadStart2 | src/components/SecretForm.tsx:23 | `padStart(2, '0')` has length at least 2, ends with the input, and only zeros precede it |
| Text.LastTwo | src/components/SecretForm.tsx:25 | `slice(-2)` is the last two characters, or the whole text when shorter |
| Text.Utf16Length | src/services/users.ts:83 | a JavaScript string's `length` counts one code unit per character up to U+FFFF and two above it, so n characters have between n and 2n units |
| Text.Utf16LengthBmp | src/services/users.ts:83 | the code-unit length equals the character count exactly when no character lies above U+FFFF |
| Base64.CharOf | src/services/encryption.ts:86 | every 6-bit value maps to a character of the RFC 4648 alphabet |
| Base64.ValueOf | src/services/encryption.ts:92 | every alphabet character has a 6-bit value that maps back to it |
| Base64.ValueOfCharOf | src/services/encryption.ts:86-92 | value and character are mutually inverse on 6-bit values |
| Base64.EncodeGroup | src/services/encryption.ts:86 | three bytes become four alphabet characters |
| Base64.EncodeRaw | src/services/encryption.ts:86 | the unpadded encoding uses only the alphabet and never leaves a one-character group |
| Base64.EncodeRawLength | src/services/encryption.ts:86 | four characters per full group of three bytes, and two or three for a tail of one or two bytes |
| Base64.Encode | src/services/encryption.ts:86 | `btoa` output is a multiple of four long and holds alphabet characters and `=` only |
| Base64.RemoveAsciiWhitespace | src/services/encryption.ts:92 | the forgiving decode's white-space removal leaves none of TAB, LF, FF, CR or SPACE |
| Base64.RemoveAsciiWhitespaceNoop | src/services/encryption.ts:92 | text made of alphabet characters and `=` is unchanged by white-space removal |
| Base64.DecodeGroup | src/services/encryption.ts:92 | four characters decode to three bytes |
| Base64.Decode | src/services/encryption.ts:92 | `atob` succeeds only if the stripped, unpadded length does not leave a single character over |
| Base64.GroupRoundTrip | src/services/encryption.ts:86-92 | one full group decodes back to its three bytes |
| Base64.OneByteTail | src/services/encryption.ts:86-92 | a one-byte tail round-trips through two characters |
| Base64.TwoByteTail | src/services/encryption.ts:86-92 | a two-byte tail round-trips through three characters |
| Base64.DecodeRawAppend | src/services/encryption.ts:92 | decoding works group by group |
| Base64.GroupStep | src/services/encryption.ts:86-92 | a full group in front of a tail that round-trips also round-trips |
| Base64.DecodeRawEncodeRaw | src/services/encryption.ts:86-92 | decoding the unpadded encoding gives back every byte sequence |
| Base64.DecodeEncode | src/services/encryption.ts:86-96 | `atob(btoa(x))` recovers every byte sequence `x` |
| Utf8.EncodeChar | src/services/encryption.ts:67-68 | one scalar value encodes to one to four bytes |
| Utf8.Encode | src/services/encryption.ts:67-68 | a string of n characters encodes to between n and 4n bytes |
| Utf8.DecodeFirst | src/services/encryption.ts:113-114 | a successful decode step consumes between one byte and what is there |
| Utf8.DecodeFirstEncodeChar | src/services/encryption.ts:113-114 | the encoding of a character decodes back to that character and consumes exactly its bytes, whatever follows |
| Utf8.DecodeEncode | src/services/encryption.ts:67-68 | `TextDecoder` recovers every string `TextEncoder` encoded |
| Json.HexValue | src/services/encryption.ts:115 | a hex digit has a value below 16 |
| Json.HexRoundTrip | src/services/encryption.ts:115 | the hex digit written for a value reads back as that value |
| Json.EscapeChar | src/services/encryption.ts:68 | the escape starts with a backslash exactly for `"`, `\` and control characters |
| Json.Stringify | src/services/encryption.ts:68 | `JSON.stringify` of a string is quoted at both ends |
| Json.SkipSpace | src/services/encryption.ts:115 | skipping white space never lengthens the text |
| Json.ReadChar | src/services/encryption.ts:115 | reading one character or escape always consumes input |
| Json.ParseBody | src/services/encryption.ts:115 | reading a string body up to the quote always consumes input |
| Json.ReadEscape | src/services/encryption.ts:115 | every escape `stringify` writes reads back as its character |
| Json.ParseBodyStep | src/services/encryption.ts:115 | the body is read one character at a time |
| Json.ParseBodyEscapeAll | src/services/encryption.ts:68-115 | an escaped body followed by a quote reads back as the original string, leaving what follows the quote |
| Json.ParseStringify | src/services/encryption.ts:68-115 | `JSON.parse(JSON.stringify(s)) === s` for every string |
| DocStore.Get | src/services/secrets.ts:129 | `get` succeeds exactly for a stored id and returns that document; otherwise it fails with not-found |
| DocStore.Put | src/services/secrets.ts:56 | `put` needs an `_id`, and its revision must match a stored document's or be absent for a new one. On success the document, stamped with the new revision, replaces the entry under its id |
| DocStore.PutPreservesWellFormed | src/services/secrets.ts:56 | a successful write keeps every document filed under its own id with a revision, and changes no other document |
| DocStore.Remove | src/services/secrets.ts:214 | a successful `remove` deletes exactly the document's id, which must have been stored |
| DocStore.RemoveAfterGet | src/services/secrets.ts:212-214 | removing a document that was just read succeeds and deletes only it |
| DocStore.LexLeTotal | src/services/secrets.ts:79-84 | any two ids are ordered one way or the other |
| DocStore.LexLeAntisymmetric | src/services/secrets.ts:79-84 | ids ordered both ways are equal |
| DocStore.LexLeTransitive | src/services/secrets.ts:79-84 | the id order is transitive |
| DocStore.MaxExists | src/services/secrets.ts:79-84 | a non-empty set of ids has a greatest element |
| DocStore.MaxOfTwo | src/services/secrets.ts:79-84 | the greater of a set's maximum and a new id bounds both |
| DocStore.MaxId | src/services/secrets.ts:79-84 | the chosen id belongs to the set and is at least every member |
| DocStore.SortDescending | src/services/secrets.ts:81 | a set of ids listed once each, in strictly descending order |
| DocStore.AllDocsDescending | src/services/secrets.ts:79-84 | the range query returns one row per stored id in the range |
| DocStore.AllDocsDescendingSound | src/services/secrets.ts:79-84 | every row is the stored document of an id in the range |
| DocStore.AllDocsDescendingComplete | src/services/secrets.ts:79-84 | every stored document whose id is in the range is a row |
| DocStore.AllDocsDescendingOrdered | src/services/secrets.ts:81 | rows come in strictly descending id order |
| DocStore.PrefixRange | src/services/secrets.ts:82-83 | every id that starts with the prefix and goes on with characters up to U+FFFF lies in the queried range |
| FieldEncryption.EncryptField | src/services/encryption.ts:62-87 | the blob decodes to the IV followed by the sealed bytes of the UTF-8 JSON of the value |
| FieldEncryption.SplitFrame | src/services/encryption.ts:99-100 | `slice(0, 12)` and `slice(12)` partition the bytes, with a 12-byte IV whenever there are 12 bytes |
| FieldEncryption.DecryptField | src/services/encryption.ts:89-120 | every failure is the single error "Failed to decrypt data" |
| FieldEncryption.FramingInverse | src/services/encryption.ts:80-100 | the blob decodes, and the split at byte 12 hands the decryptor exactly the IV and the sealed bytes |
| FieldEncryption.DecryptEncrypt | src/services/encryption.ts:62-120 | under a correct cipher, decrypting an encrypted field with the same key gives the original string back |
| FieldEncryption.DistinctIvsDistinctBlobs | src/services/encryption.ts:64-86 | encryptions under different IVs never give the same blob |
| FieldEncryption.ImportKey | src/services/encryption.ts:8-14 | an imported AES-256 key is exactly 32 bytes |
| FieldEncryption.ImportExport | src/services/encryption.ts:38-42 | a 32-byte key exported to the key document imports back as the same key |
| FieldEncryption.GetKeyFromDb | src/services/encryption.ts:3-23 | a key is found exactly when the read succeeds, the key document exists, has a key, and that key imports |
| FieldEncryption.StoreKeyInDb | src/services/encryption.ts:36-51 | the key document is written under `key:encryptionKey` only when none exists; a failed write leaves the store unchanged |
| FieldEncryption.GetEncryptionKey | src/services/encryption.ts:53-60 | returns the stored key when one is readable and writes nothing; otherwise returns the fresh key, storing it only when no key document exists; nothing else changes |
| FieldEncryption.GetEncryptionKeyIdempotent | src/services/encryption.ts:53-60 | after a key was found or freshly stored, a later call that reads the store returns the same key and writes nothing |
| FieldEncryption.UnreadableKeyIsNotPersisted | src/services/encryption.ts:17-23 | when the key document exists but cannot be read, the fresh key is returned and not stored |
| SecretStore.ValidateSecret | src/services/secrets.ts:14-24 | `validateSecret`: name and username non-blank after `trim()`, password non-empty; `SecretStore.ValidateSecretIff` states it over characters |
| SecretStore.ValidateId | src/services/secrets.ts:26-28 | `validateId`: not blank after `trim()`; `SecretStore.ValidateIdIff` states it over characters |
| SecretStore.ValidateSecretIff | src/services/secrets.ts:14-24 | a secret is valid exactly when its name and username each have a non-white-space character and its password is non-empty |
| SecretStore.ValidateIdIff | src/services/secrets.ts:26-28 | an id is valid exactly when it has a non-white-space character |
| SecretStore.NewSecretDoc | src/services/secrets.ts:48-54 | the new document has the fresh id, the creation time, and the encryption of the submitted password |
| SecretStore.NewSecretDocKeepsFields | src/services/secrets.ts:48-52 | every other field of the input is copied unchanged, and no field besides `_id` and `createdAt` is added |
| SecretStore.CreateSecret | src/services/secrets.ts:35-69 | rejected exactly when invalid, and then with no I/O and no change. A valid secret fetches the key and writes once; success returns the new id and revision, and a failed write leaves the secrets as they were |
| SecretStore.CreateSecretStores | src/services/secrets.ts:48-56 | a successful create stores the new document under the fresh id with the store's revision, and leaves every other secret as it was |
| SecretStore.CreatedSecretStamp | src/services/secrets.ts:48-56 | the stored secret carries the fresh id, its creation time and the store's revision |
| SecretStore.StampedNewDocKeepsFields | src/services/secrets.ts:48-56 | the stored document keeps every other input field and gains only `_id`, `createdAt` and `_rev` |
| SecretStore.CreatedSecretKeepsFields | src/services/secrets.ts:48-56 | a created secret keeps every other input field and gains only `_id`, `createdAt` and `_rev` |
| SecretStore.CreatedSecretContents | src/services/secrets.ts:54 | under a correct cipher, the stored password decrypts back to the submitted one |
| SecretStore.DecryptRow | src/services/secrets.ts:90-95 | a row is kept exactly when its password decrypts; it then carries the plaintext password and the same id |
| SecretStore.Somes | src/services/secrets.ts:88-99 | the kept rows are a sub-list of the present results |
| SecretStore.SomesAppend | src/services/secrets.ts:88-99 | keeping present results distributes over concatenation |
| SecretStore.SomesComplete | src/services/secrets.ts:88-99 | every present result is kept |
| SecretStore.SomesKeepOrder | src/services/secrets.ts:88-99 | keeping the present results preserves their listing order |
| SecretStore.DecryptEach | src/services/secrets.ts:88-99 | one decryption result per row, in row order |
| SecretStore.DecryptRows | src/services/secrets.ts:88-99 | the loop keeps at most the rows it read, each one a row that decrypted |
| SecretStore.DecryptRowsAppend | src/services/secrets.ts:96-98 | a row that fails to decrypt never affects the others |
| SecretStore.DecryptRowsComplete | src/services/secrets.ts:88-99 | every row that decrypts is returned |
| SecretStore.DecryptRowsKeepOrder | src/services/secrets.ts:88-99 | skipping rows keeps a descending listing descending |
| SecretStore.GetAllSecrets | src/services/secrets.ts:75-112 | listing always succeeds, changes no secret, and only fetches the key and queries |
| SecretStore.GetAllSecretsSpec | src/services/secrets.ts:79-104 | the listing holds only stored `secret:` documents with their passwords decrypted, in strictly descending id order, and includes every such document that decrypts |
| SecretStore.SecretRangeIsPrefix | src/services/secrets.ts:82-83 | the queried range holds exactly the ids that start with `secret:` and continue with characters up to U+FFFF |
| SecretStore.GetSecret | src/services/secrets.ts:119-147 | rejects a blank id with no I/O; a missing id fails with "missing"; succeeds exactly when the stored password decrypts, and then returns the decrypted document |
| SecretStore.CreateThenGet | src/services/secrets.ts:35-147 | reading back a created secret gives the submitted password in the clear, with its creation time |
| SecretStore.CreateKeepsWellFormed | src/services/secrets.ts:56 | a successful create keeps every secret filed under its own id with a revision |
| SecretStore.CreateThenList | src/services/secrets.ts:48-112 | a secret created under a `secret:` id is read back by id, is among the secrets a later listing returns, and carries the submitted password in the clear |
| SecretStore.MergedSecret | src/services/secrets.ts:169-181 | the merge keeps the stored fields that the update does not name, takes the named ones, and adds `updatedAt`. The password is re-encrypted only when the update gives a non-empty, different one; otherwise it is written as merged |
| SecretStore.UpdateSecret | src/services/secrets.ts:155-196 | rejects a blank id with no I/O; a missing id fails after one read; the key is fetched only when re-encrypting; a failure leaves the secrets unchanged |
| SecretStore.WriteMerged | src/services/secrets.ts:175-188 | after the read, the key is fetched only for a re-encryption, and a failed write changes no secret |
| SecretStore.WriteMergedPuts | src/services/secrets.ts:183-188 | when the put of the merged document is accepted, it is stored with the new revision and the update succeeds |
| SecretStore.UpdateWritesMerged | src/services/secrets.ts:167-188 | in a well-formed store, an update that leaves `_id` and `_rev` alone succeeds and writes the merged document back under the same id |
| SecretStore.UpdateKeepsOtherFields | src/services/secrets.ts:169-173 | after the update, fields the update does not name keep their stored values, named ones take the new values, and `updatedAt` and the revision are new |
| SecretStore.StampedMergeKeepsFields | src/services/secrets.ts:169-173 | the merged document with its new revision keeps unnamed stored fields and takes the named ones |
| SecretStore.EmptyPasswordUpdateClearsCiphertext | src/services/secrets.ts:175-183 | an update with an empty password is not re-encrypted and overwrites the stored ciphertext with "" |
| SecretStore.DeleteSecret | src/services/secrets.ts:203-227 | rejects a blank id with no I/O; a missing id fails after one read; success removes exactly that id; a failure changes nothing; the user store is never touched |
| SecretStore.DeleteThenGet | src/services/secrets.ts:203-227 | deleting a stored secret succeeds, and reading it afterwards fails with "missing" |
| Validation.ValidateSecret | src/app/services/validation.ts:8-17 | `validateSecret`: name non-blank after `trim()`, a username present, password non-empty; `Validation.ValidateSecretIff` states it over characters |
| Validation.ValidateSecretIff | src/app/services/validation.ts:8-17 | valid exactly when the name has a non-white-space character, a username is present (possibly empty), and the password is non-empty |
| Validation.OlderImpliesNewer | src/app/services/validation.ts:8-17 | everything the validator of src/services/secrets.ts accepts, this one accepts |
| Validation.ValidatorsDifferOnBlankUsername | src/app/services/validation.ts:13-14 | the two validators disagree exactly on secrets whose username is blank |
| Validation.BlankNameRejected | src/app/services/validation.ts:12 | a name of white space only is rejected |
| Validation.OtherFieldsIrrelevant | src/app/services/validation.ts:8-17 | adding, changing or removing any field other than name, username and password does not change the verdict |
| Users.GetUserCredentials | src/services/users.ts:8-23 | a record is returned exactly when the read succeeds and the record exists, with its four fields (`undefined` when absent) |
| Users.IsAuthenticated | src/services/users.ts:67-70 | authenticated exactly when credentials are returned |
| Users.CreateUserCredentials | src/services/users.ts:32-61 | rejected without a write when any argument is empty; a success stores the password and returns only uuid and dbName; a failure changes nothing |
| Users.MasterDoc | src/services/users.ts:90-96 | the master-password record holds the password given |
| Users.StoreMasterPassword | src/services/users.ts:78-106 | a password under 8 UTF-16 code units (`password.length`) is rejected without a write; a success stores the record under its id only when none exists; a failure changes nothing |
| Users.VerifyMasterPassword | src/services/users.ts:113-122 | true exactly when the record can be read and its password equals the candidate; false for a missing record or a failed read |
| Users.StoreThenVerify | src/services/users.ts:90-117 | with fixed ids, after a successful store a candidate verifies exactly when it equals the stored password |
| Users.StoreMasterPasswordSucceeds | src/services/users.ts:83-96 | with fixed ids, storing succeeds exactly when the password has 8 or more UTF-16 code units and no record exists yet |
| Users.AstralPasswordPassesGate | src/services/users.ts:83 | four characters above U+FFFF count as eight code units and pass the length check |
| Users.AsWrittenMasterPasswordNeverWorks | src/services/users.ts:90-117 | with the ids as written, storing fails with the missing-id error and no password ever verifies |
| Users.AsWrittenCredentialsNeverStored | src/services/users.ts:10-48 | with the ids as written, creating credentials fails with the missing-id error, and the user counts as authenticated only if a record with id "undefined" exists |
| Users.CreateThenAuthenticated | src/services/users.ts:32-70 | with fixed ids, storing credentials authenticates the user and reads back the same credentials |
| Users.WithId | src/services/users.ts:43 | a document written with a present id carries exactly that `_id`; with an `undefined` id it carries no `_id` at all |
| Users.EmailCharsSlice | src/services/users.ts:130 | a slice matches `[^\s@]+` exactly when each of its characters does |
| Users.ValidEmailMatches | src/services/users.ts:129-132 | every string the scanning check accepts matches the regular expression |
| Users.MatchIsValidEmail | src/services/users.ts:129-132 | every match of the regular expression is accepted by the scanning check |
| Users.IsValidEmail | src/services/users.ts:129-132 | the scanning form of the e-mail check; `Users.ValidEmailMatches` and `Users.MatchIsValidEmail` prove it accepts exactly the matches of the regular expression |
| Users.IsValidEmailIff | src/services/users.ts:129-132 | the check accepts a string exactly when it has no white space, exactly one `@` with a non-empty local part, and a domain with an inner dot |
| Users.CreateUserAccount | src/services/users.ts:139-159 | succeeds exactly for a well-formed e-mail with the "created" message; otherwise rejects with "Invalid email address" |
| RecoveryForm.ValidateWord | src/components/RecoveryForm.tsx:13-16 | `validateWord`: three or more characters, all ASCII letters |
| RecoveryForm.ValidWordIsOneWord | src/components/RecoveryForm.tsx:13-22 | a word `validateWord` accepts has no white space, so the share splitter reads it back as exactly that one word |
| RecoveryForm.TakeWord | src/components/RecoveryForm.tsx:19-22 | the next word is the longest white-space-free prefix |
| RecoveryForm.Words | src/components/RecoveryForm.tsx:19-22 | every word is non-empty and free of white space |
| RecoveryForm.TakeWordOf | src/components/RecoveryForm.tsx:19-22 | a word followed by white space or the end is taken whole |
| RecoveryForm.WordsStep | src/components/RecoveryForm.tsx:19-22 | a word followed by white space or the end is read first, then the rest |
| RecoveryForm.WordsSkipSpace | src/components/RecoveryForm.tsx:19-22 | a leading space does not change the words |
| RecoveryForm.WordsOfJoin | src/components/RecoveryForm.tsx:19-22 | words separated by single spaces read back as exactly those words |
| RecoveryForm.WordErrors | src/components/RecoveryForm.tsx:34-38 | no errors exactly when every word is valid, and never more errors than words; the exact list is stated by `RecoveryForm.WordErrorsExact` |
| RecoveryForm.WordErrorsFirst | src/components/RecoveryForm.tsx:34-38 | the first error names the first invalid word with its 1-based position |
| RecoveryForm.PositionsSound | src/components/RecoveryForm.tsx:34-38 | every listed position is in range and its element qualifies |
| RecoveryForm.PositionsIncreasing | src/components/RecoveryForm.tsx:34-38 | positions are listed in strictly increasing order |
| RecoveryForm.PositionsComplete | src/components/RecoveryForm.tsx:34-38 | every qualifying position is listed |
| RecoveryForm.PositionsOffset | src/components/RecoveryForm.tsx:34-38 | counting from an offset shifts every position by that offset |
| RecoveryForm.PositionsExact | src/components/RecoveryForm.tsx:34-38 | the reference for "the invalid words, in order": exactly the qualifying positions, each once, increasing |
| RecoveryForm.FilterMapAtCount | src/components/RecoveryForm.tsx:34-47 | a filter-map has one output per qualifying position |
| RecoveryForm.FilterMapAtEntry | src/components/RecoveryForm.tsx:34-47 | the j-th output is the map of the j-th qualifying element and its position |
| RecoveryForm.WordErrorsFilterMap | src/components/RecoveryForm.tsx:34-38 | the `forEach` over the words is the filter-map of the invalid words, numbered from its start |
| RecoveryForm.WordErrorsCount | src/components/RecoveryForm.tsx:34-38 | one error per invalid word |
| RecoveryForm.WordErrorsEntry | src/components/RecoveryForm.tsx:34-38 | the j-th error is `Word k ("w") is not valid` for the j-th invalid word w, at 1-based position k |
| RecoveryForm.WordErrorsExact | src/components/RecoveryForm.tsx:34-38 | the errors are exactly one per invalid word, in word order, each naming the word and its 1-based position |
| RecoveryForm.ValidateShare | src/components/RecoveryForm.tsx:18-41 | an empty share gets exactly "Share cannot be empty"; fewer than 3 words leads with the too-few error; no errors exactly when there are 3 or more words, all valid |
| RecoveryForm.ParseShares | src/components/RecoveryForm.tsx:44-47 | every parsed share is non-empty and already trimmed; the exact list is stated by `RecoveryForm.ParseSharesExact` |
| RecoveryForm.TrimmedNonEmpty | src/components/RecoveryForm.tsx:46-47 | trimming and dropping empty lines never adds lines, and the lines kept are trimmed and non-empty |
| RecoveryForm.HeadTrimmed | src/components/RecoveryForm.tsx:46-47 | a trimmed line is kept exactly when it is non-empty |
| RecoveryForm.AllTrimmedAppend | src/components/RecoveryForm.tsx:46-47 | trimmed lists concatenate to a trimmed list |
| RecoveryForm.TrimmedNonEmptyKeeps | src/components/RecoveryForm.tsx:46-47 | already-trimmed non-empty lines pass unchanged |
| RecoveryForm.ParseSharesOfLines | src/components/RecoveryForm.tsx:44-47 | shares written one per line parse back as exactly those shares, in order |
| RecoveryForm.TrimmedNonEmptyFilterMap | src/components/RecoveryForm.tsx:46-47 | `map(trim).filter(non-empty)` is the filter-map of the non-blank lines |
| RecoveryForm.TrimmedNonEmptyCount | src/components/RecoveryForm.tsx:46-47 | one share per non-blank line |
| RecoveryForm.TrimmedNonEmptyEntry | src/components/RecoveryForm.tsx:46-47 | the j-th kept line is the j-th non-blank line, trimmed |
| RecoveryForm.TrimmedNonEmptyExact | src/components/RecoveryForm.tsx:46-47 | the kept lines are exactly the non-blank lines, trimmed, in order |
| RecoveryForm.ParseSharesExact | src/components/RecoveryForm.tsx:44-47 | the j-th share is the j-th non-blank line of the text split at line breaks, trimmed; no line is dropped or added otherwise |
| RecoveryForm.ParseSharesOneLine | src/components/RecoveryForm.tsx:44-47 | a single line with text in it is one share, without its surrounding white space |
| RecoveryForm.Prefixed | src/components/RecoveryForm.tsx:57-59 | one line per error of the share, the k-th being `Share i: ` followed by the k-th error |
| RecoveryForm.ShareErrors | src/components/RecoveryForm.tsx:54-60 | as many errors as the shares have between them, all with the `Share ` prefix, and none exactly when no share has an error; where each one sits is stated by `RecoveryForm.ShareErrorsAt` |
| RecoveryForm.ShareErrorsAppend | src/components/RecoveryForm.tsx:54-60 | the errors of two runs of shares are those of the first followed by those of the second, numbered on |
| RecoveryForm.ShareErrorsAt | src/components/RecoveryForm.tsx:54-60 | the m-th error of share i comes right after the errors of the shares before it and reads `Share ` + (i+1) + `: ` followed by that error |
| RecoveryForm.ValidateEach | src/components/RecoveryForm.tsx:55-56 | one error list per share, in order |
| RecoveryForm.ShareIsNotNoShares | src/components/RecoveryForm.tsx:49-60 | share errors can never be mistaken for the no-shares message |
| RecoveryForm.HandleTextModeSubmit | src/components/RecoveryForm.tsx:43-69 | exactly "Please enter at least one recovery share" when no share is given; recovery is attempted exactly when every share is valid, and then with exactly the parsed shares |
| SecretForm.SecretName | src/components/SecretForm.tsx:21-31 | the generated default name; its layout and read-back are stated by `SecretForm.SecretNameReadsBack` |
| SecretForm.LastDigit | src/components/SecretForm.tsx:23-28 | the last digit of `String(n)` is `n % 10` |
| SecretForm.Pad2Digits | src/components/SecretForm.tsx:23 | a number below 100 pads to its two decimal digits |
| SecretForm.Pad2Length | src/components/SecretForm.tsx:23 | a padded number below 100 has two characters |
| SecretForm.LastTwoDigits | src/components/SecretForm.tsx:25 | the last two characters of a year of at least two digits are the year modulo 100, padded |
| SecretForm.NameLayout | src/components/SecretForm.tsx:30 | where the `Secret-` prefix, the dashes and each two-character field sit in the name |
| SecretForm.DigitsReadBack | src/components/SecretForm.tsx:23-28 | two digit characters read back as the number they spell |
| SecretForm.ReadsBackAt | src/components/SecretForm.tsx:23-28 | a padded two-digit number reads back where it was written |
| SecretForm.SecretNameReadsBack | src/components/SecretForm.tsx:21-31 | the generated name is `Secret-DD-MM-YY-HH-MM-SS`, 24 characters long. The day, the 1-based month, the year modulo 100, the hours, minutes and seconds read back from their places |
| SecretForm.SecretNameInjective | src/components/SecretForm.tsx:21-31 | two clock readings give the same name exactly when they agree to the second, up to the century |
| SecretForm.HandleAdd | src/components/SecretForm.tsx:33-63 | an empty password only sets the error flag. Otherwise exactly name, username, password and notes are submitted, with a generated name when the name is empty and the rest unchanged; the fields are then cleared and the form closed |
| SecretForm.ReopenAfterFailure | src/components/SecretForm.tsx:15-18 | after a failed save, the reopened form shows the submitted inputs |
| SecretForm.FreshFormIsEmpty | src/components/SecretForm.tsx:15-18 | a form opened without failed data starts empty |
| SecretForm.Buttons | src/components/SecretForm.tsx:89-94 | "Add a Secret" is always offered, and "Clear and hide" exactly when the stage is not the first onboarding stage |
| CopyAll.ShownFlags | src/components/ButtonCopyAll.tsx:13-16 | one shown-flag per field |
| CopyAll.Selected | src/components/ButtonCopyAll.tsx:13-16 | the selected positions are flagged and in increasing order |
| CopyAll.SelectedIff | src/components/ButtonCopyAll.tsx:13-16 | a position is selected exactly when its flag is set |
| CopyAll.ShownFrom | src/components/ButtonCopyAll.tsx:13-16 | the listed fields are shown fields, in the fixed order Name, Username, Password, Notes |
| CopyAll.ShownFromListsShown | src/components/ButtonCopyAll.tsx:13-16 | a field is listed exactly when its trimmed value is non-empty |
| CopyAll.CopyLines | src/components/ButtonCopyAll.tsx:10-16 | one line per shown field, in field order, each the label followed by the untrimmed value |
| CopyAll.LineHasNoBreak | src/components/ButtonCopyAll.tsx:13-16 | a line has a line break only if its value has one |
| CopyAll.CopyTextSplits | src/components/ButtonCopyAll.tsx:18 | when no value contains a line break, splitting the copied text at line breaks gives the lines back: one separator between lines and none trailing |
| CopyAll.CopyText | src/components/ButtonCopyAll.tsx:18 | the copied text is empty exactly when no field is shown |
| CopyAll.Click | src/components/ButtonCopyAll.tsx:7-22 | a click with the copied flag set produces nothing; otherwise it produces the text; afterwards the flag is set |
| DeleteButton.Step | src/components/ButtonDeleteSecret.tsx:13-60 | an unmounted button ignores every event; `onDelete` fires only on a tick of a running interval, which stops the interval and returns to the initial mode |
| DeleteButton.Run | src/components/ButtonDeleteSecret.tsx:13-60 | at most one deletion per event, and none once unmounted |
| DeleteButton.StepKeepsValid | src/components/ButtonDeleteSecret.tsx:13-60 | an interval runs exactly while a mounted button counts down, and the count stays within 0..5; `onDelete` fires only on a tick at count 0, which returns to initial |
| DeleteButton.RunKeepsValid | src/components/ButtonDeleteSecret.tsx:13-60 | that invariant holds after any sequence of events |
| DeleteButton.Ticks | src/components/ButtonDeleteSecret.tsx:23 | k interval ticks |
| DeleteButton.TicksCountDown | src/components/ButtonDeleteSecret.tsx:24-36 | during a countdown, each tick lowers the count by one, progress is 20 per remaining second, and nothing is deleted |
| DeleteButton.DeleteFiresOnSixthTick | src/components/ButtonDeleteSecret.tsx:17-38 | after Confirm (count 5, progress 100), five ticks reach count 0 without deleting. The sixth calls `onDelete` once and returns to initial with count 5 |
| DeleteButton.RunAppend | src/components/ButtonDeleteSecret.tsx:13-60 | running two event lists in turn adds up their deletions |
| DeleteButton.UndoCancelsDeletion | src/components/ButtonDeleteSecret.tsx:45-52 | Undo during a countdown returns to initial with count 5 and progress 100, and later ticks never delete |
| DeleteButton.IdleTicks | src/components/ButtonDeleteSecret.tsx:23-38 | ticks without a running interval change nothing |
| DeleteButton.CancelDoesNotDelete | src/components/ButtonDeleteSecret.tsx:41-43 | Cancel from confirm returns to initial without deleting |
| DeleteButton.UnmountedNeverDeletes | src/components/ButtonDeleteSecret.tsx:54-60 | once unmounted, no event deletes or changes anything |
| App.Apply | src/app/components/App.tsx:100-356 | an event's own handler never touches the lock timer or the key cache; those are left to the timer effect |
| App.Lock | src/app/components/App.tsx:106-111 | the inactivity timeout drops the secrets, clears the key cache once, hides the form and locks, leaving the onboarding stage and the e-mail alone |
| App.Step | src/app/components/App.tsx:100-325 | the key cache is cleared only by a timer tick at or after the lock deadline, and that tick locks the vault and drops the secrets |
| App.InitOnboarding | src/app/components/App.tsx:59-85 | sets the stage and its form; the first two stages set authenticated and the others leave it; nothing else changes |
| App.WithoutId | src/app/components/App.tsx:198-200 | keeps exactly the entries whose `_id` differs from the id |
| App.WithoutIdAppend | src/app/components/App.tsx:198-200 | the filter keeps the relative order of what it keeps |
| App.Rearm | src/app/components/App.tsx:100-114 | restarting the timer cancels the pending one and arms a new one exactly while authenticated, changing nothing else |
| App.StepKeepsTimerInvariant | src/app/components/App.tsx:100-144 | a lock timer is pending exactly while unlocked, after every event |
| App.RunKeepsTimerInvariant | src/app/components/App.tsx:100-144 | the timer invariant holds in every reachable state |
| App.StageAdvancesOnlyByGuard | src/app/components/App.tsx:175-325 | apart from loading the stored stage, the stage moves one step forward exactly on the current stage's own successful event, and otherwise stays |
| App.RunNeverGoesBack | src/app/components/App.tsx:175-325 | without loads, onboarding never goes back |
| App.UnlockGate | src/app/components/App.tsx:252-268 | from a locked state, the vault unlocks exactly when the password verifies, arming the timer and loading the secrets; otherwise only the error is set |
| App.RecoveryGate | src/app/components/App.tsx:273-287 | from a locked state, recovery unlocks exactly when the shares verify and hides the form; otherwise only its own error is set |
| App.ActivityPostponesLock | src/app/components/App.tsx:100-121 | activity re-arms the timer at now + 2 minutes. A tick before that does nothing; a tick at or after it drops the secrets, clears the key cache, hides the form and locks |
| App.LockedStaysLocked | src/app/components/App.tsx:104 | while locked, activity arms nothing and ticks do nothing |
| App.LockThenLoadReauthenticates | src/app/components/App.tsx:330-356 | after the inactivity lock, the load the flip re-runs authenticates again exactly when the stored stage is `secret` or `master`, reopening that stage's form with no secrets and re-arming the timer; from any other stage the vault stays locked |
| App.AddSecretEffect | src/app/components/App.tsx:175-194 | a saved secret, with its new id, goes to the front. A failed save keeps the list and the stage, records the error (or "Unknown error") and the failed secret, and reopens the form |
| App.RemoveSecretEffect | src/app/components/App.tsx:196-201 | every entry with that id goes and every other entry stays |
| App.Render | src/app/components/App.tsx:358-415 | the page always shows something; which panels a locked vault shows is stated by `App.LockedViewHidesSecrets` |
| App.LockedViewHidesSecrets | src/app/components/App.tsx:392-411 | the secret list is on the page exactly while unlocked; when locked, the page ends in the recovery form or the unlock form |
| App.CancelRecoveryKeepsError | src/components/RecoveryForm.tsx:74-77 | Cancel on the locked recovery form passes the truthy string `'null'`: only `showForm` changes, the page falls back to the unlock form, and the recovery error stays on it |
| App.IntendedCancelClearsError | src/app/components/App.tsx:204-213 | closing the locked recovery form with null clears the error and the failed form data and re-runs `initOnboarding`: the unlock form with no error, or authenticated again in the `secret` and `master` stages |
| PouchSync.IsValidDbCredentials | src/services/pouchDB.ts:29-46 | the guard: a UUID text, a non-empty password and a database name of `[a-z0-9_-]+`; `PouchSync.UuidFromGroups` and `PouchSync.UuidGroups` characterise its UUID test |
| PouchSync.UuidFromGroups | src/services/pouchDB.ts:35-36 | five hex groups of lengths 8, 4, 4, 4 and 12 joined by dashes pass the UUID pattern |
| PouchSync.UuidGroups | src/services/pouchDB.ts:35-36 | every text that passes the UUID pattern is such a join of five hex groups |
| PouchSync.BackOff | src/services/pouchDB.ts:67-68 | every retry waits between 1 ms and a minute, and never less than the previous wait (up to the minute) |
| PouchSync.DelaySchedule | src/services/pouchDB.ts:67-68 | retries from no delay wait 1000, 3000, 9000 and 27000 ms, then 60000 ms from the fifth on |
| PouchSync.StartLiveSync | src/services/pouchDB.ts:53-90 | the new handler is the one kept, and it was never started before |
| PouchSync.StartLeavesOneLive | src/services/pouchDB.ts:56-62 | after starting, exactly the new handler is live |
| PouchSync.StopSync | src/services/pouchDB.ts:95-100 | no handler is kept afterwards; the current one is cancelled and no other handler is newly cancelled |
| PouchSync.StopLeavesNone | src/services/pouchDB.ts:95-100 | after stopping, no handler is live |
| PouchSync.RemoteUrl | src/services/pouchDB.ts:143-147 | the URL starts with `protocol//uuid:` and ends with `:5984/` followed by the database name |
| PouchSync.InitializeRemoteDb | src/services/pouchDB.ts:132-164 | invalid credentials return null with no connection attempt. A database is returned exactly when the credentials are valid and the probe succeeds; it is at the URL built from the credentials and starts the live sync; otherwise nothing changes |
| PouchSync.SetupRemoteConnection | src/services/pouchDB.ts:171-205 | missing credentials are rejected with nothing changed. Success exactly when the credentials pass the guard and the remote connects, returning the uuid and database name; it never ends in the error branch |
| PasswordGen.Generate | src/api/password.ts:12-22 | fails with `QuotaExceededError` exactly when the 4-byte words exceed the 65536-byte quota of `getRandomValues`; otherwise the password has the requested length and character i is the charset character at the i-th random word modulo 70 |
| PasswordGen.GenerateDefault | src/api/password.ts:13 | the default length is 32, within the quota, and character i is the charset character at the i-th random word modulo 70 |
| PasswordGen.Deterministic | src/api/password.ts:16-21 | the password depends only on the first `length` random words |
| PasswordGen.IndexIn | src/api/config.ts:18-19 | every charset character has a position in the charset |
| PasswordGen.EveryCharsetStringReachable | src/api/password.ts:19-21 | every string over the charset that fits the quota is produced by some random words |
| ApiErrors.CodeTextReadsBack | src/api/errors.ts:6-14 | each error code's text reads back as that code, so codes have distinct texts |
| ApiErrors.NewUserCreationError | src/api/errors.ts:48-56 | code `USER_CREATION_FAILED`, category USER, keeps uuid, message and cause |
| ApiErrors.NewDatabaseError | src/api/errors.ts:61-74 | category DATABASE; the code defaults to `DATABASE_CREATION_FAILED` and an explicit code is kept |
| ApiErrors.NewConnectionError | src/api/errors.ts:79-84 | code `CONNECTION_FAILED`, category CONNECTION |
| ApiErrors.CauseOf | src/api/database-repository.ts:122 | a cause is recorded exactly for `Error` values, with their message |
| ApiErrors.IsApiError | src/api/errors.ts:86-91 | `isApiError`: holds exactly for the subclasses, as `ApiErrors.Classification` states |
| ApiErrors.GetErrorMessage | src/api/errors.ts:93-101 | the message of an `Error`, `String(x)` of anything else, as `ApiErrors.Classification` states |
| ApiErrors.Classification | src/api/errors.ts:89-101 | `isApiError` holds for every subclass and not for plain errors or non-errors; `getErrorMessage` gives the message of an error and the text of anything else; each class has its own name |
| Provisioning.UserDbName | src/api/database-repository.ts:37-39 | the database name is `userdb-` followed by the uuid |
| Provisioning.UserDbNameInjective | src/api/database-repository.ts:37-39 | different users get different databases |
| Provisioning.BuildSecurityDocument | src/api/database-repository.ts:41-49 | the security document; `Provisioning.OnlyOwnerIsMember` states whom it grants what |
| Provisioning.OnlyOwnerIsMember | src/api/database-repository.ts:44-49 | the security document makes exactly the user a member, with no admins and no roles |
| Provisioning.CreateUserDatabase | src/api/database-repository.ts:86-125 | security is attempted only after creation succeeds. The result succeeds exactly when the security PUT answers ok, and always names the computed database; any exception becomes a DatabaseError with `DATABASE_CREATION_FAILED` |
| Provisioning.BuildUserDocument | src/api/user-repository.ts:31-39 | id `org.couchdb.user:` + uuid, name uuid, type `user`, no roles, the given password |
| Provisioning.CreateCouchDbUser | src/api/user-repository.ts:48-87 | inserts the user document with the generated password. Success exactly when the insert answers ok, with the password only on success; an exception becomes a UserCreationError carrying the uuid |
| Provisioning.ThrownUserExists | src/api/user-repository.ts:92-98 | a thrown insert counts as "user exists" exactly when its cause is an error whose lower-cased message contains `conflict` or `exists` |
| Provisioning.OnlyUserCreationErrorsExist | src/api/user-repository.ts:93 | errors of any other class never count as "user exists" |
| Provisioning.BuildSuccessResponse | src/api/generate-uuid.ts:57-71 | the success message, the user's uuid and password, and the database name |
| Provisioning.ErrorText | src/api/generate-uuid.ts:79-81 | `code: message` for an ApiError, `getErrorMessage` otherwise |
| Provisioning.BuildErrorResponse | src/api/generate-uuid.ts:76-88 | a failure with the generation message and the error text |
| Provisioning.GenerateUuid | src/api/generate-uuid.ts:96-113 | the user is created before the database, with the same uuid, and the database is not attempted after a throw. Success exactly when nothing threw; any throw becomes the error response |
| Provisioning.UnsuccessfulResultsNotInspected | src/api/generate-uuid.ts:105-108 | results with `success: false` that were returned, not thrown, still give an overall success |
| Provisioning.DefaultServicesSucceed | src/api/generate-uuid.ts:49-52 | with every request succeeding, the response carries the uuid, the generated password and `userdb-<uuid>` |
| Provisioning.InsertFailureReported | src/api/generate-uuid.ts:109-112 | a thrown insert is reported as `USER_CREATION_FAILED: Error creating user in CouchDB` |
| Provisioning.DatabaseFailureReported | src/api/generate-uuid.ts:109-112 | a thrown database creation is reported as `DATABASE_CREATION_FAILED: Failed to create user database` |
| Provisioning.ProvisionedCredentialsAccepted | src/services/pouchDB.ts:29-46 | a provisioned account (lower-case UUID, generated password, its database name) passes the client's credential guard |
| BuildArgs.ParseArgs | build.ts:64-109 | a list of arguments none of which starts with `--` parses to the empty config |
| BuildArgs.NonFlagsIgnored | build.ts:69-71 | from any point on, a run of arguments that do not start with `--` leaves the config unchanged |
| BuildArgs.Upper | build.ts:42 | upper-casing a lower-case letter gives a capital |
| BuildArgs.Camel | build.ts:41-43 | `toCamelCase` never lengthens and leaves no `-x` with x lower-case; its first character is kept or is the upper-cased letter of a leading `-x` |
| BuildArgs.CamelFixed | build.ts:41-43 | a key with nothing to replace is unchanged |
| BuildArgs.CamelIdempotent | build.ts:41-43 | `toCamelCase` is idempotent |
| BuildArgs.LowerOf | build.ts:42 | lower-casing a capital is inverted by upper-casing |
| BuildArgs.Kebab | build.ts:41-43 | the kebab spelling is at least as long as the key |
| BuildArgs.CamelOfKebab | build.ts:41-43 | for keys without hyphens, `toCamelCase` inverts the kebab-case spelling |
| BuildArgs.FractionChars | build.ts:54 | a decimal fraction holds a dot and otherwise only digits |
| BuildArgs.NotFraction | build.ts:54 | a text without a dot, or with a character that is neither digit nor dot, is not a decimal fraction |
| BuildArgs.DecimalFraction | build.ts:54 | the scanning test accepts exactly the texts `/^\d*\.\d+$/` matches |
| BuildArgs.ParseValue | build.ts:47-61 | checked in order: `true`/`false` give booleans, all digits give the integer, a fraction is kept as a float, a comma gives the trimmed split list, anything else stays the text |
| BuildArgs.SplitHasMore | build.ts:57 | a text containing a comma splits into at least two pieces |
| BuildArgs.ParseValueOfNumber | build.ts:53 | the decimal spelling of a number parses back to it |
| BuildArgs.ParseValueOfList | build.ts:57 | trimmed comma-free items joined by commas parse back to the same list |
| BuildArgs.ListValue | build.ts:57 | a text with a comma whose pieces are already trimmed is the list of its pieces |
| BuildArgs.BeforeFirst | build.ts:92 | the text before the first separator, or all of it when there is none |
| BuildArgs.FirstTwo | build.ts:103 | the first two pieces of `split('.')`, neither containing the separator |
| BuildArgs.Assign | build.ts:102-107 | a plain key is set. A dotted key writes the child under a new or existing object parent and keeps every other key. It fails exactly when the parent holds a truthy primitive |
| BuildArgs.ActionAt | build.ts:70-96 | non-`--` arguments are skipped and `--no-` ones clear a flag. A value without `=` comes from the next argument, which does not start with `--`; the next index skips it |
| BuildArgs.Perform | build.ts:74-85 | flags always succeed and set the camel-case key to their boolean |
| BuildArgs.ParseStep | build.ts:69-109 | one turn of the loop performs the current argument's action and continues after what it consumed |
| BuildArgs.ActionAtAppend | build.ts:81 | appending a `--` argument does not change what earlier arguments do |
| BuildArgs.ParseAppendFlag | build.ts:69-109 | parsing a list that ends with a flag is parsing the rest, then applying the flag |
| BuildArgs.LastArgument | build.ts:81 | the last argument is read on its own |
| BuildArgs.SkipsNonFlag | build.ts:71 | an argument that does not start with `--` is skipped |
| BuildArgs.FirstAfter | build.ts:92 | the first `=` after a `=`-free key is the one right after it |
| BuildArgs.PairAction | build.ts:91-92 | `--key=value` is a pair whose value stops at the next `=` |
| BuildArgs.LaterOccurrenceWins | build.ts:105-107 | a later `--key=value` overwrites what earlier arguments set for that key, and nothing else |
| BuildArgs.NoFlagSetsFalse | build.ts:74-78 | `--no-key` sets the camel-case key to false, and nothing else |
| BuildArgs.BareFlagSetsTrue | build.ts:81-85 | a bare `--key` at the end sets the camel-case key to true, and nothing else |
| BuildArgs.SpacedValue | build.ts:93-96 | `--key value` gives the key the parsed value |
| BuildArgs.SingleArgument | build.ts:69-109 | a single argument consumed on its own gives the config of its action |
| BuildArgs.SecondEqualsDropsTheRest | build.ts:91-92 | `--key=a=b` keeps only `a` |
| BuildArgs.DottedSegments | build.ts:103 | a key `p.c.rest` splits into `p` and `c` |
| BuildArgs.DottedKey | build.ts:102-105 | a dotted key writes into a fresh object under its first segment, keyed by its second, and drops further segments |

## Left out

- Platform cryptography (AES-GCM, `generateKey`, `getRandomValues`): the cipher is an uninterpreted pair of functions with the correctness predicate `Correct`; keys, IVs and random words are inputs.
- Wall-clock time (`new Date().toISOString()`, `Date` fields), PouchDB's revision generator and the document-id generator: inputs.
- Logging (`console.*`) and PouchDB, CouchDB, nano and HTTP I/O: the stores are maps and every remote call is an outcome parameter.
- React rendering, the DOM, the clipboard, real timers and event listeners: replaced by explicit events and ticks. The clipboard write is assumed to succeed, and the one-second reset of the copied flag is not modelled.
- `src/app/services/{secrets,users,encryption}.ts`, which `App.tsx` calls, are not part of this model: their answers are fields of the App events.
- The sign-up and code forms are listed in `App.Render` but not their contents, and `handleCode`'s stubbed verification always succeeds as written.
- `syncOnce`, the `syncHandler` event logging and the replication options other than the back-off function: live replication itself is I/O.
- Utf8.Decode: strict; `TextDecoder`'s substitution of U+FFFD for ill-formed input is left out. That input only arises after the cipher check has passed, and a correct cipher never yields it.
- Json.Parse: only JSON texts whose value is a string are parsed. Escapes of surrogate halves (`\uD800`–`\uDFFF`) are rejected, because Dafny's `char` holds scalar values only.
- DocStore.AllDocsDescending: orders ids by code point, whereas PouchDB collates by UTF-16 code units. The two agree for ids without supplementary-plane characters.
- DocStore.Get: PouchDB's own id checks (ids starting with `_`) and deleted-document tombstones are left out; a removed document is simply absent.
- Text.AsciiLower: lower-cases ASCII letters only; the full Unicode case mapping of `toLowerCase` is left out.
- Text.IsSpace: covers the ECMAScript white-space and line-terminator code points that `trim()` and `\s` use.
- FieldEncryption.GetKeyFromDb: a read error is the boolean `readFails`. Which errors are `not_found` does not matter, since both paths yield no key.
- FieldEncryption.ImportKey: a JWK is represented by its Base64 key material only, and import checks just the length.
- App.Step: the encryption-key cache that the lock clears is modelled as a counter of clears (`cacheClears`).
- App.Step: on a failed add the code filters the list by reference identity (`s !== secret`). The failed object was never added, so the model keeps the list unchanged.
- App.Step: `saveOnboardingStage` persistence is not modelled; the stage it saves is the one `initOnboarding` sets.
- App.Step: the `loadInitialData` effect, which App.tsx re-runs after every change of `isAuthenticated` (the inactivity lock included), is the separate `Load` event carrying the service answers, not part of `Step`; a trace that leaves it out after a lock stays locked even in the `secret` and `master` stages, where the page would authenticate again (`App.LockThenLoadReauthenticates`).
- SecretStore.UpdateSecret: `undefined` values inside `updates` are not modelled; an update is a map of present string fields.
- SecretStore.DeleteSecret: returns the id rather than PouchDB's remove response object.
- SecretStore.CreateSecret: type checks (`typeof … === 'string'`, `!!secret`) hold by construction, since documents are maps of strings. The same holds for every validator.
- PasswordGen.Generate: the length is a `nat`. A negative length, for which `new Uint32Array` throws a `RangeError`, is not modelled, nor is a fractional one, which `ToIndex` truncates.
- SecretStore.NewSecretDoc: the new id is an input (`freshId`). src/services/secrets.ts imports `generateDocId` from src/services/pouchDB.ts, which does not export it, so the module as written does not link; the model stands for the intended generator of `secret:` ids, and `SecretStore.CreateThenList` shows such an id is listed.
- Provisioning.BuildSuccessResponse: the constant `success: true` fields of the response and its data are not represented.
- Provisioning.GenerateUuid: the results of `createUser` and `createDatabase` are parameters. `WithDefaultServices` wires them to the repository models.
- BuildArgs.ParseValue: `parseFloat` is left out (the text of a decimal fraction is kept), and `parseInt` is exact rather than limited to double precision.
- BuildArgs.Assign: writing a child key under a truthy primitive parent throws a TypeError in strict-mode code; the model returns an error. A numeric child key on an array parent is treated as any other primitive. The config is a plain map: keys that `{}` inherits from `Object.prototype` are not modelled, so `--toString.x=1` (which writes onto the inherited function), `--__proto__=v` (which sets no own key) and `--__proto__.a=1` (which pollutes `Object.prototype`) are each modelled as an ordinary own key.
- `formatFileSize`, the build itself and its file-system I/O in build.ts: floating point and I/O.
- The superseded src/components/App.tsx, src/services/couchDB.ts, src/methods/generate-uuid.ts, hooks and presentational components are not part of this model.

## Findings

| source | as written | input that shows it | evidently intended | confidence | as-written member | corrected member |
|---|---|---|---|---|---|---|
| src/services/users.ts:90-117 | the master-password record is written with `_id: DocType.MASTER_PASSWORD` and read with `get(DocType.MASTER_PASSWORD)`, but `DocType` (src/types.ts:98-101) has no such member, so both ids are `undefined` | `storeMasterPassword("longenough")`: the put has no `_id` and fails with PouchDB's missing-id error, and `verifyMasterPassword` of any candidate is false | a fixed id such as `master_password`, so a stored password verifies | not executed | Users.AsWrittenMasterPasswordNeverWorks | Users.StoreThenVerify |
| src/services/users.ts:10-48 | credentials are written with `_id: DocType.USER_CREDENTIALS`, which is `undefined`, and read with the template literal `${DocType.USER_CREDENTIALS}`, which is the string "undefined" | `createUserCredentials("u", "p", "d")` fails with the missing-id error, and `isAuthenticated()` is false unless a record with id "undefined" exists | a fixed id such as `user_credentials` for both the write and the read | not executed | Users.AsWrittenCredentialsNeverStored | Users.CreateThenAuthenticated |
| src/components/RecoveryForm.tsx:74-77 | Cancel calls `handleSetShowForm('null')`, the string, which is no member of `FormState` (src/types.ts:131-136) and is truthy, so App.tsx:204-213 skips its close clean-up; the error reset beside it is commented out | Cancel after a failed recovery attempt: the unlock form appears still showing "Invalid recovery words. Please try again." | `handleSetShowForm(null)`, closing the form and clearing the error | not executed | App.CancelRecoveryKeepsError | App.IntendedCancelClearsError |

For the recovery Cancel, `App.CancelRecovery` is the event as written and `App.IntendedCancelRecovery` the intended one. Both are `ShowForm` events of `App.Step`, so a trace can hold either.

=== FILE: api_errors.dfy ===
/**
 * The error taxonomy of src/api/errors.ts. The class hierarchy becomes one
 * datatype of thrown values: an `ApiError` (with the subclass it was built
 * as), a plain `Error`, or a thrown value that is not an `Error`. A `cause`
 * is kept as the message of the wrapped `Error`.
 */
module ApiErrors {
  import opened Wrappers

  datatype ErrorCode =
    | UserCreationFailed | UserAlreadyExists | DatabaseCreationFailed | DatabaseSecurityFailed
    | ConnectionFailed | InvalidCredentials | UnknownError

  /** The string value of each `ErrorCode` member. */
  function CodeText(c: ErrorCode): string {
    match c
    case UserCreationFailed => "USER_CREATION_FAILED"
    case UserAlreadyExists => "USER_ALREADY_EXISTS"
    case DatabaseCreationFailed => "DATABASE_CREATION_FAILED"
    case DatabaseSecurityFailed => "DATABASE_SECURITY_FAILED"
    case ConnectionFailed => "CONNECTION_FAILED"
    case InvalidCredentials => "INVALID_CREDENTIALS"
    case UnknownError => "UNKNOWN_ERROR"
  }

  /** The member whose string value is `text`, if any. */
  function CodeOf(text: string): Option<ErrorCode> {
    if text == "USER_CREATION_FAILED" then Some(UserCreationFailed)
    else if text == "USER_ALREADY_EXISTS" then Some(UserAlreadyExists)
    else if text == "DATABASE_CREATION_FAILED" then Some(DatabaseCreationFailed)
    else if text == "DATABASE_SECURITY_FAILED" then Some(DatabaseSecurityFailed)
    else if text == "CONNECTION_FAILED" then Some(ConnectionFailed)
    else if text == "INVALID_CREDENTIALS" then Some(InvalidCredentials)
    else if text == "UNKNOWN_ERROR" then Some(UnknownError)
    else None
  }

  /** Each code's text reads back as that code, so distinct codes have distinct texts. */
  lemma CodeTextReadsBack(c: ErrorCode)
    ensures CodeOf(CodeText(c)) == Some(c)
  {
  }

  datatype ErrorCategory = UserCategory | DatabaseCategory | ConnectionCategory | ValidationCategory

  /** Which class an `ApiError` was constructed as, with the subclass's own field. */
  datatype ApiKind = BaseApi | UserCreation(uuid: string) | Database(dbName: string) | Connection

  datatype Thrown =
    | ApiError(kind: ApiKind, message: string, code: ErrorCode, category: ErrorCategory, cause: Option<string>)
    | PlainError(message: string)
    | NotAnError(text: string)

  /** `new UserCreationError(uuid, message, cause)`: always `USER_CREATION_FAILED` in the USER
      category, the pair src/api/errors.test.ts:41-50 expects. */
  function NewUserCreationError(uuid: string, message: string, cause: Option<string>): (r: Thrown)
    ensures r.ApiError? && r.kind == UserCreation(uuid)
    ensures r.code == UserCreationFailed && r.category == UserCategory
    ensures r.message == message && r.cause == cause
  {
    ApiError(UserCreation(uuid), message, UserCreationFailed, UserCategory, cause)
  }

  /** `new DatabaseError(dbName, message, code?, cause)`: always in the DATABASE category, with
      the code defaulting to `DATABASE_CREATION_FAILED`, as src/api/errors.test.ts:52-71 expects. */
  function NewDatabaseError(dbName: string, message: string, code: Option<ErrorCode>, cause: Option<string>): (r: Thrown)
    ensures r.ApiError? && r.kind == Database(dbName) && r.category == DatabaseCategory
    ensures code.None? ==> r.code == DatabaseCreationFailed
    ensures code.Some? ==> r.code == code.value
    ensures r.message == message && r.cause == cause
  {
    ApiError(Database(dbName), message, code.GetOr(DatabaseCreationFailed), DatabaseCategory, cause)
  }

  /** `new ConnectionError(message, cause)`: always `CONNECTION_FAILED` in the CONNECTION
      category, the pair src/api/errors.test.ts:73-81 expects. */
  function NewConnectionError(message: string, cause: Option<string>): (r: Thrown)
    ensures r.ApiError? && r.kind == Connection
    ensures r.code == ConnectionFailed && r.category == ConnectionCategory
    ensures r.message == message && r.cause == cause
  {
    ApiError(Connection, message, ConnectionFailed, ConnectionCategory, cause)
  }

  /** The `name` property each class sets. */
  function Name(t: Thrown): string {
    match t
    case ApiError(kind, _, _, _, _) =>
      (match kind
       case BaseApi => "ApiError"
       case UserCreation(_) => "UserCreationError"
       case Database(_) => "DatabaseError"
       case Connection => "ConnectionError")
    case PlainError(_) => "Error"
    case NotAnError(_) => ""
  }

  /** `isApiError`: `instanceof ApiError`. */
  predicate IsApiError(t: Thrown) {
    t.ApiError?
  }

  /** `instanceof Error`. */
  predicate IsError(t: Thrown) {
    !t.NotAnError?
  }

  /** `getErrorMessage`: `.message` of an `Error`, `String(x)` of anything else. */
  function GetErrorMessage(t: Thrown): string {
    match t
    case ApiError(_, message, _, _, _) => message
    case PlainError(message) => message
    case NotAnError(text) => text
  }

  /** The cause a wrapper records for a caught value: `error instanceof Error ? error : undefined`. */
  function CauseOf(t: Thrown): (r: Option<string>)
    ensures r.Some? <==> IsError(t)
    ensures r.Some? ==> r.value == GetErrorMessage(t)
  {
    if IsError(t) then Some(GetErrorMessage(t)) else None
  }

  /** Every subclass instance is an `ApiError` and an `Error`; plain errors and thrown non-errors
      are not `ApiError`s; the message is what the constructor received. */
  lemma Classification(uuid: string, dbName: string, message: string, code: Option<ErrorCode>, cause: Option<string>, text: string)
    ensures IsApiError(NewUserCreationError(uuid, message, cause)) && IsError(NewUserCreationError(uuid, message, cause))
    ensures IsApiError(NewDatabaseError(dbName, message, code, cause))
    ensures IsApiError(NewConnectionError(message, cause))
    ensures !IsApiError(PlainError(message)) && IsError(PlainError(message))
    ensures !IsApiError(NotAnError(text)) && !IsError(NotAnError(text))
    ensures GetErrorMessage(NewDatabaseError(dbName, message, code, cause)) == message
    ensures GetErrorMessage(NotAnError(text)) == text
    ensures Name(NewUserCreationError(uuid, message, cause)) == "UserCreationError"
    ensures Name(NewDatabaseError(dbName, message, code, cause)) == "DatabaseError"
    ensures Name(NewConnectionError(message, cause)) == "ConnectionError"
  {
  }
}

=== FILE: app.dfy ===
/**
 * The vault screen of src/app/components/App.tsx as a transition system.
 * React state becomes the fields of `State`. Each awaited service call
 * becomes an event that carries its result. The inactivity timer becomes a
 * deadline: `Activity` re-arms it and `Tick(now)` fires it once `now` reaches
 * the deadline. `Step` also models the effect hook: whenever
 * `isAuthenticated` flips, the timer is cleared and re-armed if authenticated.
 * The other effect of such a flip, re-running `loadInitialData`, is the
 * separate `Load` event, since its service answers are inputs: a trace
 * includes it where the page performs it.
 */
module App {
  import opened Wrappers
  import opened DocStore

  /** `INACTIVITY_TIMEOUT`: two minutes, in milliseconds. */
  const InactivityTimeout: nat := 2 * 60 * 1000

  const UnknownError: string := "Unknown error"
  const InvalidPasswordMessage: string := "Invalid master password. Please try again."
  const InvalidRecoveryMessage: string := "Invalid recovery words. Please try again."

  /** `OnboardingStage`. */
  datatype Stage = SecretStage | Master | Recovery | Sign | Code | Finished

  /** The values `showForm` takes (besides null). `NullText` is the string `'null'` that the
      recovery form's Cancel passes: no member of `FormState`, and truthy, so it opens no form
      and skips the clean-up that closing with null performs. */
  datatype Form = SecretForm | MasterPasswordForm | RecoveryForm | SignForm | CodeForm | EmailForm | EmailCodeForm | NullText

  datatype MasterPassword = MasterPassword(password: string, hint: Option<string>)

  datatype State = State(
    stage: Stage,
    secrets: seq<Doc>,
    showForm: Option<Form>,
    isAuthenticated: bool,
    email: Option<string>,
    formError: Option<string>,
    failedSecret: Option<Doc>,
    failedMasterPassword: Option<MasterPassword>,
    lockDeadline: Option<nat>,
    cacheClears: nat)

  /** The state on mount. */
  const Initial: State := State(Finished, [], None, false, None, None, None, None, None, 0)

  /** What `createSecret` reported to `addSecret`. */
  datatype AddResult = Added(id: string) | AddFailed(error: Option<string>)

  datatype Event =
    | Load(storedStage: Option<Stage>, loaded: Option<seq<Doc>>, storedEmail: Option<string>)
    | ShowForm(form: Option<Form>)
    | AddSecret(secret: Doc, result: AddResult)
    | RemoveSecret(id: string)
    | AddMasterPassword(mp: MasterPassword, stored: bool, error: Option<string>)
    | RecoveryContinue
    | Unlock(verified: bool, loaded: Option<seq<Doc>>)
    | RecoveryAttempt(verified: bool, loaded: Option<seq<Doc>>)
    | Email(address: string, stored: bool, error: Option<string>)
    | CodeEntered(code: string)
    | Activity
    | Tick

  /** The stage that follows `st` in onboarding. */
  function Next(st: Stage): Stage {
    match st
    case SecretStage => Master
    case Master => Recovery
    case Recovery => Sign
    case Sign => Code
    case Code => Finished
    case Finished => Finished
  }

  /** The form each stage opens with. */
  function FormFor(st: Stage): Option<Form> {
    match st
    case SecretStage => Some(SecretForm)
    case Master => Some(MasterPasswordForm)
    case Recovery => None
    case Sign => Some(SignForm)
    case Code => Some(CodeForm)
    case Finished => None
  }

  /** `initOnboarding(stage)`. */
  function InitOnboarding(s: State, st: Stage): (r: State)
    ensures r.stage == st && r.showForm == FormFor(st)
    ensures r.isAuthenticated == (s.isAuthenticated || st == SecretStage || st == Master)
    ensures r == s.(stage := r.stage, showForm := r.showForm, isAuthenticated := r.isAuthenticated)
  {
    var r := s.(stage := st, showForm := FormFor(st));
    if st == SecretStage || st == Master then r.(isAuthenticated := true) else r
  }

  /** Every entry whose `_id` differs from `id`, in order (`prevSecrets.filter`). */
  function WithoutId(list: seq<Doc>, id: string): (r: seq<Doc>)
    ensures |r| <= |list|
    ensures forall d :: d in r <==> d in list && !(IdField in d && d[IdField] == id)
  {
    if |list| == 0 then []
    else
      var rest := WithoutId(list[1..], id);
      assert forall d :: d in list <==> d == list[0] || d in list[1..];
      if IdField in list[0] && list[0][IdField] == id then rest else [list[0]] + rest
  }

  /** `WithoutId` keeps the relative order of the entries it keeps: removing entries before and
      after a split is the same as removing them from the whole list. */
  lemma {:induction false} WithoutIdAppend(a: seq<Doc>, b: seq<Doc>, id: string)
    ensures WithoutId(a + b, id) == WithoutId(a, id) + WithoutId(b, id)
  {
    if |a| == 0 {
      assert a + b == b;
    } else {
      assert (a + b)[1..] == a[1..] + b;
      WithoutIdAppend(a[1..], b, id);
    }
  }

  /** The state after an event, before the timer effect: the lock timer and the key cache
      are left to `Step`. */
  function Apply(s: State, e: Event): (r: State)
    ensures r.lockDeadline == s.lockDeadline && r.cacheClears == s.cacheClears
  {
    match e
    case Load(storedStage, loaded, storedEmail) =>
      var s1 := if storedStage.Some? then InitOnboarding(s, storedStage.value) else s;
      if !s.isAuthenticated then s1
      else s1.(secrets := loaded.GetOr(s1.secrets),
               email := if storedEmail.Some? && storedEmail.value != "" then storedEmail else s1.email)
    case ShowForm(form) =>
      if form.Some? then s.(showForm := form)
      else InitOnboarding(s.(showForm := None, formError := None, failedSecret := None, failedMasterPassword := None), s.stage)
    case AddSecret(secret, result) =>
      var s0 := s.(formError := None, failedSecret := None);
      if result.Added? then
        var s1 := s0.(secrets := [secret[IdField := result.id]] + s0.secrets);
        if s.stage == SecretStage then InitOnboarding(s1, Master) else s1
      else
        s0.(formError := Some(result.error.GetOr(UnknownError)), failedSecret := Some(secret), showForm := Some(SecretForm))
    case RemoveSecret(id) => s.(secrets := WithoutId(s.secrets, id))
    case AddMasterPassword(mp, stored, error) =>
      var s0 := s.(formError := None, failedMasterPassword := None);
      if stored then
        if s.stage == Master then InitOnboarding(s0, Recovery).(isAuthenticated := true) else s0
      else s0.(formError := Some(error.GetOr(UnknownError)), failedMasterPassword := Some(mp))
    case RecoveryContinue =>
      if s.stage == Recovery then InitOnboarding(s, Sign) else s
    case Unlock(verified, loaded) =>
      var s0 := s.(formError := None);
      if verified then s0.(isAuthenticated := true, secrets := loaded.GetOr(s0.secrets))
      else s0.(formError := Some(InvalidPasswordMessage))
    case RecoveryAttempt(verified, loaded) =>
      var s0 := s.(formError := None);
      if verified then s0.(isAuthenticated := true, showForm := None, secrets := loaded.GetOr(s0.secrets))
      else s0.(formError := Some(InvalidRecoveryMessage))
    case Email(address, stored, error) =>
      var s0 := s.(formError := None);
      if stored then (if s.stage == Sign then InitOnboarding(s0, Code) else s0).(email := Some(address))
      else s0.(formError := Some(error.GetOr(UnknownError)))
    case CodeEntered(_) =>
      var s0 := s.(formError := None);
      if s.stage == Code then InitOnboarding(s0, Finished) else s0
    case Activity => s
    case Tick => s
  }

  /** The recovery form's Cancel as written: `handleSetShowForm('null')`. */
  const CancelRecovery: Event := ShowForm(Some(NullText))

  /** The Cancel the commented-out error reset points to: `handleSetShowForm(null)`. */
  const IntendedCancelRecovery: Event := ShowForm(None)

  /** The timer callback: secrets dropped, key cache cleared, form hidden, locked. */
  function Lock(s: State): (r: State)
    ensures !r.isAuthenticated && r.lockDeadline.None? && r.secrets == [] && r.showForm.None?
    ensures r.cacheClears == s.cacheClears + 1
    ensures r.stage == s.stage && r.email == s.email
  {
    s.(secrets := [], cacheClears := s.cacheClears + 1, showForm := None, isAuthenticated := false, lockDeadline := None)
  }

  /** `startLockTimer` at time `now`: any pending timer is cancelled, and a new one is armed only
      while authenticated. */
  function Rearm(s: State, now: nat): (r: State)
    ensures r.lockDeadline.Some? <==> r.isAuthenticated
    ensures r == s.(lockDeadline := r.lockDeadline)
  {
    s.(lockDeadline := if s.isAuthenticated then Some(now + InactivityTimeout) else None)
  }

  /** One event at time `now`, including the timer effect. Only the timer callback clears the
      key cache, and it locks the vault when it does. */
  function Step(s: State, e: Event, now: nat): (r: State)
    ensures r.cacheClears != s.cacheClears ==>
      e.Tick? && s.lockDeadline.Some? && now >= s.lockDeadline.value && !r.isAuthenticated && r.secrets == []
  {
    match e
    case Activity => Rearm(s, now)
    case Tick => if s.lockDeadline.Some? && now >= s.lockDeadline.value then Lock(s) else s
    case _ =>
      var s1 := Apply(s, e);
      if s1.isAuthenticated != s.isAuthenticated then Rearm(s1, now) else s1
  }

  /** The inactivity lock flips `isAuthenticated`, which re-runs the initial load. When the
      stored stage is `secret` or `master`, `initOnboarding` authenticates again, reopens that
      stage's form and re-arms the timer; from any other stage the vault stays locked. */
  lemma LockThenLoadReauthenticates(s: State, t: nat, st: Stage, loaded: Option<seq<Doc>>, storedEmail: Option<string>)
    requires s.lockDeadline.Some? && t >= s.lockDeadline.value
    ensures var locked := Step(s, Tick, t);
      var r := Step(locked, Load(Some(st), loaded, storedEmail), t);
      && !locked.isAuthenticated
      && (r.isAuthenticated <==> st == SecretStage || st == Master)
      && r.stage == st && r.showForm == FormFor(st) && r.secrets == []
      && (r.isAuthenticated ==> r.lockDeadline == Some(t + InactivityTimeout))
  {
  }

  /** A timer is pending exactly while the vault is unlocked. */
  predicate TimerInvariant(s: State) {
    s.lockDeadline.Some? <==> s.isAuthenticated
  }

  lemma StepKeepsTimerInvariant(s: State, e: Event, now: nat)
    requires TimerInvariant(s)
    ensures TimerInvariant(Step(s, e, now))
  {
  }

  /** Events applied in order, each at its time. */
  function Run(s: State, events: seq<(Event, nat)>): State
    decreases |events|
  {
    if |events| == 0 then s else Run(Step(s, events[0].0, events[0].1), events[1..])
  }

  /** Every reachable state keeps the timer invariant. */
  lemma {:induction false} RunKeepsTimerInvariant(s: State, events: seq<(Event, nat)>)
    requires TimerInvariant(s)
    ensures TimerInvariant(Run(s, events))
    decreases |events|
  {
    if |events| > 0 {
      StepKeepsTimerInvariant(s, events[0].0, events[0].1);
      RunKeepsTimerInvariant(Step(s, events[0].0, events[0].1), events[1..]);
    }
  }

  /** The event that moves each stage on, with the success it needs. */
  predicate Advances(st: Stage, e: Event) {
    match st
    case SecretStage => e.AddSecret? && e.result.Added?
    case Master => e.AddMasterPassword? && e.stored
    case Recovery => e.RecoveryContinue?
    case Sign => e.Email? && e.stored
    case Code => e.CodeEntered?
    case Finished => false
  }

  /** Apart from loading the stored stage, the stage only moves one step forward, and it does so
      exactly on the event that belongs to the current stage and succeeded. */
  lemma StageAdvancesOnlyByGuard(s: State, e: Event, now: nat)
    requires !e.Load?
    ensures Advances(s.stage, e) ==> Step(s, e, now).stage == Next(s.stage)
    ensures !Advances(s.stage, e) ==> Step(s, e, now).stage == s.stage
  {
  }

  /** Rank of a stage in onboarding order. */
  function Rank(st: Stage): nat {
    match st
    case SecretStage => 0
    case Master => 1
    case Recovery => 2
    case Sign => 3
    case Code => 4
    case Finished => 5
  }

  /** Without loads, onboarding never goes back. */
  lemma {:induction false} RunNeverGoesBack(s: State, events: seq<(Event, nat)>)
    requires forall i :: 0 <= i < |events| ==> !events[i].0.Load?
    ensures Rank(Run(s, events).stage) >= Rank(s.stage)
    decreases |events|
  {
    if |events| > 0 {
      StageAdvancesOnlyByGuard(s, events[0].0, events[0].1);
      assert forall i :: 0 <= i < |events[1..]| ==> events[1..][i] == events[i + 1];
      RunNeverGoesBack(Step(s, events[0].0, events[0].1), events[1..]);
    }
  }

  /** `handleUnlock`: from a locked state the vault unlocks exactly when the password verifies;
      otherwise the error is shown and nothing else changes. */
  lemma UnlockGate(s: State, verified: bool, loaded: Option<seq<Doc>>, now: nat)
    requires !s.isAuthenticated
    ensures var r := Step(s, Unlock(verified, loaded), now);
      && (r.isAuthenticated <==> verified)
      && (verified ==> r.lockDeadline == Some(now + InactivityTimeout) && r.formError.None?)
      && (verified && loaded.Some? ==> r.secrets == loaded.value)
      && (!verified ==> r == s.(formError := Some(InvalidPasswordMessage)))
  {
  }

  /** `handleRecoveryAttempt`: as unlocking, but the form is also hidden, and the failure
      message differs. */
  lemma RecoveryGate(s: State, verified: bool, loaded: Option<seq<Doc>>, now: nat)
    requires !s.isAuthenticated
    ensures var r := Step(s, RecoveryAttempt(verified, loaded), now);
      && (r.isAuthenticated <==> verified)
      && (verified ==> r.showForm.None? && r.lockDeadline == Some(now + InactivityTimeout))
      && (!verified ==> r == s.(formError := Some(InvalidRecoveryMessage)))
  {
  }

  /** Activity while unlocked replaces the pending timer: a tick before the new deadline does
      nothing, and a tick at or after it locks the vault and drops the secrets. */
  lemma ActivityPostponesLock(s: State, t: nat, later: nat)
    requires TimerInvariant(s) && s.isAuthenticated
    ensures var armed := Step(s, Activity, t);
      && armed.lockDeadline == Some(t + InactivityTimeout)
      && (later < t + InactivityTimeout ==> Step(armed, Tick, later) == armed)
      && (later >= t + InactivityTimeout ==>
            var locked := Step(armed, Tick, later);
            && !locked.isAuthenticated && locked.secrets == [] && locked.showForm.None?
            && locked.lockDeadline.None? && locked.cacheClears == s.cacheClears + 1)
  {
  }

  /** While locked, activity arms nothing and ticks do nothing. */
  lemma LockedStaysLocked(s: State, t: nat)
    requires TimerInvariant(s) && !s.isAuthenticated
    ensures Step(s, Activity, t) == s
    ensures Step(s, Tick, t) == s
  {
  }

  /** `addSecret`: on success the saved secret (with its new id) goes to the front; on failure
      the list is kept and the error and the secret are kept for the form. */
  lemma AddSecretEffect(s: State, secret: Doc, result: AddResult, now: nat)
    ensures var r := Step(s, AddSecret(secret, result), now);
      && (result.Added? ==> r.secrets == [secret[IdField := result.id]] + s.secrets)
      && (result.AddFailed? ==>
            && r.secrets == s.secrets
            && r.formError == Some(result.error.GetOr(UnknownError))
            && r.failedSecret == Some(secret)
            && r.showForm == Some(SecretForm)
            && r.stage == s.stage)
  {
  }

  /** `removeSecret(id)`: every entry with that id goes, every other entry stays. */
  lemma RemoveSecretEffect(s: State, id: string, now: nat)
    ensures var r := Step(s, RemoveSecret(id), now);
      && (forall d :: d in r.secrets ==> !(IdField in d && d[IdField] == id))
      && (forall d :: d in s.secrets && !(IdField in d && d[IdField] == id) ==> d in r.secrets)
      && r.isAuthenticated == s.isAuthenticated
  {
  }

  /** What the page shows. */
  datatype Panel =
    | HeaderPanel | SecretFormPanel | MasterPasswordPanel | RecoveryDisplayPanel
    | SignUpPanel | CodePanel | StoredSecretsPanel(list: seq<Doc>) | RecoveryFormPanel | UnlockPanel

  /** The rendered panels, top to bottom; `LockedViewHidesSecrets` states which of them a
      locked vault shows. */
  function Render(s: State): (r: seq<Panel>)
    ensures |r| >= 1
  {
    (if s.isAuthenticated then [HeaderPanel] else [])
    + (if s.showForm == Some(SecretForm) then [SecretFormPanel] else [])
    + (if s.showForm == Some(MasterPasswordForm) then [MasterPasswordPanel] else [])
    + (if s.stage == Recovery && s.isAuthenticated then [RecoveryDisplayPanel] else [])
    + (if s.showForm == Some(SignForm) && s.isAuthenticated then [SignUpPanel] else [])
    + (if s.showForm == Some(CodeForm) && s.email.Some? && s.email.value != "" then [CodePanel] else [])
    + [if s.isAuthenticated then StoredSecretsPanel(s.secrets)
       else if s.showForm == Some(RecoveryForm) then RecoveryFormPanel
       else UnlockPanel]
  }

  /** Cancel on the locked recovery form, as written: the page falls back to the unlock form,
      but the recovery error, the failed form data and the onboarding state all stay, so the
      unlock form shows the stale recovery error. */
  lemma CancelRecoveryKeepsError(s: State, now: nat)
    requires !s.isAuthenticated && s.showForm == Some(RecoveryForm)
    ensures var r := Step(s, CancelRecovery, now);
      && r == s.(showForm := Some(NullText))
      && Render(s)[|Render(s)| - 1] == RecoveryFormPanel
      && Render(r)[|Render(r)| - 1] == UnlockPanel
      && !r.isAuthenticated && r.formError == s.formError
  {
  }

  /** Cancel on the locked recovery form with null, as intended: the error and the failed form
      data are cleared and `initOnboarding` re-opens the stage. Outside the `secret` and
      `master` stages the page shows the unlock form with no error; in those two stages it
      authenticates, as every `initOnboarding` of theirs does. */
  lemma IntendedCancelClearsError(s: State, now: nat)
    requires !s.isAuthenticated && s.showForm == Some(RecoveryForm)
    ensures var r := Step(s, IntendedCancelRecovery, now);
      && r.formError.None? && r.failedSecret.None? && r.failedMasterPassword.None?
      && r.stage == s.stage && r.showForm == FormFor(s.stage)
      && (r.isAuthenticated <==> s.stage == SecretStage || s.stage == Master)
      && (!r.isAuthenticated ==> Render(r)[|Render(r)| - 1] == UnlockPanel)
  {
  }

  /** The secret list is on the page exactly while unlocked; locked, the page ends in the
      recovery form or the unlock form. */
  lemma LockedViewHidesSecrets(s: State)
    ensures (exists i :: 0 <= i < |Render(s)| && Render(s)[i].StoredSecretsPanel?) <==> s.isAuthenticated
    ensures !s.isAuthenticated ==>
      Render(s)[|Render(s)| - 1] == (if s.showForm == Some(RecoveryForm) then RecoveryFormPanel else UnlockPanel)
  {
    var r := Render(s);
    if s.isAuthenticated {
      assert r[|r| - 1].StoredSecretsPanel?;
    } else {
      assert forall i :: 0 <= i < |r| ==> !r[i].StoredSecretsPanel?;
    }
  }
}

=== FILE: base64.dfy ===
/**
 * Standard Base64 with padding (section 4 of RFC 4648), as produced by `btoa`,
 * and the "forgiving-base64 decode" that `atob` runs on its argument.
 * `btoa`/`atob` work on binary strings whose characters are the bytes
 * U+0000..U+00FF; the model works on the bytes directly.
 */
module Base64 {
  import opened Wrappers
  import opened Bytes

  /** The 64-character alphabet of Table 1 of RFC 4648. */
  predicate IsBase64Char(c: char) {
    'A' <= c <= 'Z' || 'a' <= c <= 'z' || '0' <= c <= '9' || c == '+' || c == '/'
  }

  predicate AllBase64(s: string) {
    forall i :: 0 <= i < |s| ==> IsBase64Char(s[i])
  }

  /** The alphabet character for a 6-bit value. */
  function CharOf(v: nat): (c: char)
    requires v < 64
    ensures IsBase64Char(c)
  {
    if v < 26 then ('A' as int + v) as char
    else if v < 52 then ('a' as int + (v - 26)) as char
    else if v < 62 then ('0' as int + (v - 52)) as char
    else if v == 62 then '+'
    else '/'
  }

  /** The 6-bit value of an alphabet character; the inverse of `CharOf`. */
  function ValueOf(c: char): (v: nat)
    requires IsBase64Char(c)
    ensures v < 64 && CharOf(v) == c
  {
    if 'A' <= c <= 'Z' then c as int - 'A' as int
    else if 'a' <= c <= 'z' then c as int - 'a' as int + 26
    else if '0' <= c <= '9' then c as int - '0' as int + 52
    else if c == '+' then 62
    else 63
  }

  lemma ValueOfCharOf(v: nat)
    requires v < 64
    ensures ValueOf(CharOf(v)) == v
  {
  }

  /** The four characters of one full group of three bytes: each carries six bits, high bits first. */
  function EncodeGroup(b0: byte, b1: byte, b2: byte): (g: string)
    ensures |g| == 4 && AllBase64(g)
  {
    [CharOf(b0 / 4), CharOf((b0 % 4) * 16 + b1 / 16), CharOf((b1 % 16) * 4 + b2 / 64), CharOf(b2 % 64)]
  }

  /** The alphabet characters for `b`, without padding: 4 per full 3-byte group, 2 or 3 for a tail. */
  function EncodeRaw(b: seq<byte>): (r: string)
    ensures AllBase64(r)
    ensures |r| % 4 != 1
  {
    if |b| == 0 then ""
    else if |b| == 1 then [CharOf(b[0] / 4), CharOf((b[0] % 4) * 16)]
    else if |b| == 2 then [CharOf(b[0] / 4), CharOf((b[0] % 4) * 16 + b[1] / 16), CharOf((b[1] % 16) * 4)]
    else EncodeGroup(b[0], b[1], b[2]) + EncodeRaw(b[3..])
  }

  /** Four characters per full group of three bytes, and two or three for a tail of one or two. */
  lemma {:induction false} EncodeRawLength(b: seq<byte>)
    ensures |EncodeRaw(b)| == 4 * (|b| / 3) + (if |b| % 3 == 0 then 0 else |b| % 3 + 1)
  {
    if |b| >= 3 {
      EncodeRawLength(b[3..]);
      assert |b| / 3 == |b[3..]| / 3 + 1;
      assert |b| % 3 == |b[3..]| % 3;
    }
  }

  /** `btoa`: the raw characters padded with `=` to a multiple of four. */
  function Encode(b: seq<byte>): (r: string)
    ensures |r| % 4 == 0
    ensures forall i :: 0 <= i < |r| ==> IsBase64Char(r[i]) || r[i] == '='
  {
    var raw := EncodeRaw(b);
    raw + (if |raw| % 4 == 2 then "==" else if |raw| % 4 == 3 then "=" else "")
  }

  /** The ASCII white space that forgiving-base64 decode strips: TAB, LF, FF, CR and SPACE. */
  predicate IsAsciiWhitespace(c: char) {
    c == '\t' || c == '\n' || c == '\U{000C}' || c == '\r' || c == ' '
  }

  function RemoveAsciiWhitespace(s: string): (r: string)
    ensures |r| <= |s|
    ensures forall i :: 0 <= i < |r| ==> !IsAsciiWhitespace(r[i])
  {
    if |s| == 0 then ""
    else if IsAsciiWhitespace(s[0]) then RemoveAsciiWhitespace(s[1..])
    else [s[0]] + RemoveAsciiWhitespace(s[1..])
  }

  /** Drops one or two trailing `=` when the length is a multiple of four. */
  function StripPadding(s: string): string {
    if |s| % 4 != 0 then s
    else if |s| >= 2 && s[|s| - 2..] == "==" then s[..|s| - 2]
    else if |s| >= 1 && s[|s| - 1] == '=' then s[..|s| - 1]
    else s
  }

  /** The three bytes four alphabet characters stand for. */
  function DecodeGroup(c0: char, c1: char, c2: char, c3: char): (r: seq<byte>)
    requires IsBase64Char(c0) && IsBase64Char(c1) && IsBase64Char(c2) && IsBase64Char(c3)
    ensures |r| == 3
  {
    [ ValueOf(c0) * 4 + ValueOf(c1) / 16,
      (ValueOf(c1) % 16) * 16 + ValueOf(c2) / 4,
      (ValueOf(c2) % 4) * 64 + ValueOf(c3) ]
  }

  /** Decodes alphabet characters, four to three bytes; a 2- or 3-character tail yields 1 or 2 bytes
      and its leftover low bits are discarded. */
  function DecodeRaw(t: string): (r: seq<byte>)
    requires AllBase64(t) && |t| % 4 != 1
  {
    if |t| == 0 then []
    else if |t| == 2 then [ValueOf(t[0]) * 4 + ValueOf(t[1]) / 16]
    else if |t| == 3 then
      [ValueOf(t[0]) * 4 + ValueOf(t[1]) / 16, (ValueOf(t[1]) % 16) * 16 + ValueOf(t[2]) / 4]
    else DecodeGroup(t[0], t[1], t[2], t[3]) + DecodeRaw(t[4..])
  }

  /** `atob`: the forgiving-base64 decode; `None` is the `InvalidCharacterError` it throws. */
  function Decode(s: string): (r: Option<seq<byte>>)
    ensures r.Some? ==> |StripPadding(RemoveAsciiWhitespace(s))| % 4 != 1
  {
    var t := StripPadding(RemoveAsciiWhitespace(s));
    if |t| % 4 == 1 || !AllBase64(t) then None else Some(DecodeRaw(t))
  }

  /** Splitting a value into a quotient and a remainder by a constant and joining them back. */
  lemma Join16(x: nat, y: nat)
    requires y < 16
    ensures (x * 16 + y) / 16 == x && (x * 16 + y) % 16 == y
  {
  }

  lemma Join4(x: nat, y: nat)
    requires y < 4
    ensures (x * 4 + y) / 4 == x && (x * 4 + y) % 4 == y
  {
  }

  /** The four 6-bit values of a full group put back together give its three bytes. */
  lemma FullGroup(b0: byte, b1: byte, b2: byte)
    ensures var v0, v1, v2, v3 := b0 / 4, (b0 % 4) * 16 + b1 / 16, (b1 % 16) * 4 + b2 / 64, b2 % 64;
      && v0 * 4 + v1 / 16 == b0
      && (v1 % 16) * 16 + v2 / 4 == b1
      && (v2 % 4) * 64 + v3 == b2
  {
    Join16(b0 % 4, b1 / 16);
    Join4(b1 % 16, b2 / 64);
  }

  /** The four characters of one full group decode back to its three bytes. */
  lemma GroupRoundTrip(b0: byte, b1: byte, b2: byte)
    ensures var g := EncodeGroup(b0, b1, b2);
      DecodeGroup(g[0], g[1], g[2], g[3]) == [b0, b1, b2]
  {
    ValueOfCharOf(b0 / 4);
    ValueOfCharOf((b0 % 4) * 16 + b1 / 16);
    ValueOfCharOf((b1 % 16) * 4 + b2 / 64);
    ValueOfCharOf(b2 % 64);
    FullGroup(b0, b1, b2);
  }

  /** A one-byte tail: two characters decode back to the byte. */
  lemma OneByteTail(b0: byte)
    ensures DecodeRaw(EncodeRaw([b0])) == [b0]
  {
    var v0, v1 := b0 / 4, (b0 % 4) * 16;
    ValueOfCharOf(v0);
    ValueOfCharOf(v1);
    Join16(b0 % 4, 0);
  }

  /** A two-byte tail: three characters decode back to the two bytes. */
  lemma TwoByteTail(b0: byte, b1: byte)
    ensures DecodeRaw(EncodeRaw([b0, b1])) == [b0, b1]
  {
    var v0, v1, v2 := b0 / 4, (b0 % 4) * 16 + b1 / 16, (b1 % 16) * 4;
    ValueOfCharOf(v0);
    ValueOfCharOf(v1);
    ValueOfCharOf(v2);
    Join16(b0 % 4, b1 / 16);
    Join4(b1 % 16, 0);
  }

  /** Decoding works group by group. */
  lemma DecodeRawAppend(g: string, rest: string)
    requires |g| == 4 && AllBase64(g) && AllBase64(rest) && |rest| % 4 != 1
    ensures AllBase64(g + rest) && |g + rest| % 4 != 1
    ensures DecodeRaw(g + rest) == DecodeGroup(g[0], g[1], g[2], g[3]) + DecodeRaw(rest)
  {
    var t := g + rest;
    assert t[4..] == rest;
  }

  /** Decoding the raw characters of `b` gives back `b`. */
  lemma {:induction false} DecodeRawEncodeRaw(b: seq<byte>)
    ensures DecodeRaw(EncodeRaw(b)) == b
  {
    if |b| == 0 {
    } else if |b| == 1 {
      OneByteTail(b[0]);
      assert b == [b[0]];
    } else if |b| == 2 {
      TwoByteTail(b[0], b[1]);
      assert b == [b[0], b[1]];
    } else {
      DecodeRawEncodeRaw(b[3..]);
      GroupStep(b);
    }
  }

  /** The inductive step of the round trip: a full group in front of a tail that round-trips. */
  lemma GroupStep(b: seq<byte>)
    requires |b| >= 3 && DecodeRaw(EncodeRaw(b[3..])) == b[3..]
    ensures DecodeRaw(EncodeRaw(b)) == b
  {
    var g := EncodeGroup(b[0], b[1], b[2]);
    var rest := EncodeRaw(b[3..]);
    GroupRoundTrip(b[0], b[1], b[2]);
    DecodeRawAppend(g, rest);
    SplitFirstGroup(b);
  }

  lemma SplitFirstGroup(b: seq<byte>)
    requires |b| >= 3
    ensures b == [b[0], b[1], b[2]] + b[3..]
  {
  }

  lemma RemoveAsciiWhitespaceNoop(s: string)
    requires forall i :: 0 <= i < |s| ==> IsBase64Char(s[i]) || s[i] == '='
    ensures RemoveAsciiWhitespace(s) == s
  {
    if |s| > 0 {
      RemoveAsciiWhitespaceNoop(s[1..]);
      assert s == [s[0]] + s[1..];
    }
  }

  /** Round trip: `atob(btoa(x))` recovers every byte sequence `x`. */
  lemma DecodeEncode(b: seq<byte>)
    ensures Decode(Encode(b)) == Some(b)
  {
    var raw := EncodeRaw(b);
    var e := Encode(b);
    RemoveAsciiWhitespaceNoop(e);
    var t := StripPadding(e);
    if |raw| % 4 == 2 {
      assert e[|e| - 2..] == "==";
      assert t == raw;
    } else if |raw| % 4 == 3 {
      assert e[|e| - 1] == '=';
      assert raw[|raw| - 1] != '=';
      assert e[|e| - 2..] != "==" by { assert e[|e| - 2] == raw[|raw| - 1]; }
      assert t == raw;
    } else {
      assert e == raw;
      if |raw| > 0 {
        assert raw[|raw| - 1] != '=';
      }
      assert t == raw;
    }
    DecodeRawEncodeRaw(b);
  }
}

=== FILE: build_args.dfy ===
/**
 * The command-line parser of build.ts: `toCamelCase`, `parseValue` and
 * `parseArgs` over an explicit argument list (what `process.argv.slice(2)`
 * holds). The float branch of `parseValue` is kept as a branch, with the
 * number left as its text.
 */
module BuildArgs {
  import opened Wrappers
  import opened Text

  predicate IsLower(c: char) {
    'a' <= c <= 'z'
  }

  predicate IsUpper(c: char) {
    'A' <= c <= 'Z'
  }

  function Upper(c: char): (r: char)
    requires IsLower(c)
    ensures IsUpper(r)
  {
    (c as int - 32) as char
  }

  /** A `-` at `i` followed by a lower-case letter: a match of `/-([a-z])/`. */
  predicate HyphenLowerAt(s: string, i: int)
    requires 0 <= i < |s| - 1
  {
    s[i] == '-' && IsLower(s[i + 1])
  }

  /** Nothing is left for `toCamelCase` to replace. */
  predicate NoHyphenLower(s: string) {
    forall i :: 0 <= i < |s| - 1 ==> !HyphenLowerAt(s, i)
  }

  /** `str.replace(/-([a-z])/g, g => g[1].toUpperCase())`: matches are found left to right and
      do not overlap. */
  function Camel(s: string): (r: string)
    ensures |r| <= |s|
    ensures |s| > 0 ==> |r| > 0 && (r[0] == s[0] || (|s| >= 2 && HyphenLowerAt(s, 0) && r[0] == Upper(s[1])))
    ensures NoHyphenLower(r)
  {
    if |s| >= 2 && HyphenLowerAt(s, 0) then
      var rest := Camel(s[2..]);
      var r := [Upper(s[1])] + rest;
      assert forall i :: 1 <= i < |r| - 1 ==> HyphenLowerAt(r, i) == HyphenLowerAt(rest, i - 1);
      r
    else if |s| == 0 then ""
    else
      var rest := Camel(s[1..]);
      var r := [s[0]] + rest;
      assert forall i :: 1 <= i < |r| - 1 ==> HyphenLowerAt(r, i) == HyphenLowerAt(rest, i - 1);
      r
  }

  /** A string with nothing to replace is its own camel case. */
  lemma {:induction false} CamelFixed(s: string)
    requires NoHyphenLower(s)
    ensures Camel(s) == s
  {
    if |s| > 0 {
      assert !(|s| >= 2 && HyphenLowerAt(s, 0));
      forall i | 0 <= i < |s| - 2 ensures !HyphenLowerAt(s[1..], i) {
        assert !HyphenLowerAt(s, i + 1);
      }
      CamelFixed(s[1..]);
      assert s == [s[0]] + s[1..];
    }
  }

  /** `toCamelCase` is idempotent. */
  lemma CamelIdempotent(s: string)
    ensures Camel(Camel(s)) == Camel(s)
  {
    CamelFixed(Camel(s));
  }

  function LowerOf(c: char): (r: char)
    requires IsUpper(c)
    ensures IsLower(r) && Upper(r) == c
  {
    (c as int + 32) as char
  }

  /** The kebab-case spelling of a camel-case key: each capital `X` becomes `-x`. */
  function Kebab(s: string): (r: string)
    ensures |r| >= |s|
  {
    if |s| == 0 then ""
    else if IsUpper(s[0]) then "-" + [LowerOf(s[0])] + Kebab(s[1..])
    else [s[0]] + Kebab(s[1..])
  }

  /** For keys without hyphens, `toCamelCase` inverts the kebab-case spelling. */
  lemma {:induction false} CamelOfKebab(s: string)
    requires '-' !in s
    ensures Camel(Kebab(s)) == s
  {
    if |s| > 0 {
      assert '-' !in s[1..] by {
        assert forall c :: c in s[1..] ==> c in s;
      }
      CamelOfKebab(s[1..]);
      var k := Kebab(s);
      if IsUpper(s[0]) {
        assert k[2..] == Kebab(s[1..]);
        assert HyphenLowerAt(k, 0);
      } else {
        assert k[1..] == Kebab(s[1..]);
        assert s == [s[0]] + s[1..];
      }
    }
  }

  /** A parsed value. `Float` keeps the text `parseFloat` would read. */
  datatype Value = Bool(b: bool) | Int(n: nat) | Float(text: string) | List(items: seq<string>) | Str(s: string)

  /** `/^\d*\.\d+$/`. */
  predicate IsDecimalFraction(s: string) {
    exists k :: 0 <= k < |s| - 1 && AllDigits(s[..k]) && s[k] == '.' && AllDigits(s[k + 1..])
  }

  /** A decimal fraction holds a dot and otherwise only digits. */
  lemma FractionChars(s: string)
    requires IsDecimalFraction(s)
    ensures '.' in s
    ensures forall m :: 0 <= m < |s| ==> IsDigit(s[m]) || s[m] == '.'
  {
    var k :| 0 <= k < |s| - 1 && AllDigits(s[..k]) && s[k] == '.' && AllDigits(s[k + 1..]);
    forall m | 0 <= m < |s| ensures IsDigit(s[m]) || s[m] == '.' {
      if m < k {
        assert s[..k][m] == s[m];
      } else if m > k {
        assert s[k + 1..][m - k - 1] == s[m];
      }
    }
  }

  /** Texts with a character that is neither a digit nor a dot, or without a dot, are not
      decimal fractions. */
  lemma NotFraction(s: string)
    ensures '.' !in s ==> !IsDecimalFraction(s)
    ensures (exists m :: 0 <= m < |s| && !IsDigit(s[m]) && s[m] != '.') ==> !IsDecimalFraction(s)
  {
    if IsDecimalFraction(s) {
      FractionChars(s);
    }
  }

  /** The same test, scanning for the one dot. */
  function DecimalFraction(s: string): (r: bool)
    ensures r <==> IsDecimalFraction(s)
  {
    match IndexOf(s, '.')
    case None => NotFraction(s); false
    case Some(k) =>
      var ok := k < |s| - 1 && AllDigits(s[..k]) && AllDigits(s[k + 1..]);
      assert IsDecimalFraction(s) ==> ok by {
        if IsDecimalFraction(s) {
          var j :| 0 <= j < |s| - 1 && AllDigits(s[..j]) && s[j] == '.' && AllDigits(s[j + 1..]);
          forall m | 0 <= m < k ensures s[m] != '.' {
            assert s[..k][m] == s[m];
          }
          forall m | 0 <= m < j ensures IsDigit(s[m]) {
            assert s[..j][m] == s[m];
          }
          assert j == k;
        }
      }
      ok
  }

  /** `parseValue`. */
  function ParseValue(v: string): (r: Value)
    ensures v == "true" <==> r == Bool(true)
    ensures v == "false" <==> r == Bool(false)
    ensures r.Int? <==> |v| > 0 && AllDigits(v)
    ensures r.Int? ==> r.n == DecimalValue(v)
    ensures r.Float? <==> IsDecimalFraction(v)
    ensures r.Float? ==> r.text == v
    ensures r.List? <==> ',' in v
    ensures r.List? ==> |r.items| == |Split(v, ',')| >= 2
    ensures r.List? ==> forall i :: 0 <= i < |r.items| ==> r.items[i] == Trim(Split(v, ',')[i])
    ensures r.Str? ==> r.s == v
  {
    NotFraction(v);
    if v == "true" then
      assert v[0] == 't';
      Bool(true)
    else if v == "false" then
      assert v[0] == 'f';
      Bool(false)
    else if |v| > 0 && AllDigits(v) then Int(DecimalValue(v))
    else if DecimalFraction(v) then
      FractionChars(v);
      Float(v)
    else if ',' in v then
      var parts := Split(v, ',');
      SplitHasMore(v, ',');
      List(seq(|parts|, i requires 0 <= i < |parts| => Trim(parts[i])))
    else Str(v)
  }

  /** A text containing the separator splits into at least two pieces. */
  lemma {:induction false} SplitHasMore(s: string, sep: char)
    requires sep in s
    ensures |Split(s, sep)| >= 2
  {
    if s[0] != sep {
      assert sep in s[1..] by {
        var i :| 0 <= i < |s| && s[i] == sep;
        assert s[1..][i - 1] == sep;
      }
      SplitHasMore(s[1..], sep);
    }
  }

  /** The decimal spelling of a number parses back to that number. */
  lemma ParseValueOfNumber(n: nat)
    ensures ParseValue(NatToString(n)) == Int(n)
  {
    NatToStringRoundTrip(n);
  }

  /** Trimmed, comma-free items joined by commas parse back to the same list. */
  lemma ParseValueOfList(items: seq<string>)
    requires |items| >= 2
    requires forall i :: 0 <= i < |items| ==> ',' !in items[i] && Trim(items[i]) == items[i]
    ensures ParseValue(Join(items, ",")) == List(items)
  {
    var v := Join(items, ",");
    SplitJoin(items, ',');
    assert v == items[0] + "," + Join(items[1..], ",");
    assert v[|items[0]|] == ',';
    ListValue(v, items);
  }

  /** A text with a comma whose pieces are already trimmed is the list of its pieces. */
  lemma ListValue(v: string, items: seq<string>)
    requires ',' in v && Split(v, ',') == items
    requires forall i :: 0 <= i < |items| ==> Trim(items[i]) == items[i]
    ensures ParseValue(v) == List(items)
  {
    var r := ParseValue(v);
    assert r.List? && |r.items| == |items|;
    assert forall i :: 0 <= i < |items| ==> r.items[i] == items[i];
  }

  /** A config entry: a value, or the object a dotted key writes into. An object made from a
      list keeps the list as its `base`. */
  datatype Entry = Plain(value: Value) | Object(base: Option<seq<string>>, fields: map<string, Value>)

  type Config = map<string, Entry>

  /** JavaScript truthiness of a parsed value. */
  predicate Truthy(v: Value) {
    match v
    case Bool(b) => b
    case Int(n) => n != 0
    case Float(text) => exists i :: 0 <= i < |text| && '1' <= text[i] <= '9'
    case List(_) => true
    case Str(s) => s != ""
  }

  const TypeErrorMessage: string := "TypeError: cannot create property on a primitive"

  /** The text before the first `c`, or all of `s` when there is none. */
  function BeforeFirst(s: string, c: char): (r: string)
    ensures c !in r && StartsWith(s, r)
    ensures |r| < |s| ==> s[|r|] == c
    ensures c !in s ==> r == s
  {
    match IndexOf(s, c)
    case None => s
    case Some(j) => s[..j]
  }

  /** The first two pieces of `s.split(c)` when `c` occurs in `s`. */
  function FirstTwo(s: string, c: char): (r: (string, string))
    requires c in s
    ensures c !in r.0 && c !in r.1
    ensures |r.0| < |s| && s[|r.0|] == c && StartsWith(s, r.0)
    ensures r.1 == BeforeFirst(s[|r.0| + 1..], c)
  {
    var k := IndexOf(s, c).value;
    (s[..k], BeforeFirst(s[k + 1..], c))
  }

  /** `config[key] = value`, with a dotted key writing `config[parent][child]` after
      `config[parent] = config[parent] || {}`. */
  function Assign(config: Config, key: string, v: Value): (r: Result<Config, string>)
    ensures '.' !in key ==> r == Ok(config[key := Plain(v)])
    ensures '.' in key ==>
      var (parent, child) := FirstTwo(key, '.');
      && (r.Err? <==> parent in config && config[parent].Plain? && Truthy(config[parent].value)
                      && !config[parent].value.List?)
      && (r.Ok? ==>
            && parent in r.value && r.value[parent].Object? && r.value[parent].fields[child := v] == r.value[parent].fields
            && (forall k :: k in config && k != parent ==> k in r.value && r.value[k] == config[k])
            && r.value.Keys == config.Keys + {parent})
  {
    if '.' !in key then Ok(config[key := Plain(v)])
    else
      var (parent, child) := FirstTwo(key, '.');
      if parent !in config || (config[parent].Plain? && !Truthy(config[parent].value)) then
        Ok(config[parent := Object(None, map[child := v])])
      else match config[parent]
        case Object(base, fields) => Ok(config[parent := Object(base, fields[child := v])])
        case Plain(List(items)) => Ok(config[parent := Object(Some(items), map[child := v])])
        case Plain(_) => Err(TypeErrorMessage)
  }

  /** What one argument does. */
  datatype Action = Skip | Flag(name: string, on: bool) | Pair(name: string, text: string)

  /** The key and value of `--key=value`: the text between `--` and the first `=`, and between the
      first and the second `=`. */
  function KeyValue(arg: string): (r: (string, string))
    requires |arg| >= 2 && '=' in arg[2..]
  {
    FirstTwo(arg[2..], '=')
  }

  /** The action of argument `i` and the index of the next unread argument. */
  function ActionAt(args: seq<string>, i: nat): (r: (Action, nat))
    requires i < |args|
    ensures r.1 <= |args|
    ensures r.1 == if r.0.Pair? && '=' !in args[i] then i + 2 else i + 1
    ensures r.0.Skip? <==> !StartsWith(args[i], "--")
    ensures r.0.Flag? && !r.0.on <==> StartsWith(args[i], "--no-")
    ensures r.0.Pair? && '=' !in args[i] ==> !StartsWith(args[i + 1], "--") && r.0.text == args[i + 1]
  {
    var arg := args[i];
    if !StartsWith(arg, "--") then (Skip, i + 1)
    else if StartsWith(arg, "--no-") then (Flag(arg[5..], false), i + 1)
    else if '=' !in arg && (i == |args| - 1 || StartsWith(args[i + 1], "--")) then (Flag(arg[2..], true), i + 1)
    else if '=' in arg then
      assert '=' in arg[2..] by {
        var k :| 0 <= k < |arg| && arg[k] == '=';
        assert arg[2..][k - 2] == '=';
      }
      (Pair(KeyValue(arg).0, KeyValue(arg).1), i + 1)
    else (Pair(arg[2..], args[i + 1]), i + 2)
  }

  /** Carrying out an action on the config being built. */
  function Perform(config: Config, a: Action): (r: Result<Config, string>)
    ensures !a.Pair? ==> r.Ok?
    ensures a.Flag? ==> r == Ok(config[Camel(a.name) := Plain(Bool(a.on))])
  {
    match a
    case Skip => Ok(config)
    case Flag(name, on) => Ok(config[Camel(name) := Plain(Bool(on))])
    case Pair(name, text) => Assign(config, Camel(name), ParseValue(text))
  }

  /** The loop of `parseArgs` from index `i`. */
  function ParseFrom(args: seq<string>, i: nat, config: Config): Result<Config, string>
    requires i <= |args|
    decreases |args| - i
  {
    if i == |args| then Ok(config)
    else
      var (a, next) := ActionAt(args, i);
      match Perform(config, a)
      case Err(e) => Err(e)
      case Ok(c) => ParseFrom(args, next, c)
  }

  /** `parseArgs`: arguments that do not start with `--` never set anything. */
  function ParseArgs(args: seq<string>): (r: Result<Config, string>)
    ensures (forall i :: 0 <= i < |args| ==> !StartsWith(args[i], "--")) ==> r == Ok(map[])
  {
    if forall i :: 0 <= i < |args| ==> !StartsWith(args[i], "--") then
      NonFlagsIgnored(args, 0, map[]);
      ParseFrom(args, 0, map[])
    else
      ParseFrom(args, 0, map[])
  }

  /** From index `i` on, a run of arguments none of which starts with `--` leaves the config
      as it is. */
  lemma {:induction false} NonFlagsIgnored(args: seq<string>, i: nat, config: Config)
    requires i <= |args|
    requires forall k :: i <= k < |args| ==> !StartsWith(args[k], "--")
    ensures ParseFrom(args, i, config) == Ok(config)
    decreases |args| - i
  {
    if i < |args| {
      SkipsNonFlag(args, i, config);
      NonFlagsIgnored(args, i + 1, config);
    }
  }

  /** One turn of the loop, given the action of the current argument. */
  lemma ParseStep(args: seq<string>, i: nat, config: Config, a: Action, next: nat)
    requires i < |args| && ActionAt(args, i) == (a, next)
    ensures next <= |args|
    ensures ParseFrom(args, i, config) == match Perform(config, a)
      case Err(e) => Err(e)
      case Ok(c) => ParseFrom(args, next, c)
  {
  }

  /** Appending a flag does not change what the earlier arguments do: the lookahead of the last
      of them sees an argument starting with `--`, exactly as it sees the end of the list. */
  lemma ActionAtAppend(args: seq<string>, i: nat, arg: string)
    requires i < |args| && StartsWith(arg, "--")
    ensures ActionAt(args + [arg], i) == ActionAt(args, i)
  {
    var all := args + [arg];
    assert all[i] == args[i];
    if i + 1 < |args| {
      assert all[i + 1] == args[i + 1];
    } else {
      assert all[i + 1] == arg;
    }
  }

  /** Parsing a list that ends with a flag is parsing the list without it, then applying the flag. */
  lemma {:induction false} ParseAppendFlag(args: seq<string>, i: nat, config: Config, arg: string)
    requires i <= |args| && StartsWith(arg, "--")
    ensures ParseFrom(args + [arg], i, config) ==
      match ParseFrom(args, i, config)
      case Err(e) => Err(e)
      case Ok(c) => ParseFrom([arg], 0, c)
    decreases |args| - i
  {
    var all := args + [arg];
    if i == |args| {
      LastArgument(args, config, arg);
    } else {
      ActionAtAppend(args, i, arg);
      var (a, next) := ActionAt(args, i);
      ParseStep(all, i, config, a, next);
      ParseStep(args, i, config, a, next);
      match Perform(config, a)
      case Err(e) =>
      case Ok(c) => ParseAppendFlag(args, next, c, arg);
    }
  }

  /** The flag given last is read on its own: nothing follows it to take as a value. */
  lemma LastArgument(args: seq<string>, config: Config, arg: string)
    requires StartsWith(arg, "--")
    ensures ParseFrom(args + [arg], |args|, config) == ParseFrom([arg], 0, config)
  {
    var all := args + [arg];
    assert all[|args|] == arg;
    var (a, next) := ActionAt([arg], 0);
    assert ActionAt(all, |args|) == (a, |args| + 1);
    ParseStep(all, |args|, config, a, |args| + 1);
    ParseStep([arg], 0, config, a, 1);
  }

  /** An argument that does not start with `--` is skipped. */
  lemma SkipsNonFlag(args: seq<string>, i: nat, config: Config)
    requires i < |args| && !StartsWith(args[i], "--")
    ensures ParseFrom(args, i, config) == ParseFrom(args, i + 1, config)
  {
    ParseStep(args, i, config, Skip, i + 1);
  }

  /** When `a` has no `c`, the first `c` of `a + [c] + b` is the one right after `a`. */
  lemma FirstAfter(a: string, c: char, b: string)
    requires c !in a
    ensures var s := a + [c] + b;
      c in s && BeforeFirst(s, c) == a && FirstTwo(s, c) == (a, BeforeFirst(b, c))
  {
    var s := a + [c] + b;
    assert s[|a|] == c;
    forall m | 0 <= m < |a| ensures s[m] != c {
      assert s[m] == a[m];
    }
    assert s[..|a|] == a;
    assert s[|a| + 1..] == b;
  }

  /** `--key=value` is a pair whose value stops at the next `=`. */
  lemma PairAction(args: seq<string>, i: nat, key: string, value: string)
    requires i < |args| && args[i] == "--" + key + "=" + value
    requires '=' !in key && !StartsWith(args[i], "--no-")
    ensures ActionAt(args, i) == (Pair(key, BeforeFirst(value, '=')), i + 1)
  {
    var arg := args[i];
    assert arg[2..] == key + "=" + value;
    assert arg[2 + |key|] == '=';
    FirstAfter(key, '=', value);
  }

  /** A later `--key=value` overwrites whatever earlier arguments set for that key, and nothing
      else. */
  lemma LaterOccurrenceWins(args: seq<string>, key: string, value: string)
    requires '=' !in key && '.' !in Camel(key)
    requires !StartsWith("--" + key + "=" + value, "--no-")
    ensures ParseArgs(args).Ok? ==>
      ParseArgs(args + ["--" + key + "=" + value]) ==
        Ok(ParseArgs(args).value[Camel(key) := Plain(ParseValue(BeforeFirst(value, '=')))])
  {
    var arg := "--" + key + "=" + value;
    assert StartsWith(arg, "--");
    ParseAppendFlag(args, 0, map[], arg);
    PairAction([arg], 0, key, value);
  }

  /** `--no-key` sets the camel-case key to false, and nothing else. */
  lemma NoFlagSetsFalse(args: seq<string>, key: string)
    ensures ParseArgs(args).Ok? ==>
      ParseArgs(args + ["--no-" + key]) == Ok(ParseArgs(args).value[Camel(key) := Plain(Bool(false))])
  {
    var arg := "--no-" + key;
    assert StartsWith(arg, "--") && StartsWith(arg, "--no-");
    assert arg[5..] == key;
    ParseAppendFlag(args, 0, map[], arg);
  }

  /** A bare `--key` at the end sets the camel-case key to true, and nothing else. */
  lemma BareFlagSetsTrue(args: seq<string>, key: string)
    requires '=' !in key && !StartsWith("--" + key, "--no-")
    ensures ParseArgs(args).Ok? ==>
      ParseArgs(args + ["--" + key]) == Ok(ParseArgs(args).value[Camel(key) := Plain(Bool(true))])
  {
    var arg := "--" + key;
    assert StartsWith(arg, "--");
    assert arg[2..] == key;
    assert '=' !in arg by {
      assert forall m :: 2 <= m < |arg| ==> arg[m] == key[m - 2];
    }
    ParseAppendFlag(args, 0, map[], arg);
  }

  /** `--key value`: without `=`, and followed by an argument that does not start with `--`, the
      key takes that argument as its value. */
  lemma SpacedValue(key: string, value: string)
    requires '=' !in key && '.' !in Camel(key) && !StartsWith("--" + key, "--no-")
    requires !StartsWith(value, "--")
    ensures ParseArgs(["--" + key, value]) == Ok(map[Camel(key) := Plain(ParseValue(value))])
  {
    var arg := "--" + key;
    var args := [arg, value];
    assert StartsWith(arg, "--");
    assert '=' !in arg by {
      assert forall m :: 2 <= m < |arg| ==> arg[m] == key[m - 2];
    }
    assert arg[2..] == key;
    assert args[1] == value;
    assert ActionAt(args, 0) == (Pair(key, value), 2);
    var c := map[Camel(key) := Plain(ParseValue(value))];
    assert Perform(map[], Pair(key, value)) == Ok(c);
    assert ParseFrom(args, 2, c) == Ok(c);
  }

  /** A single argument that the parser consumes on its own. */
  lemma SingleArgument(arg: string, a: Action, c: Config)
    requires ActionAt([arg], 0) == (a, 1) && Perform(map[], a) == Ok(c)
    ensures ParseArgs([arg]) == Ok(c)
  {
    assert ParseFrom([arg], 1, c) == Ok(c);
  }

  lemma Assoc(x: string, y: string, z: string)
    ensures x + y + z == x + (y + z)
  {
  }

  /** `--key=a=b` keeps only `a`: `split("=", 2)` drops everything after a second `=`. */
  lemma SecondEqualsDropsTheRest(key: string, a: string, b: string)
    requires '=' !in key && '=' !in a && '.' !in Camel(key)
    requires !StartsWith("--" + key + "=" + a + "=" + b, "--no-")
    ensures ParseArgs(["--" + key + "=" + a + "=" + b]) == Ok(map[Camel(key) := Plain(ParseValue(a))])
  {
    var value := a + "=" + b;
    Assoc("--" + key + "=", a + "=", b);
    Assoc("--" + key + "=", a, "=");
    FirstAfter(a, '=', b);
    LaterOccurrenceWins([], key, value);
    assert [] + ["--" + key + "=" + value] == ["--" + key + "=" + value];
  }

  /** The first two segments of `parent.child.rest`. */
  lemma DottedSegments(parent: string, child: string, rest: string)
    requires '.' !in parent && '.' !in child && (rest == "" || rest[0] == '.')
    ensures var key := parent + "." + child + rest;
      '.' in key && FirstTwo(key, '.') == (parent, child)
  {
    Assoc(parent + ".", child, rest);
    FirstAfter(parent, '.', child + rest);
    if rest != "" {
      assert rest == "." + rest[1..];
      Assoc(child, ".", rest[1..]);
      FirstAfter(child, '.', rest[1..]);
    } else {
      assert child + rest == child;
    }
  }

  /** A dotted key writes into a fresh object under its first segment, keyed by its second
      segment; any further segments are dropped. */
  lemma DottedKey(parent: string, child: string, rest: string, value: string)
    requires '.' !in parent && '.' !in child && (rest == "" || rest[0] == '.')
    requires var key := parent + "." + child + rest;
      '=' !in key && NoHyphenLower(key) && !StartsWith("--" + key + "=" + value, "--no-")
    ensures var key := parent + "." + child + rest;
      ParseArgs(["--" + key + "=" + value]) == Ok(map[parent := Object(None, map[child := ParseValue(BeforeFirst(value, '='))])])
  {
    var key := parent + "." + child + rest;
    var arg := "--" + key + "=" + value;
    assert StartsWith(arg, "--");
    PairAction([arg], 0, key, value);
    CamelFixed(key);
    DottedSegments(parent, child, rest);
    var v := ParseValue(BeforeFirst(value, '='));
    var c := map[parent := Object(None, map[child := v])];
    assert Assign(map[], key, v) == Ok(c);
    SingleArgument(arg, Pair(key, BeforeFirst(value, '=')), c);
  }
}

=== FILE: copy_all.dfy ===
/**
 * `handleCopyAll` of src/components/ButtonCopyAll.tsx: the clipboard text
 * built from a secret, and the `copied` flag that blocks clicks until its
 * one-second reset. The clipboard and the timer are left to the caller.
 */
module CopyAll {
  import opened Wrappers
  import opened Text
  import opened DocStore

  /** The fields that are copied, in order, with their labels. */
  const Keys: seq<string> := ["name", "username", "password", "notes"]
  const Labels: seq<string> := ["Name", "Username", "Password", "Notes"]

  /** Field `j` is present with a value that is not blank (`secret.key?.trim()` is truthy). */
  predicate Shown(secret: Doc, j: nat)
    requires j < 4
  {
    Keys[j] in secret && Trim(secret[Keys[j]]) != ""
  }

  /** The line for field `j`: its label, a colon, and the untrimmed value. */
  function Line(secret: Doc, j: nat): string
    requires j < 4 && Keys[j] in secret
  {
    Labels[j] + ": " + secret[Keys[j]]
  }

  /** Which of the four fields are shown. */
  function ShownFlags(secret: Doc): (f: seq<bool>)
    ensures |f| == 4
  {
    [Shown(secret, 0), Shown(secret, 1), Shown(secret, 2), Shown(secret, 3)]
  }

  /** The positions from `from` on whose flag is set, in increasing order. */
  function Selected(flags: seq<bool>, from: nat): (r: seq<nat>)
    requires from <= |flags|
    ensures forall i :: 0 <= i < |r| ==> from <= r[i] < |flags| && flags[r[i]]
    ensures forall i, k :: 0 <= i < k < |r| ==> r[i] < r[k]
    decreases |flags| - from
  {
    if from == |flags| then []
    else if flags[from] then [from] + Selected(flags, from + 1)
    else Selected(flags, from + 1)
  }

  /** A position from `from` on is selected exactly when its flag is set. */
  lemma {:induction false} SelectedIff(flags: seq<bool>, from: nat, j: nat)
    requires from <= |flags|
    ensures j in Selected(flags, from) <==> from <= j < |flags| && flags[j]
    decreases |flags| - from
  {
    if from < |flags| {
      SelectedIff(flags, from + 1, j);
    }
  }

  /** The indices of the shown fields from `from` on, in increasing order. */
  function ShownFrom(secret: Doc, from: nat): (r: seq<nat>)
    requires from <= 4
    ensures forall i :: 0 <= i < |r| ==> from <= r[i] < 4 && Shown(secret, r[i])
    ensures forall i, k :: 0 <= i < k < |r| ==> r[i] < r[k]
  {
    var flags := ShownFlags(secret);
    var r := Selected(flags, from);
    assert forall i :: 0 <= i < |r| ==> Shown(secret, r[i]) by {
      forall i | 0 <= i < |r| ensures Shown(secret, r[i]) {
        var j := r[i];
        assert flags[j];
      }
    }
    r
  }

  /** A field from `from` on is listed exactly when its trimmed value is non-empty. */
  lemma ShownFromListsShown(secret: Doc, from: nat, j: nat)
    requires from <= 4
    ensures j in ShownFrom(secret, from) <==> from <= j < 4 && Shown(secret, j)
  {
    SelectedIff(ShownFlags(secret), from, j);
  }

  /** The lines that are copied, one per shown field, in field order. */
  function CopyLines(secret: Doc): (r: seq<string>)
    ensures var shown := ShownFrom(secret, 0);
      |r| == |shown| && forall i :: 0 <= i < |r| ==> r[i] == Line(secret, shown[i])
  {
    var shown := ShownFrom(secret, 0);
    seq(|shown|, i requires 0 <= i < |shown| => Line(secret, shown[i]))
  }

  /** `textParts.join('\n')`. */
  function CopyText(secret: Doc): (r: string)
    ensures r == "" <==> CopyLines(secret) == []
  {
    Join(CopyLines(secret), "\n")
  }

  /** A line has a line break only if its value has one. */
  lemma LineHasNoBreak(secret: Doc, j: nat)
    requires j < 4 && Keys[j] in secret && '\n' !in secret[Keys[j]]
    ensures '\n' !in Line(secret, j)
  {
    var pre := Labels[j] + ": ";
    assert '\n' !in pre by {
      assert pre == if j == 0 then "Name: " else if j == 1 then "Username: " else if j == 2 then "Password: " else "Notes: ";
    }
    assert forall c :: c in Line(secret, j) ==> c in pre || c in secret[Keys[j]];
  }

  /** When no value contains a line break, splitting the copied text at line breaks gives back
      the copied lines: the text is the lines joined by one separator each, with none trailing. */
  lemma {:induction false} CopyTextSplits(secret: Doc)
    requires forall j :: 0 <= j < 4 && Keys[j] in secret ==> '\n' !in secret[Keys[j]]
    requires CopyLines(secret) != []
    ensures Split(CopyText(secret), '\n') == CopyLines(secret)
  {
    var lines := CopyLines(secret);
    var shown := ShownFrom(secret, 0);
    forall i | 0 <= i < |lines| ensures '\n' !in lines[i] {
      LineHasNoBreak(secret, shown[i]);
    }
    SplitJoin(lines, '\n');
  }

  /** A click: with `copied` set it does nothing; otherwise it sets `copied` and yields the text
      to put on the clipboard. */
  function Click(copied: bool, secret: Doc): (r: (bool, Option<string>))
    ensures r.0
    ensures copied <==> r.1.None?
  {
    if copied then (true, None) else (true, Some(CopyText(secret)))
  }
}

=== FILE: delete_button.dfy ===
/**
 * The delete-with-countdown button of src/components/ButtonDeleteSecret.tsx.
 * Clicks and interval ticks are events. A click on a button that the current
 * state does not render is ignored. `Step` reports whether `onDelete` fired.
 */
module DeleteButton {

  /** Seconds on the countdown when it starts. */
  const CountdownStart: int := 5

  datatype Mode = Initial | Confirm | Countdown

  /** `running` is a pending interval; `mounted` is false once the component is gone. */
  datatype Button = Button(mode: Mode, count: int, progress: int, running: bool, mounted: bool)

  const Fresh: Button := Button(Initial, CountdownStart, 100, false, true)

  datatype Event = DeleteClick | ConfirmClick | CancelClick | UndoClick | Tick | Unmount

  /** One event: the new button, and whether `onDelete` was called. */
  function Step(b: Button, e: Event): (r: (Button, bool))
    ensures !b.mounted ==> r == (b, false)
    ensures r.1 ==> e == Tick && b.running && r.0.mode == Initial && !r.0.running
  {
    if !b.mounted then (b, false)
    else match e
      case DeleteClick => (if b.mode == Initial then b.(mode := Confirm) else b, false)
      case CancelClick => (if b.mode == Confirm then b.(mode := Initial) else b, false)
      case ConfirmClick =>
        (if b.mode == Confirm then b.(mode := Countdown, count := CountdownStart, progress := 100, running := true) else b, false)
      case UndoClick =>
        (if b.mode == Countdown then b.(mode := Initial, count := CountdownStart, progress := 100, running := false) else b, false)
      case Unmount => (b.(running := false, mounted := false), false)
      case Tick =>
        if !b.running then (b, false)
        else
          var newCount := b.count - 1;
          if newCount < 0 then
            (b.(progress := newCount * 20, mode := Initial, count := CountdownStart, running := false), true)
          else (b.(progress := newCount * 20, count := newCount), false)
  }

  /** An interval is pending exactly while a mounted button counts down, and the count stays
      within the countdown's range. */
  predicate Valid(b: Button) {
    && (b.running <==> (b.mounted && b.mode == Countdown))
    && 0 <= b.count <= CountdownStart
  }

  /** The button after a run of events, and how many times `onDelete` fired. */
  function Run(b: Button, events: seq<Event>): (r: (Button, nat))
    ensures r.1 <= |events|
    ensures !b.mounted ==> r == (b, 0)
    decreases |events|
  {
    if |events| == 0 then (b, 0)
    else
      var (b1, fired) := Step(b, events[0]);
      var (b2, n) := Run(b1, events[1..]);
      (b2, n + if fired then 1 else 0)
  }

  lemma StepKeepsValid(b: Button, e: Event)
    requires Valid(b)
    ensures Valid(Step(b, e).0)
    ensures Step(b, e).1 ==> e == Tick && b.mode == Countdown && b.count == 0 && Step(b, e).0.mode == Initial
  {
  }

  lemma {:induction false} RunKeepsValid(b: Button, events: seq<Event>)
    requires Valid(b)
    ensures Valid(Run(b, events).0)
    decreases |events|
  {
    if |events| > 0 {
      StepKeepsValid(b, events[0]);
      RunKeepsValid(Step(b, events[0]).0, events[1..]);
    }
  }

  /** `k` ticks in a row. */
  function Ticks(k: nat): (r: seq<Event>)
    ensures |r| == k && forall i :: 0 <= i < k ==> r[i] == Tick
  {
    if k == 0 then [] else [Tick] + Ticks(k - 1)
  }

  /** During a countdown at `count`, the next `count` ticks (`count` at most 5) each lower the
      count by one with progress at 20 per remaining second, and never delete. */
  lemma {:induction false} TicksCountDown(b: Button, k: nat)
    requires Valid(b) && b.running && k <= b.count
    ensures Run(b, Ticks(k)).1 == 0
    ensures Run(b, Ticks(k)).0 == (if k == 0 then b else b.(count := b.count - k, progress := (b.count - k) * 20))
    decreases k
  {
    if k > 0 {
      var b1 := Step(b, Tick).0;
      assert Ticks(k)[1..] == Ticks(k - 1);
      TicksCountDown(b1, k - 1);
    }
  }

  /** After Confirm, five ticks count down 4, 3, 2, 1, 0 without deleting; the sixth calls
      `onDelete` once and returns the button to its initial state with count 5. */
  lemma DeleteFiresOnSixthTick(b: Button)
    requires Valid(b) && b.mode == Confirm && b.mounted
    ensures var counting := Step(b, ConfirmClick).0;
      && counting.mode == Countdown && counting.count == 5 && counting.progress == 100
      && Run(counting, Ticks(5)) == (counting.(count := 0, progress := 0), 0)
      && Run(counting, Ticks(6)).1 == 1
      && Run(counting, Ticks(6)).0 == b.(mode := Initial, count := 5, progress := -20, running := false)
  {
    var counting := Step(b, ConfirmClick).0;
    TicksCountDown(counting, 5);
    assert Ticks(6) == Ticks(5) + [Tick];
    RunAppend(counting, Ticks(5), [Tick]);
  }

  /** Running two event lists one after the other. */
  lemma {:induction false} RunAppend(b: Button, xs: seq<Event>, ys: seq<Event>)
    ensures var (b1, n1) := Run(b, xs);
      Run(b, xs + ys) == (Run(b1, ys).0, n1 + Run(b1, ys).1)
    decreases |xs|
  {
    if |xs| == 0 {
      assert xs + ys == ys;
    } else {
      assert (xs + ys)[1..] == xs[1..] + ys;
      RunAppend(Step(b, xs[0]).0, xs[1..], ys);
    }
  }

  /** Undo during a countdown stops it: the button is initial with count 5 and progress 100, and
      any number of ticks afterwards deletes nothing. */
  lemma UndoCancelsDeletion(b: Button, k: nat)
    requires Valid(b) && b.mode == Countdown && b.mounted
    ensures var undone := Step(b, UndoClick);
      && undone == (b.(mode := Initial, count := 5, progress := 100, running := false), false)
      && Run(undone.0, Ticks(k)) == (undone.0, 0)
  {
    IdleTicks(Step(b, UndoClick).0, k);
  }

  /** Ticks without a pending interval change nothing. */
  lemma {:induction false} IdleTicks(b: Button, k: nat)
    requires !b.running
    ensures Run(b, Ticks(k)) == (b, 0)
    decreases k
  {
    if k > 0 {
      assert Ticks(k)[1..] == Ticks(k - 1);
      IdleTicks(b, k - 1);
    }
  }

  /** Cancel from confirm goes back to initial without deleting. */
  lemma CancelDoesNotDelete(b: Button)
    requires Valid(b) && b.mode == Confirm && b.mounted
    ensures Step(b, CancelClick) == (b.(mode := Initial), false)
  {
  }

  /** Once unmounted, nothing ever fires. */
  lemma {:induction false} UnmountedNeverDeletes(b: Button, events: seq<Event>)
    requires !b.mounted
    ensures Run(b, events) == (b, 0)
    decreases |events|
  {
    if |events| > 0 {
      UnmountedNeverDeletes(b, events[1..]);
    }
  }
}

=== FILE: doc_store.dfy ===
/**
 * The document store contract the vault relies on (a PouchDB database):
 * documents are string-keyed records identified by `_id`, and every stored
 * revision carries a `_rev`. `put` of an existing id must quote the current
 * `_rev`, `put` of a new id must not carry one, and `allDocs` lists ids in a
 * key range in code-point order. A removed document is dropped from the map
 * (PouchDB keeps a tombstone that neither `get` nor `allDocs` return).
 */
module DocStore {
  import opened Wrappers
  import Text

  /** A JavaScript object whose fields are strings; an absent key is an `undefined` field. */
  type Doc = map<string, string>
  type Db = map<string, Doc>

  const IdField: string := "_id"
  const RevField: string := "_rev"

  /** The errors PouchDB raises for these operations, by their `name`. */
  datatype StoreError = NotFound | Conflict | MissingId

  /** The `message` of each PouchDB error. */
  function ErrorMessage(e: StoreError): string {
    match e
    case NotFound => "missing"
    case Conflict => "Document update conflict"
    case MissingId => "_id is required for puts"
  }

  /** Every stored document records its own id and a revision. */
  ghost predicate WellFormed(db: Db) {
    forall id :: id in db ==> IdField in db[id] && db[id][IdField] == id && RevField in db[id]
  }

  /** `db.get(id)`. */
  function Get(db: Db, id: string): (r: Result<Doc, StoreError>)
    ensures r.Ok? <==> id in db
    ensures r.Ok? ==> r.value == db[id]
    ensures r.Err? ==> r.error == NotFound
  {
    if id in db then Ok(db[id]) else Err(NotFound)
  }

  /** What a successful write answers: the id and the new revision. */
  datatype WriteReply = WriteReply(id: string, rev: string)

  /** `db.put(doc)`; `newRev` is the revision the store generates for the write. */
  function Put(db: Db, doc: Doc, newRev: string): (r: Result<(Db, WriteReply), StoreError>)
    ensures IdField !in doc ==> r == Err(MissingId)
    ensures r.Ok? ==> var id := doc[IdField];
      && r.value.0 == db[id := doc[RevField := newRev]]
      && r.value.1 == WriteReply(id, newRev)
    ensures r.Ok? <==>
      IdField in doc
      && (if doc[IdField] in db
          then RevField in doc && RevField in db[doc[IdField]] && doc[RevField] == db[doc[IdField]][RevField]
          else RevField !in doc)
  {
    if IdField !in doc then Err(MissingId)
    else
      var id := doc[IdField];
      if id in db then
        if RevField in doc && RevField in db[id] && doc[RevField] == db[id][RevField]
        then Ok((db[id := doc[RevField := newRev]], WriteReply(id, newRev)))
        else Err(Conflict)
      else if RevField in doc then Err(Conflict)
      else Ok((db[id := doc[RevField := newRev]], WriteReply(id, newRev)))
  }

  /** A successful write keeps the store well formed and changes no other document. */
  lemma PutPreservesWellFormed(db: Db, doc: Doc, newRev: string)
    requires WellFormed(db)
    requires Put(db, doc, newRev).Ok?
    ensures WellFormed(Put(db, doc, newRev).value.0)
    ensures forall id :: id in db && id != doc[IdField] ==>
      (id in Put(db, doc, newRev).value.0 && Put(db, doc, newRev).value.0[id] == db[id])
  {
  }

  /** `db.remove(doc)`: the id must exist and the revision must be current. */
  function Remove(db: Db, doc: Doc): (r: Result<Db, StoreError>)
    ensures r.Ok? ==> IdField in doc && r.value == db - {doc[IdField]} && doc[IdField] in db
  {
    if IdField !in doc || doc[IdField] !in db then Err(NotFound)
    else if RevField in doc && RevField in db[doc[IdField]] && doc[RevField] == db[doc[IdField]][RevField]
    then Ok(db - {doc[IdField]})
    else Err(Conflict)
  }

  /** Removing a document that was just read succeeds. */
  lemma RemoveAfterGet(db: Db, id: string)
    requires WellFormed(db) && id in db
    ensures Remove(db, Get(db, id).value) == Ok(db - {id})
  {
  }

  // ---- key order ----

  /** Code-point lexicographic order on ids: `a` sorts at or before `b`. */
  predicate LexLe(a: string, b: string) {
    |a| == 0 || (|b| > 0 && (a[0] < b[0] || (a[0] == b[0] && LexLe(a[1..], b[1..]))))
  }

  lemma {:induction false} LexLeTotal(a: string, b: string)
    ensures LexLe(a, b) || LexLe(b, a)
  {
    if |a| > 0 && |b| > 0 && a[0] == b[0] {
      LexLeTotal(a[1..], b[1..]);
    }
  }

  lemma {:induction false} LexLeAntisymmetric(a: string, b: string)
    requires LexLe(a, b) && LexLe(b, a)
    ensures a == b
  {
    if |a| > 0 && |b| > 0 {
      LexLeAntisymmetric(a[1..], b[1..]);
      assert a == [a[0]] + a[1..] && b == [b[0]] + b[1..];
    }
  }

  lemma {:induction false} LexLeTransitive(a: string, b: string, c: string)
    requires LexLe(a, b) && LexLe(b, c)
    ensures LexLe(a, c)
  {
    if |a| > 0 && |b| > 0 && |c| > 0 && a[0] == b[0] && b[0] == c[0] {
      LexLeTransitive(a[1..], b[1..], c[1..]);
    }
  }

  /** The set of ids `s` has a greatest element. */
  lemma {:induction false} MaxExists(s: set<string>)
    requires s != {}
    ensures exists m :: m in s && forall k :: k in s ==> LexLe(k, m)
    decreases |s|
  {
    var x :| x in s;
    if s - {x} == {} {
      assert s == {x};
      forall k | k in s ensures LexLe(k, x) { LexLeTotal(k, x); }
      assert x in s && forall k :: k in s ==> LexLe(k, x);
    } else {
      MaxExists(s - {x});
      var m :| m in s - {x} && forall k :: k in s - {x} ==> LexLe(k, m);
      var best := MaxOfTwo(s - {x}, m, x);
      assert s == (s - {x}) + {x};
      assert best in s && forall k :: k in s ==> LexLe(k, best);
    }
  }

  /** The greater of the greatest element of `rest` and a new element `x` bounds both. */
  lemma MaxOfTwo(rest: set<string>, m: string, x: string) returns (best: string)
    requires m in rest && forall k :: k in rest ==> LexLe(k, m)
    ensures best == m || best == x
    ensures forall k :: k in rest + {x} ==> LexLe(k, best)
  {
    LexLeTotal(x, m);
    if LexLe(x, m) {
      best := m;
    } else {
      best := x;
      forall k | k in rest + {x} ensures LexLe(k, x) {
        if k != x { LexLeTransitive(k, m, x); }
        else { LexLeTotal(x, x); }
      }
    }
  }

  /** The greatest id of a non-empty set. */
  function MaxId(s: set<string>): (m: string)
    requires s != {}
    ensures m in s && forall k :: k in s ==> LexLe(k, m)
  {
    MaxExists(s);
    forall a, b | LexLe(a, b) && LexLe(b, a) ensures a == b { LexLeAntisymmetric(a, b); }
    var m :| m in s && forall k :: k in s ==> LexLe(k, m);
    m
  }

  /** A strictly descending sequence of ids. */
  predicate Descending(ids: seq<string>) {
    forall i, j :: 0 <= i < j < |ids| ==> LexLe(ids[j], ids[i]) && ids[i] != ids[j]
  }

  /** The ids of `s` in descending order. */
  function SortDescending(s: set<string>): (r: seq<string>)
    ensures forall k :: k in r <==> k in s
    ensures |r| == |s|
    ensures Descending(r)
    decreases |s|
  {
    if s == {} then []
    else
      var m := MaxId(s);
      var rest := SortDescending(s - {m});
      var r := [m] + rest;
      assert Descending(r) by {
        forall i, j | 0 <= i < j < |r| ensures LexLe(r[j], r[i]) && r[i] != r[j] {
          assert r[j] == rest[j - 1] && rest[j - 1] in s - {m};
          if i > 0 {
            assert r[i] == rest[i - 1];
          }
        }
      }
      r
  }

  /** The id lies in the closed range between `low` and `high`. */
  predicate InRange(id: string, low: string, high: string) {
    LexLe(low, id) && LexLe(id, high)
  }

  /** `db.allDocs({include_docs: true, descending: true, startkey: high, endkey: low})`:
      the documents whose ids lie in the range, greatest id first. */
  function AllDocsDescending(db: Db, high: string, low: string): (rows: seq<Doc>)
    ensures |rows| == |set id | id in db && InRange(id, low, high)|
  {
    var inRange := set id | id in db && InRange(id, low, high);
    var ids := SortDescending(inRange);
    assert forall i :: 0 <= i < |ids| ==> ids[i] in inRange;
    seq(|ids|, i requires 0 <= i < |ids| => db[ids[i]])
  }

  /** Every row of a descending range listing is the stored document of an id in the range. */
  lemma AllDocsDescendingSound(db: Db, high: string, low: string)
    requires WellFormed(db)
    ensures var rows := AllDocsDescending(db, high, low);
      forall i :: 0 <= i < |rows| ==>
        IdField in rows[i] && rows[i][IdField] in db && db[rows[i][IdField]] == rows[i]
        && InRange(rows[i][IdField], low, high)
  {
    var inRange := set id | id in db && InRange(id, low, high);
    var ids := SortDescending(inRange);
    var rows := AllDocsDescending(db, high, low);
    forall i | 0 <= i < |rows|
      ensures IdField in rows[i] && rows[i][IdField] in db && db[rows[i][IdField]] == rows[i]
        && InRange(rows[i][IdField], low, high)
    {
      assert ids[i] in inRange;
      assert rows[i] == db[ids[i]];
    }
  }

  /** Every stored document whose id lies in the range is listed. */
  lemma AllDocsDescendingComplete(db: Db, high: string, low: string)
    ensures var rows := AllDocsDescending(db, high, low);
      forall id :: id in db && InRange(id, low, high) ==> exists i :: 0 <= i < |rows| && rows[i] == db[id]
  {
    var inRange := set id | id in db && InRange(id, low, high);
    var ids := SortDescending(inRange);
    var rows := AllDocsDescending(db, high, low);
    forall id | id in db && InRange(id, low, high)
      ensures exists i :: 0 <= i < |rows| && rows[i] == db[id]
    {
      assert id in inRange;
      assert id in ids;
      var i :| 0 <= i < |ids| && ids[i] == id;
      assert rows[i] == db[id];
    }
  }

  /** Every row has an id, and the ids strictly descend. */
  predicate DescendingIds(rows: seq<Doc>) {
    forall i, j :: 0 <= i < j < |rows| ==>
      IdField in rows[i] && IdField in rows[j]
      && LexLe(rows[j][IdField], rows[i][IdField]) && rows[i][IdField] != rows[j][IdField]
  }

  /** The listing is in strictly descending id order, greatest id first. */
  lemma AllDocsDescendingOrdered(db: Db, high: string, low: string)
    requires WellFormed(db)
    ensures DescendingIds(AllDocsDescending(db, high, low))
  {
    var inRange := set id | id in db && InRange(id, low, high);
    var ids := SortDescending(inRange);
    var rows := AllDocsDescending(db, high, low);
    forall i | 0 <= i < |rows| ensures IdField in rows[i] && rows[i][IdField] == ids[i] {
      assert ids[i] in inRange;
    }
  }

  /** An id lies between `p` and `p + "￿"` exactly when it is `p` followed by a suffix that
      sorts at or before U+FFFF. */
  lemma {:induction false} PrefixRange(id: string, p: string)
    ensures InRange(id, p, p + "\U{FFFF}")
      <==> Text.StartsWith(id, p) && LexLe(id[|p|..], "\U{FFFF}")
  {
    var high := p + "\U{FFFF}";
    if |p| == 0 {
      assert id[0..] == id;
      assert high == "\U{FFFF}";
    } else if |id| == 0 {
    } else if id[0] == p[0] {
      PrefixRange(id[1..], p[1..]);
      assert high[1..] == p[1..] + "\U{FFFF}";
      assert Text.StartsWith(id, p) <==> Text.StartsWith(id[1..], p[1..]) by {
        if |p| <= |id| {
          assert id[..|p|] == [id[0]] + id[1..][..|p[1..]|];
          assert p == [p[0]] + p[1..];
        }
      }
      if |p| <= |id| {
        assert id[1..][|p[1..]|..] == id[|p|..];
      }
    } else {
      assert !Text.StartsWith(id, p) by {
        if |p| <= |id| { assert id[..|p|][0] == id[0]; }
      }
      assert high[0] == p[0];
    }
  }
}

=== FILE: field_encryption.dfy ===
/**
 * Field encryption of src/services/encryption.ts: a string field is
 * JSON-stringified, UTF-8 encoded, sealed with AES-GCM under a fresh
 * 12-byte IV, and stored as `base64(iv ++ ciphertext)`. The data key lives
 * in the user database under the fixed id `key:encryptionKey` and is created
 * on first use.
 *
 * AES-GCM (NIST SP 800-38D) is not interpreted: a `Cipher` is any pair of
 * seal/open functions, and the round-trip properties assume only that it is
 * `Correct` (open undoes seal under the same key and a 96-bit IV).
 */
module FieldEncryption {
  import opened Wrappers
  import opened Bytes
  import Base64
  import Utf8
  import Json
  import opened DocStore

  /** Bytes of IV that prefix every ciphertext. */
  const IvLength: nat := 12
  /** AES-256 key length in bytes. */
  const KeyLength: nat := 32
  /** The single error every decryption failure is reported as. */
  const DecryptErrorMessage: string := "Failed to decrypt data"

  /** Raw key material, as `exportKey` would yield it. */
  type Key = seq<byte>

  /** An authenticated cipher: `seal(key, iv, plaintext)` and `open(key, iv, ciphertext)`,
      where `None` is the `OperationError` a failed tag check raises. */
  datatype Cipher = Cipher(
    seal: (Key, seq<byte>, seq<byte>) -> seq<byte>,
    open: (Key, seq<byte>, seq<byte>) -> Option<seq<byte>>)

  /** Decrypt-after-encrypt: the correctness of the cipher, the one fact the model assumes of it. */
  ghost predicate Correct(c: Cipher) {
    forall k: Key, iv: seq<byte>, p: seq<byte> ::
      |iv| == IvLength ==> c.open(k, iv, c.seal(k, iv, p)) == Some(p)
  }

  /** The plaintext bytes the cipher sees for a field value. */
  function PlainBytes(data: string): seq<byte> {
    Utf8.Encode(Json.Stringify(data))
  }

  /** `encryptField(data, key)` with the random IV `iv` drawn by `getRandomValues`. */
  function EncryptField(c: Cipher, data: string, key: Key, iv: seq<byte>): (r: string)
    requires |iv| == IvLength
    ensures Base64.Decode(r) == Some(iv + c.seal(key, iv, PlainBytes(data)))
  {
    var combined := iv + c.seal(key, iv, PlainBytes(data));
    Base64.DecodeEncode(combined);
    Base64.Encode(combined)
  }

  /** Splits decoded bytes into IV and ciphertext the way `slice(0, 12)` / `slice(12)` do. */
  function SplitFrame(bytes: seq<byte>): (r: (seq<byte>, seq<byte>))
    ensures r.0 + r.1 == bytes
    ensures |bytes| >= IvLength ==> |r.0| == IvLength
    ensures |bytes| < IvLength ==> r.0 == bytes && r.1 == []
  {
    var cut := if |bytes| < IvLength then |bytes| else IvLength;
    (bytes[..cut], bytes[cut..])
  }

  /** `decryptField(ciphertext, key)`: a failed Base64 decode, tag check, UTF-8 decode or JSON
      parse are all reported as the one error. */
  function DecryptField(c: Cipher, blob: string, key: Key): (r: Result<string, string>)
    ensures r.Err? ==> r.error == DecryptErrorMessage
  {
    match Base64.Decode(blob)
    case None => Err(DecryptErrorMessage)
    case Some(bytes) =>
      var (iv, body) := SplitFrame(bytes);
      match c.open(key, iv, body)
      case None => Err(DecryptErrorMessage)
      case Some(plain) =>
        match Utf8.Decode(plain)
        case None => Err(DecryptErrorMessage)
        case Some(text) =>
          match Json.Parse(text)
          case None => Err(DecryptErrorMessage)
          case Some(value) => Ok(value)
  }

  /** The blob decodes to the IV followed by the sealed bytes, and the split at byte 12 hands
      `decryptField` exactly that IV and those bytes. */
  lemma FramingInverse(c: Cipher, data: string, key: Key, iv: seq<byte>)
    requires |iv| == IvLength
    ensures var blob := EncryptField(c, data, key, iv);
      && Base64.Decode(blob).Some?
      && SplitFrame(Base64.Decode(blob).value) == (iv, c.seal(key, iv, PlainBytes(data)))
  {
    var combined := iv + c.seal(key, iv, PlainBytes(data));
    assert combined[..IvLength] == iv;
    assert combined[IvLength..] == c.seal(key, iv, PlainBytes(data));
  }

  /** Round trip: under a correct cipher, decrypting an encrypted field with the same key gives
      back the original string. */
  lemma DecryptEncrypt(c: Cipher, data: string, key: Key, iv: seq<byte>)
    requires Correct(c)
    requires |iv| == IvLength
    ensures DecryptField(c, EncryptField(c, data, key, iv), key) == Ok(data)
  {
    FramingInverse(c, data, key, iv);
    assert c.open(key, iv, c.seal(key, iv, PlainBytes(data))) == Some(PlainBytes(data));
    Utf8.DecodeEncode(Json.Stringify(data));
    Json.ParseStringify(data);
  }

  /** Two encryptions under different IVs never produce the same blob, whatever the plaintexts. */
  lemma DistinctIvsDistinctBlobs(c: Cipher, d1: string, d2: string, key: Key, iv1: seq<byte>, iv2: seq<byte>)
    requires |iv1| == IvLength && |iv2| == IvLength && iv1 != iv2
    ensures EncryptField(c, d1, key, iv1) != EncryptField(c, d2, key, iv2)
  {
    FramingInverse(c, d1, key, iv1);
    FramingInverse(c, d2, key, iv2);
  }

  // ---- the data key document ----

  /** The id under which the key document is always stored. */
  const KeyDocId: string := "key:encryptionKey"

  /** `exportKey('jwk', key)`: the document keeps the key material as Base64 text. */
  function ExportKey(k: Key): string {
    Base64.Encode(k)
  }

  /** `importKey('jwk', ...)` for AES-256: fails unless the text holds exactly 32 bytes. */
  function ImportKey(text: string): (r: Option<Key>)
    ensures r.Some? ==> |r.value| == KeyLength
  {
    match Base64.Decode(text)
    case Some(k) => if |k| == KeyLength then Some(k) else None
    case None => None
  }

  lemma ImportExport(k: Key)
    requires |k| == KeyLength
    ensures ImportKey(ExportKey(k)) == Some(k)
  {
    Base64.DecodeEncode(k);
  }

  /** `getKeyFromDB()`: a missing document, a document without a key, a key that does not import
      and any other read error (`readFails`) all yield no key. */
  function GetKeyFromDb(db: Db, readFails: bool): (r: Option<Key>)
    ensures r.Some? <==> (!readFails && KeyDocId in db && "key" in db[KeyDocId]
                          && ImportKey(db[KeyDocId]["key"]).Some?)
    ensures r.Some? ==> r == ImportKey(db[KeyDocId]["key"])
  {
    if readFails then None
    else match Get(db, KeyDocId)
      case Err(_) => None
      case Ok(doc) => if "key" in doc then ImportKey(doc["key"]) else None
  }

  /** The key document `storeKeyInDB` writes; it carries no `_rev`. */
  function KeyDoc(k: Key, now: string): Doc {
    map[IdField := KeyDocId, "key" := ExportKey(k), "createdAt" := now, "type" := "encryptionKey"]
  }

  /** `storeKeyInDB(key)`: a failed write is swallowed and leaves the store unchanged. */
  function StoreKeyInDb(db: Db, k: Key, now: string, newRev: string): (r: Db)
    ensures r == db || r == db[KeyDocId := KeyDoc(k, now)[RevField := newRev]]
    ensures r != db ==> KeyDocId !in db
  {
    match Put(db, KeyDoc(k, now), newRev)
    case Ok((db', _)) => db'
    case Err(_) => db
  }

  /** `getEncryptionKey()`: the stored key when one can be read, otherwise `freshKey` (the
      result of `generateKey`), which is stored before it is returned. */
  function GetEncryptionKey(db: Db, readFails: bool, freshKey: Key, now: string, newRev: string): (r: (Key, Db))
    requires |freshKey| == KeyLength
    ensures |r.0| == KeyLength
    ensures GetKeyFromDb(db, readFails).Some? ==> r == (GetKeyFromDb(db, readFails).value, db)
    ensures GetKeyFromDb(db, readFails).None? ==> r.0 == freshKey
    ensures GetKeyFromDb(db, readFails).None? && KeyDocId !in db ==>
      r.1 == db[KeyDocId := KeyDoc(freshKey, now)[RevField := newRev]]
    ensures GetKeyFromDb(db, readFails).None? && KeyDocId in db ==> r.1 == db
    ensures forall id :: id != KeyDocId && id in db ==> id in r.1 && r.1[id] == db[id]
  {
    match GetKeyFromDb(db, readFails)
    case Some(k) => (k, db)
    case None => (freshKey, StoreKeyInDb(db, freshKey, now, newRev))
  }

  /** Get-or-create is idempotent: once a key was found or freshly stored, a later call that reads
      the store successfully returns the same key and writes nothing. */
  lemma GetEncryptionKeyIdempotent(db: Db, readFails: bool, k1: Key, k2: Key, now1: string, now2: string,
                                   rev1: string, rev2: string)
    requires |k1| == KeyLength && |k2| == KeyLength
    requires GetKeyFromDb(db, readFails).Some? || KeyDocId !in db
    ensures var (key, db1) := GetEncryptionKey(db, readFails, k1, now1, rev1);
      GetEncryptionKey(db1, false, k2, now2, rev2) == (key, db1)
  {
    if GetKeyFromDb(db, readFails).None? {
      ImportExport(k1);
    }
  }

  /** When the key document exists but cannot be read, the fresh key is returned without being
      stored: the write conflicts with the existing document and the error is swallowed. */
  lemma UnreadableKeyIsNotPersisted(db: Db, freshKey: Key, now: string, newRev: string)
    requires |freshKey| == KeyLength
    requires KeyDocId in db
    ensures GetEncryptionKey(db, true, freshKey, now, newRev) == (freshKey, db)
  {
  }
}

=== FILE: json.dfy ===
/**
 * `JSON.stringify` of a string value (the QuoteJSONString operation of
 * ECMA-262) and `JSON.parse` of a text whose value is a string.
 */
module Json {
  import opened Wrappers
  import Text

  /** JSON insignificant white space: space, TAB, LF and CR. */
  predicate IsJsonSpace(c: char) {
    c == ' ' || c == '\t' || c == '\n' || c == '\r'
  }

  function HexDigit(d: nat): char
    requires d < 16
  {
    if d < 10 then ('0' as int + d) as char else ('a' as int + (d - 10)) as char
  }

  function HexValue(c: char): (v: nat)
    requires Text.IsHexDigit(c)
    ensures v < 16
  {
    if '0' <= c <= '9' then c as int - '0' as int
    else if 'a' <= c <= 'f' then c as int - 'a' as int + 10
    else c as int - 'A' as int + 10
  }

  /** The escape sequence QuoteJSONString emits for one character. */
  function EscapeChar(c: char): (r: string)
    ensures 1 <= |r| <= 6
    ensures r[0] == '\\' <==> c == '"' || c == '\\' || c < ' '
  {
    if c == '"' then "\\\""
    else if c == '\\' then "\\\\"
    else if c == '\U{0008}' then "\\b"
    else if c == '\t' then "\\t"
    else if c == '\n' then "\\n"
    else if c == '\U{000C}' then "\\f"
    else if c == '\r' then "\\r"
    else if c < ' ' then "\\u00" + [HexDigit(c as int / 16), HexDigit(c as int % 16)]
    else [c]
  }

  function EscapeAll(s: string): string {
    if |s| == 0 then "" else EscapeChar(s[0]) + EscapeAll(s[1..])
  }

  /** `JSON.stringify(s)` for a string `s`. */
  function Stringify(s: string): (r: string)
    ensures |r| >= 2 && r[0] == '"' && r[|r| - 1] == '"'
  {
    "\"" + EscapeAll(s) + "\""
  }

  function SkipSpace(t: string): (r: string)
    ensures |r| <= |t|
  {
    if |t| > 0 && IsJsonSpace(t[0]) then SkipSpace(t[1..]) else t
  }

  /** Reads one character or escape of a string literal body: the character and what follows. */
  function ReadChar(t: string): (r: Option<(char, string)>)
    requires |t| > 0 && t[0] != '"'
    ensures r.Some? ==> |r.value.1| < |t|
  {
    if t[0] < ' ' then None
    else if t[0] != '\\' then Some((t[0], t[1..]))
    else if |t| < 2 then None
    else if t[1] == '"' then Some(('"', t[2..]))
    else if t[1] == '\\' then Some(('\\', t[2..]))
    else if t[1] == '/' then Some(('/', t[2..]))
    else if t[1] == 'b' then Some(('\U{0008}', t[2..]))
    else if t[1] == 'f' then Some(('\U{000C}', t[2..]))
    else if t[1] == 'n' then Some(('\n', t[2..]))
    else if t[1] == 'r' then Some(('\r', t[2..]))
    else if t[1] == 't' then Some(('\t', t[2..]))
    else if t[1] == 'u' && |t| >= 6 && Text.IsHexDigit(t[2]) && Text.IsHexDigit(t[3])
      && Text.IsHexDigit(t[4]) && Text.IsHexDigit(t[5]) then
      var n := HexValue(t[2]) * 4096 + HexValue(t[3]) * 256 + HexValue(t[4]) * 16 + HexValue(t[5]);
      if 0xD800 <= n < 0xE000 then None else Some((n as char, t[6..]))
    else None
  }

  /** Reads a string literal body up to its closing quote: the value and the text after the quote. */
  function ParseBody(t: string): (r: Option<(string, string)>)
    ensures r.Some? ==> |r.value.1| < |t|
    decreases |t|
  {
    if |t| == 0 then None
    else if t[0] == '"' then Some(("", t[1..]))
    else match ReadChar(t)
      case None => None
      case Some((c, rest)) =>
        match ParseBody(rest)
        case None => None
        case Some((v, after)) => Some(([c] + v, after))
  }

  /** `JSON.parse(t)` when the JSON text is a string literal; `None` is the `SyntaxError` it throws
      (and any text whose value is not a string). */
  function Parse(t: string): Option<string> {
    var u := SkipSpace(t);
    if |u| == 0 || u[0] != '"' then None
    else match ParseBody(u[1..])
      case None => None
      case Some((v, after)) => if SkipSpace(after) == "" then Some(v) else None
  }

  lemma HexRoundTrip(d: nat)
    requires d < 16
    ensures Text.IsHexDigit(HexDigit(d)) && HexValue(HexDigit(d)) == d
  {
  }

  lemma ReadEscape(c: char, rest: string)
    ensures var t := EscapeChar(c) + rest; t[0] != '"' && ReadChar(t) == Some((c, rest))
  {
    var t := EscapeChar(c) + rest;
    if c < ' ' && c != '\U{0008}' && c != '\t' && c != '\n' && c != '\U{000C}' && c != '\r' {
      HexRoundTrip(c as int / 16);
      HexRoundTrip(c as int % 16);
      assert t[6..] == rest;
    }
  }

  /** One step of `ParseBody`: a character read off the front, then the rest of the body. */
  lemma ParseBodyStep(t: string, c: char, tail: string, v: string, after: string)
    requires |t| > 0 && t[0] != '"' && ReadChar(t) == Some((c, tail))
    requires ParseBody(tail) == Some((v, after))
    ensures ParseBody(t) == Some(([c] + v, after))
  {
  }

  /** The escaped characters of `s`, a closing quote and any text: the body reads back as `s`,
      and the text after the quote is left over. */
  lemma {:induction false} ParseBodyEscapeAll(s: string, rest: string)
    ensures ParseBody(EscapeAll(s) + "\"" + rest) == Some((s, rest))
  {
    if |s| == 0 {
      assert EscapeAll(s) + "\"" + rest == "\"" + rest;
    } else {
      var e, es := EscapeChar(s[0]), EscapeAll(s[1..]);
      var tail := es + "\"" + rest;
      var t := e + tail;
      assert EscapeAll(s) + "\"" + rest == t;
      ReadEscape(s[0], tail);
      ParseBodyEscapeAll(s[1..], rest);
      ParseBodyStep(t, s[0], tail, s[1..], rest);
      assert [s[0]] + s[1..] == s;
    }
  }

  /** Round trip: `JSON.parse(JSON.stringify(s)) === s` for every string `s`. */
  lemma ParseStringify(s: string)
    ensures Parse(Stringify(s)) == Some(s)
  {
    var t := Stringify(s);
    assert t[1..] == EscapeAll(s) + "\"" + "";
    ParseBodyEscapeAll(s, "");
  }
}

=== FILE: password_gen.dfy ===
/**
 * `generateSecurePassword` of src/api/password.ts with the constants of
 * src/api/config.ts. The random 32-bit words `crypto.getRandomValues` fills
 * in are an input stream: word `i` picks character `i`.
 */
module PasswordGen {
  import opened Wrappers

  type Word32 = x: int | 0 <= x < 0x1_0000_0000

  /** `PASSWORD_CONSTANTS.LENGTH`. */
  const DefaultLength: nat := 32

  /** `PASSWORD_CONSTANTS.CHARSET`: 26 upper-case letters, 26 lower-case letters, 10 digits and
      8 symbols. */
  const Charset: string := "ABCDEFGHIJKLMNOPQRSTUVWXYZabcdefghijklmnopqrstuvwxyz0123456789!@#$%^&*"

  /** The most bytes `crypto.getRandomValues` fills in one call. */
  const QuotaBytes: nat := 65536

  /** The exception `getRandomValues` throws for a larger array. */
  const QuotaExceeded: string := "QuotaExceededError"

  /** `generateSecurePassword(length)` for the random words `random(0)`, `random(1)`, ...: it
      throws when the `Uint32Array` of `length` words exceeds the quota. */
  function Generate(length: nat, random: nat -> Word32): (r: Result<string, string>)
    ensures r.Err? <==> 4 * length > QuotaBytes
    ensures r.Err? ==> r.error == QuotaExceeded
    ensures r.Ok? ==> |r.value| == length
    ensures r.Ok? ==> forall i :: 0 <= i < length ==> r.value[i] == Charset[random(i) % |Charset|]
    ensures r.Ok? ==> forall i :: 0 <= i < length ==> r.value[i] in Charset
  {
    if 4 * length > QuotaBytes then Err(QuotaExceeded)
    else Ok(seq(length, i requires 0 <= i => Charset[random(i) % |Charset|]))
  }

  /** The default length, which is within the quota. */
  function GenerateDefault(random: nat -> Word32): (r: string)
    ensures |r| == 32
    ensures forall i :: 0 <= i < 32 ==> r[i] == Charset[random(i) % |Charset|]
  {
    Generate(DefaultLength, random).value
  }

  /** The password depends only on the first `length` random words. */
  lemma Deterministic(length: nat, a: nat -> Word32, b: nat -> Word32)
    requires forall i :: 0 <= i < length ==> a(i) == b(i)
    ensures Generate(length, a) == Generate(length, b)
  {
    if 4 * length <= QuotaBytes {
      assert Generate(length, a).value == Generate(length, b).value;
    }
  }

  /** The position of `c` in the charset. */
  function IndexIn(c: char, s: string): (k: nat)
    requires c in s
    ensures k < |s| && s[k] == c
  {
    if s[0] == c then 0 else 1 + IndexIn(c, s[1..])
  }

  lemma SmallIndex(k: nat, n: nat)
    requires k < n
    ensures k % n == k
  {
  }

  /** The random words that produce `target`: each picks its character's position. */
  function WordsFor(target: string): nat -> Word32
    requires forall i :: 0 <= i < |target| ==> target[i] in Charset
  {
    (i: nat) => if i < |target| then IndexIn(target[i], Charset) else 0
  }

  /** Every string over the charset that fits the quota is produced by some random words: no character of the charset
      is unreachable at any position. */
  lemma EveryCharsetStringReachable(target: string)
    requires 4 * |target| <= QuotaBytes
    requires forall i :: 0 <= i < |target| ==> target[i] in Charset
    ensures Generate(|target|, WordsFor(target)) == Ok(target)
  {
    var r := Generate(|target|, WordsFor(target)).value;
    forall i | 0 <= i < |target| ensures r[i] == target[i] {
      var k := IndexIn(target[i], Charset);
      SmallIndex(k, |Charset|);
      assert WordsFor(target)(i) == k;
    }
    assert r == target;
  }
}

=== FILE: pouch_sync.dfy ===
/**
 * The replication side of src/services/pouchDB.ts: the credential guard that
 * runs before any remote connection, the retry back-off, and the module-level
 * sync handler of which at most one is live. The remote database and its
 * `info()` probe are inputs; replication itself is not modelled.
 */
module PouchSync {
  import opened Wrappers
  import opened Text
  import opened Service

  /** Positions of the dashes in the 8-4-4-4-12 text form of a UUID. */
  predicate DashAt(i: int) {
    i == 8 || i == 13 || i == 18 || i == 23
  }

  /** `/^[0-9a-f]{8}-[0-9a-f]{4}-[0-9a-f]{4}-[0-9a-f]{4}-[0-9a-f]{12}$/i`. */
  predicate IsUuidText(s: string) {
    |s| == 36 && forall i :: 0 <= i < 36 ==> if DashAt(i) then s[i] == '-' else IsHexDigit(s[i])
  }

  predicate HexRun(s: string, n: nat) {
    |s| == n && forall i :: 0 <= i < |s| ==> IsHexDigit(s[i])
  }

  function Dashed(a: string, b: string, c: string, d: string, e: string): string {
    a + "-" + b + "-" + c + "-" + d + "-" + e
  }

  /** Five hex groups of lengths 8, 4, 4, 4 and 12 joined by dashes form a UUID text. */
  lemma UuidFromGroups(a: string, b: string, c: string, d: string, e: string)
    requires HexRun(a, 8) && HexRun(b, 4) && HexRun(c, 4) && HexRun(d, 4) && HexRun(e, 12)
    ensures IsUuidText(Dashed(a, b, c, d, e))
  {
    var s := Dashed(a, b, c, d, e);
    forall i | 0 <= i < 36 ensures if DashAt(i) then s[i] == '-' else IsHexDigit(s[i]) {
      if i < 8 { assert s[i] == a[i]; }
      else if 8 < i < 13 { assert s[i] == b[i - 9]; }
      else if 13 < i < 18 { assert s[i] == c[i - 14]; }
      else if 18 < i < 23 { assert s[i] == d[i - 19]; }
      else if 23 < i { assert s[i] == e[i - 24]; }
    }
  }

  /** Every UUID text is such a join of its five hex groups. */
  lemma UuidGroups(s: string)
    requires IsUuidText(s)
    ensures HexRun(s[..8], 8) && HexRun(s[9..13], 4) && HexRun(s[14..18], 4)
    ensures HexRun(s[19..23], 4) && HexRun(s[24..], 12)
    ensures s == Dashed(s[..8], s[9..13], s[14..18], s[19..23], s[24..])
  {
    assert forall i :: 0 <= i < 8 ==> s[..8][i] == s[i];
    assert forall i :: 0 <= i < 4 ==> s[9..13][i] == s[i + 9];
    assert forall i :: 0 <= i < 4 ==> s[14..18][i] == s[i + 14];
    assert forall i :: 0 <= i < 4 ==> s[19..23][i] == s[i + 19];
    assert forall i :: 0 <= i < 12 ==> s[24..][i] == s[i + 24];
  }

  predicate DbNameChar(c: char) {
    'a' <= c <= 'z' || IsDigit(c) || c == '_' || c == '-'
  }

  /** `/^[a-z0-9_-]+$/`. */
  predicate ValidDbName(s: string) {
    |s| > 0 && forall i :: 0 <= i < |s| ==> DbNameChar(s[i])
  }

  /** `isValidDbCredentials`. */
  predicate IsValidDbCredentials(uuid: string, password: string, dbName: string) {
    IsUuidText(uuid) && |password| > 0 && ValidDbName(dbName)
  }

  /** The longest wait between retries, in milliseconds. */
  const MaxBackOff: nat := 60000

  /** `back_off_function`: the first retry waits a second, later ones three times longer,
      up to a minute. */
  function BackOff(delay: nat): (r: nat)
    ensures 0 < r <= MaxBackOff
    ensures delay > 0 && delay <= MaxBackOff ==> r >= delay
  {
    if delay == 0 then 1000 else if delay * 3 < MaxBackOff then delay * 3 else MaxBackOff
  }

  /** The delay before the `k`-th retry, starting from no delay. */
  function Delay(k: nat): nat {
    if k == 0 then 0 else BackOff(Delay(k - 1))
  }

  function Pow3(k: nat): nat {
    if k == 0 then 1 else 3 * Pow3(k - 1)
  }

  /** Retries wait 1000, 3000, 9000 and 27000 ms, and 60000 ms from the fifth on. */
  lemma {:induction false} DelaySchedule(k: nat)
    ensures 1 <= k <= 4 ==> Delay(k) == 1000 * Pow3(k - 1)
    ensures k >= 5 ==> Delay(k) == MaxBackOff
  {
    if k > 1 {
      DelaySchedule(k - 1);
      if k <= 4 {
        assert Pow3(k - 1) == 3 * Pow3(k - 2);
        assert Pow3(k - 2) <= 9 by {
          if k == 4 { assert Pow3(2) == 9; }
        }
      }
      if k == 5 {
        assert Delay(4) == 27000 by { assert Pow3(3) == 27 by { assert Pow3(2) == 9; } }
      }
    }
  }

  /** The module-level `syncHandler` and the handlers ever started and cancelled. */
  datatype Syncs = Syncs(handler: Option<nat>, started: set<nat>, cancelled: set<nat>, next: nat)

  const NoSyncs: Syncs := Syncs(None, {}, {}, 0)

  /** Handlers started and not cancelled. */
  function Live(s: Syncs): set<nat> {
    set h | h in s.started && h !in s.cancelled
  }

  /** The live handlers are exactly the one `syncHandler` holds, if any. */
  predicate AtMostOneLive(s: Syncs) {
    && Live(s) == (if s.handler.Some? then {s.handler.value} else {})
    && (forall h :: h in s.started ==> h < s.next)
    && s.cancelled <= s.started
  }

  /** `startLiveSync`: cancel the current handler, then start and keep a new one. */
  function StartLiveSync(s: Syncs): (r: (Syncs, nat))
    ensures r.0.handler == Some(r.1)
    ensures AtMostOneLive(s) ==> r.1 !in s.started
  {
    var s1 := if s.handler.Some? then s.(cancelled := s.cancelled + {s.handler.value}) else s;
    (s1.(handler := Some(s.next), started := s1.started + {s.next}, next := s.next + 1), s.next)
  }

  /** `stopSync`. */
  function StopSync(s: Syncs): (r: Syncs)
    ensures r.handler.None? && r.started == s.started && r.next == s.next
    ensures s.handler.Some? ==> s.handler.value in r.cancelled
    ensures forall h :: h in r.cancelled && h !in s.cancelled ==> s.handler == Some(h)
  {
    if s.handler.Some? then s.(cancelled := s.cancelled + {s.handler.value}, handler := None) else s
  }

  /** Starting a sync leaves exactly the new handler live. */
  lemma StartLeavesOneLive(s: Syncs)
    requires AtMostOneLive(s)
    ensures var (r, h) := StartLiveSync(s); AtMostOneLive(r) && Live(r) == {h}
  {
    var (r, h) := StartLiveSync(s);
    assert forall x :: x in Live(r) ==> x == h || x in Live(s);
    assert h !in r.cancelled by {
      assert h !in s.started;
      if s.handler.Some? { assert s.handler.value in Live(s); }
    }
    assert h in Live(r);
  }

  /** Stopping leaves no live handler. */
  lemma StopLeavesNone(s: Syncs)
    requires AtMostOneLive(s)
    ensures AtMostOneLive(StopSync(s)) && Live(StopSync(s)) == {}
  {
    var r := StopSync(s);
    assert forall x :: x in Live(r) ==> x in Live(s);
  }

  /** The connection `new PouchDB(url)` opens. */
  datatype Remote = Remote(url: string)

  /** `document.location`. */
  datatype Location = Location(protocol: string, hostname: string)

  /** `${protocol}//${uuid}:${password}@${hostname}:5984/${dbName}`: CouchDB's port, with the
      database last. */
  function RemoteUrl(loc: Location, uuid: string, password: string, dbName: string): (r: string)
    ensures StartsWith(r, loc.protocol + "//" + uuid + ":")
    ensures |r| >= |dbName| + 6 && r[|r| - |dbName| - 6..] == ":5984/" + dbName
  {
    loc.protocol + "//" + uuid + ":" + password + "@" + loc.hostname + ":5984/" + dbName
  }

  /** `initializeRemoteDb`: the remote database, the sync handlers after it, and whether a
      connection was attempted. `infoSucceeds` is the outcome of the `info()` probe. */
  function InitializeRemoteDb(uuid: string, password: string, dbName: string, loc: Location,
                              infoSucceeds: bool, s: Syncs): (r: (Option<Remote>, Syncs, bool))
    ensures !IsValidDbCredentials(uuid, password, dbName) ==> r == (None, s, false)
    ensures r.0.Some? <==> IsValidDbCredentials(uuid, password, dbName) && infoSucceeds
    ensures r.0.Some? ==> r.0.value.url == RemoteUrl(loc, uuid, password, dbName) && r.1 == StartLiveSync(s).0
    ensures r.0.None? ==> r.1 == s
  {
    if !IsValidDbCredentials(uuid, password, dbName) then (None, s, false)
    else if !infoSucceeds then (None, s, true)
    else (Some(Remote(RemoteUrl(loc, uuid, password, dbName))), StartLiveSync(s).0, true)
  }

  datatype StoredCredentials = StoredCredentials(uuid: Option<string>, password: Option<string>, dbName: Option<string>)

  /** A JavaScript truthy string: present and non-empty. */
  predicate Given(v: Option<string>) {
    v.Some? && v.value != ""
  }

  const InvalidCredentialsMessage: string := "Invalid credentials"
  const ConnectFailedMessage: string := "Failed to connect to remote database"

  /** `setupRemoteConnection`: on success, the uuid and database name. */
  function SetupRemoteConnection(creds: Option<StoredCredentials>, loc: Location, infoSucceeds: bool,
                                 s: Syncs): (r: (Response<(string, string)>, Syncs))
    ensures !(creds.Some? && Given(creds.value.uuid) && Given(creds.value.password) && Given(creds.value.dbName))
      ==> r == (Rejected(InvalidCredentialsMessage), s)
    ensures r.0.Success? <==>
      (&& creds.Some? && Given(creds.value.uuid) && Given(creds.value.password) && Given(creds.value.dbName)
       && IsValidDbCredentials(creds.value.uuid.value, creds.value.password.value, creds.value.dbName.value)
       && infoSucceeds)
    ensures r.0.Success? ==> r.0.data == (creds.value.uuid.value, creds.value.dbName.value) && r.1 == StartLiveSync(s).0
    ensures !r.0.Failed?
  {
    if !(creds.Some? && Given(creds.value.uuid) && Given(creds.value.password) && Given(creds.value.dbName)) then
      (Rejected(InvalidCredentialsMessage), s)
    else
      var c := creds.value;
      var (remote, s1, _) := InitializeRemoteDb(c.uuid.value, c.password.value, c.dbName.value, loc, infoSucceeds, s);
      if remote.None? then (Rejected(ConnectFailedMessage), s1)
      else (Success((c.uuid.value, c.dbName.value)), s1)
  }
}

=== FILE: provisioning.dfy ===
/**
 * Server-side provisioning from src/api: the CouchDB user and database
 * builders (user-repository.ts, database-repository.ts), and the
 * `generateUUID` orchestration (generate-uuid.ts). Every call into CouchDB or
 * the UUID generator is an input `Outcome`: the value it returned, or what it
 * threw. Each operation also returns the calls it made, in order.
 */
module Provisioning {
  import opened Wrappers
  import opened Text
  import opened ApiErrors
  import PasswordGen
  import PouchSync

  const UsersDb: string := "_users"
  const UserPrefix: string := "org.couchdb.user:"
  const UserDbPrefix: string := "userdb-"
  const UserType: string := "user"

  const UserCreationFailedMessage: string := "Failed to create user"
  const UserCreationErrorMessage: string := "Error creating user in CouchDB"
  const DbCreationErrorMessage: string := "Failed to create user database"
  const DbSecurityErrorMessage: string := "Could not set security for database"
  const UuidGenerationErrorMessage: string := "Failed to generate UUID or create user"
  const UserCreatedMessage: string := "User created successfully"
  const DbCreatedMessage: string := "Database created successfully"

  /** What an awaited call did: returned a value or threw. */
  datatype Outcome<+T> = Returned(value: T) | Threw(error: Thrown)

  /** `getUserDbName`. */
  function UserDbName(uuid: string): (r: string)
    ensures StartsWith(r, UserDbPrefix) && r[|UserDbPrefix|..] == uuid
  {
    UserDbPrefix + uuid
  }

  /** Different users get different databases. */
  lemma UserDbNameInjective(u: string, v: string)
    requires UserDbName(u) == UserDbName(v)
    ensures u == v
  {
    assert u == UserDbName(u)[|UserDbPrefix|..];
  }

  datatype Names = Names(names: seq<string>, roles: seq<string>)
  datatype SecurityDocument = SecurityDocument(admins: Names, members: Names)

  /** `buildSecurityDocument`. */
  function BuildSecurityDocument(uuid: string): SecurityDocument {
    SecurityDocument(Names([], []), Names([uuid], []))
  }

  /** The only name the security document grants anything to is the user's own, as a member;
      nobody is an admin and no role is granted. */
  lemma OnlyOwnerIsMember(uuid: string, who: string)
    ensures var d := BuildSecurityDocument(uuid);
      && (who in d.members.names <==> who == uuid)
      && d.admins.names == [] && d.admins.roles == [] && d.members.roles == []
  {
  }

  /** The CouchDB requests made. */
  datatype Call =
    | CreateDb(name: string)
    | PutSecurity(db: string, security: SecurityDocument)
    | InsertUser(user: UserDoc)
    | GenerateId
    | CreateUser(uuid: string)
    | CreateDatabase(uuid: string)

  datatype DatabaseCreationResult = DatabaseCreationResult(success: bool, db: string, message: string)

  /** `createUserDatabase`: `create` is what `db.create` did, `securityOk` whether the security
      PUT answered `ok === true` (or what it threw). */
  function CreateUserDatabase(uuid: string, create: Outcome<()>, securityOk: Outcome<bool>)
    : (r: (Outcome<DatabaseCreationResult>, seq<Call>))
    ensures create.Threw? ==> r.1 == [CreateDb(UserDbName(uuid))]
    ensures create.Returned? ==> r.1 == [CreateDb(UserDbName(uuid)), PutSecurity(UserDbName(uuid), BuildSecurityDocument(uuid))]
    ensures r.0.Returned? <==> create.Returned? && securityOk.Returned?
    ensures r.0.Returned? ==> r.0.value.db == UserDbName(uuid) && (r.0.value.success <==> securityOk.value)
    ensures r.0.Returned? && !r.0.value.success ==> r.0.value.message == DbSecurityErrorMessage + ": " + UserDbName(uuid)
    ensures r.0.Threw? ==>
      var cause := if create.Threw? then create.error else securityOk.error;
      r.0.error == NewDatabaseError(UserDbName(uuid), DbCreationErrorMessage, Some(DatabaseCreationFailed), CauseOf(cause))
  {
    var dbName := UserDbName(uuid);
    var wrap := (e: Thrown) => NewDatabaseError(dbName, DbCreationErrorMessage, Some(DatabaseCreationFailed), CauseOf(e));
    match create
    case Threw(e) => (Threw(wrap(e)), [CreateDb(dbName)])
    case Returned(_) =>
      var calls := [CreateDb(dbName), PutSecurity(dbName, BuildSecurityDocument(uuid))];
      match securityOk
      case Threw(e) => (Threw(wrap(e)), calls)
      case Returned(ok) =>
        if ok then (Returned(DatabaseCreationResult(true, dbName, DbCreatedMessage)), calls)
        else (Returned(DatabaseCreationResult(false, dbName, DbSecurityErrorMessage + ": " + dbName)), calls)
  }

  datatype UserDoc = UserDoc(id: string, name: string, docType: string, roles: seq<string>, password: string)

  /** `buildUserDocument`. */
  function BuildUserDocument(uuid: string, password: string): (r: UserDoc)
    ensures StartsWith(r.id, UserPrefix) && r.id[|UserPrefix|..] == uuid
    ensures r.name == uuid && r.docType == UserType && r.roles == [] && r.password == password
  {
    UserDoc(UserPrefix + uuid, uuid, UserType, [], password)
  }

  datatype UserCreationResult = UserCreationResult(success: bool, uuid: string, password: Option<string>, message: string)

  /** `createCouchDbUser`: the password comes from the random words, `insertOk` is whether the
      insert answered `ok` (or what it threw). */
  function CreateCouchDbUser(uuid: string, random: nat -> PasswordGen.Word32, insertOk: Outcome<bool>)
    : (r: (Outcome<UserCreationResult>, seq<Call>))
    ensures r.1 == [InsertUser(BuildUserDocument(uuid, PasswordGen.GenerateDefault(random)))]
    ensures r.0.Returned? <==> insertOk.Returned?
    ensures r.0.Returned? ==>
      && r.0.value.uuid == uuid
      && (r.0.value.success <==> insertOk.value)
      && (r.0.value.password.Some? <==> r.0.value.success)
      && (r.0.value.success ==> r.0.value.password.value == PasswordGen.GenerateDefault(random))
    ensures r.0.Threw? ==> r.0.error == NewUserCreationError(uuid, UserCreationErrorMessage, CauseOf(insertOk.error))
  {
    var password := PasswordGen.GenerateDefault(random);
    var calls := [InsertUser(BuildUserDocument(uuid, password))];
    match insertOk
    case Threw(e) => (Threw(NewUserCreationError(uuid, UserCreationErrorMessage, CauseOf(e))), calls)
    case Returned(ok) =>
      if ok then (Returned(UserCreationResult(true, uuid, Some(password), UserCreatedMessage)), calls)
      else (Returned(UserCreationResult(false, uuid, None, UserCreationFailedMessage)), calls)
  }

  /** `isUserExistsError`. */
  predicate IsUserExistsError(t: Thrown) {
    && t.ApiError? && t.kind.UserCreation? && t.cause.Some?
    && var m := AsciiLower(t.cause.value);
       Contains(m, "conflict") || Contains(m, "exists")
  }

  /** When the insert throws, the error `createCouchDbUser` throws in turn is recognised as
      "user exists" exactly when the insert's error was an `Error` whose lower-cased message
      mentions a conflict or existence. */
  lemma ThrownUserExists(uuid: string, random: nat -> PasswordGen.Word32, e: Thrown)
    ensures var t := CreateCouchDbUser(uuid, random, Threw(e)).0.error;
      IsUserExistsError(t) <==>
        IsError(e) && (Contains(AsciiLower(GetErrorMessage(e)), "conflict") || Contains(AsciiLower(GetErrorMessage(e)), "exists"))
  {
  }

  /** Errors of any other class are never "user exists". */
  lemma OnlyUserCreationErrorsExist(t: Thrown)
    requires !(t.ApiError? && t.kind.UserCreation?)
    ensures !IsUserExistsError(t)
  {
  }

  /** The `data` of a successful `generateUUID` response. */
  datatype UserCreationResponse = UserCreationResponse(uuid: string, password: Option<string>, db: string)

  datatype UuidResponse =
    | UuidSuccess(message: string, data: UserCreationResponse)
    | UuidFailure(error: string, message: string)

  /** `buildSuccessResponse`. */
  function BuildSuccessResponse(user: UserCreationResult, db: DatabaseCreationResult): (r: UuidResponse)
    ensures r.UuidSuccess? && r.message == UserCreatedMessage
    ensures r.data == UserCreationResponse(user.uuid, user.password, db.db)
  {
    UuidSuccess(UserCreatedMessage, UserCreationResponse(user.uuid, user.password, db.db))
  }

  /** The error text: `code: message` for an `ApiError`, otherwise `getErrorMessage`. */
  function ErrorText(e: Thrown): (r: string)
    ensures IsApiError(e) ==> r == CodeText(e.code) + ": " + e.message
    ensures !IsApiError(e) ==> r == GetErrorMessage(e)
  {
    if IsApiError(e) then CodeText(e.code) + ": " + e.message else GetErrorMessage(e)
  }

  /** `buildErrorResponse`. */
  function BuildErrorResponse(e: Thrown): (r: UuidResponse)
    ensures r.UuidFailure? && r.message == UuidGenerationErrorMessage && r.error == ErrorText(e)
  {
    UuidFailure(ErrorText(e), UuidGenerationErrorMessage)
  }

  /** `generateUUID` with an injected generator and user service: `generated` is what the
      generator did, `user` and `db` what `createUser(uuid)` and `createDatabase(uuid)` would do
      for the generated uuid. The calls actually made are returned alongside. */
  function GenerateUuid(generated: Outcome<string>, user: Outcome<UserCreationResult>,
                        db: Outcome<DatabaseCreationResult>): (r: (UuidResponse, seq<Call>))
    ensures generated.Threw? ==> r == (BuildErrorResponse(generated.error), [GenerateId])
    ensures generated.Returned? ==> |r.1| >= 2 && r.1[..2] == [GenerateId, CreateUser(generated.value)]
    ensures generated.Returned? && user.Threw? ==>
      r == (BuildErrorResponse(user.error), [GenerateId, CreateUser(generated.value)])
    ensures generated.Returned? && user.Returned? ==>
      && r.1 == [GenerateId, CreateUser(generated.value), CreateDatabase(generated.value)]
      && (db.Threw? ==> r.0 == BuildErrorResponse(db.error))
      && (db.Returned? ==> r.0 == BuildSuccessResponse(user.value, db.value))
    ensures r.0.UuidSuccess? <==> generated.Returned? && user.Returned? && db.Returned?
  {
    match generated
    case Threw(e) => (BuildErrorResponse(e), [GenerateId])
    case Returned(uuid) =>
      match user
      case Threw(e) => (BuildErrorResponse(e), [GenerateId, CreateUser(uuid)])
      case Returned(u) =>
        var calls := [GenerateId, CreateUser(uuid), CreateDatabase(uuid)];
        match db
        case Threw(e) => (BuildErrorResponse(e), calls)
        case Returned(d) => (BuildSuccessResponse(u, d), calls)
  }

  /** A result with `success: false` that was returned, not thrown, still yields an overall
      success: the orchestration does not inspect it. */
  lemma UnsuccessfulResultsNotInspected(uuid: string, user: UserCreationResult, db: DatabaseCreationResult)
    requires !user.success && !db.success
    ensures GenerateUuid(Returned(uuid), Returned(user), Returned(db)).0.UuidSuccess?
  {
  }

  /** `generateUUID` with the default services, each wired to the outcomes of its CouchDB
      requests. */
  function WithDefaultServices(uuid: string, random: nat -> PasswordGen.Word32, insertOk: Outcome<bool>,
                               create: Outcome<()>, securityOk: Outcome<bool>): UuidResponse
  {
    GenerateUuid(Returned(uuid), CreateCouchDbUser(uuid, random, insertOk).0, CreateUserDatabase(uuid, create, securityOk).0).0
  }

  /** When every request succeeds, the response carries the uuid, the generated password and
      `userdb-<uuid>`. */
  lemma DefaultServicesSucceed(uuid: string, random: nat -> PasswordGen.Word32, create: Outcome<()>, securityOk: Outcome<bool>)
    requires create.Returned? && securityOk.Returned?
    ensures WithDefaultServices(uuid, random, Returned(true), create, securityOk)
      == UuidSuccess(UserCreatedMessage, UserCreationResponse(uuid, Some(PasswordGen.GenerateDefault(random)), UserDbName(uuid)))
  {
  }

  /** When the user insert throws, the response's error text names `USER_CREATION_FAILED`. */
  lemma InsertFailureReported(uuid: string, random: nat -> PasswordGen.Word32, e: Thrown,
                              create: Outcome<()>, securityOk: Outcome<bool>)
    ensures WithDefaultServices(uuid, random, Threw(e), create, securityOk)
      == UuidFailure(CodeText(UserCreationFailed) + ": " + UserCreationErrorMessage, UuidGenerationErrorMessage)
  {
  }

  /** When database creation throws, the response's error text names
      `DATABASE_CREATION_FAILED`. */
  lemma DatabaseFailureReported(uuid: string, random: nat -> PasswordGen.Word32, ok: bool, e: Thrown,
                                securityOk: Outcome<bool>)
    ensures WithDefaultServices(uuid, random, Returned(ok), Threw(e), securityOk)
      == UuidFailure(CodeText(DatabaseCreationFailed) + ": " + DbCreationErrorMessage, UuidGenerationErrorMessage)
  {
  }

  /** A provisioned account passes the client's credential guard: a lower-case UUID, the
      generated 32-character password and the database name built from them. */
  lemma ProvisionedCredentialsAccepted(uuid: string, random: nat -> PasswordGen.Word32)
    requires PouchSync.IsUuidText(uuid)
    requires forall i :: 0 <= i < |uuid| ==> !('A' <= uuid[i] <= 'Z')
    ensures PouchSync.IsValidDbCredentials(uuid, PasswordGen.GenerateDefault(random), UserDbName(uuid))
  {
    var name := UserDbName(uuid);
    forall i | 0 <= i < |name| ensures PouchSync.DbNameChar(name[i]) {
      if i >= |UserDbPrefix| {
        assert name[i] == uuid[i - |UserDbPrefix|];
      }
    }
  }
}

=== FILE: recovery_form.dfy ===
/**
 * Text-mode input of recovery shares in src/components/RecoveryForm.tsx:
 * the pasted text is split into one share per non-blank line, each share
 * into white-space separated words, and every word is checked. The form
 * either shows a list of errors or hands the shares to the recovery attempt.
 */
module RecoveryForm {
  import opened Text

  const MinWords: nat := 3
  const MinWordLength: nat := 3
  const NoSharesMessage: string := "Please enter at least one recovery share"
  const EmptyShareMessage: string := "Share cannot be empty"
  const TooFewWordsMessage: string := "Share must contain at least 3 words"

  /** `validateWord`: at least three characters, all ASCII letters. */
  predicate ValidateWord(w: string) {
    |w| >= MinWordLength && forall i :: 0 <= i < |w| ==> IsAsciiLetter(w[i])
  }

  /** The longest prefix of `t` without white space. */
  function TakeWord(t: string): (r: string)
    ensures |r| <= |t| && r == t[..|r|] && NoSpace(r)
    ensures |r| == |t| || IsSpace(t[|r|])
  {
    if |t| == 0 || IsSpace(t[0]) then []
    else
      var w := TakeWord(t[1..]);
      assert [t[0]] + w == t[..|w| + 1];
      [t[0]] + w
  }

  /** `share.trim().split(/\s+/).filter(w => w.length > 0)`: the maximal runs of
      non-white-space characters, in order. */
  function Words(s: string): (r: seq<string>)
    ensures forall i :: 0 <= i < |r| ==> r[i] != [] && NoSpace(r[i])
    decreases |s|
  {
    if |s| == 0 then []
    else if IsSpace(s[0]) then Words(s[1..])
    else
      var w := TakeWord(s);
      [w] + Words(s[|w|..])
  }

  lemma TakeWordOf(w: string, rest: string)
    requires NoSpace(w)
    requires rest == [] || IsSpace(rest[0])
    ensures TakeWord(w + rest) == w
    decreases |w|
  {
    if |w| > 0 {
      assert (w + rest)[1..] == w[1..] + rest;
      TakeWordOf(w[1..], rest);
    } else {
      assert w + rest == rest;
    }
  }

  /** A word followed by white space (or nothing) is read as that word first. */
  lemma WordsStep(w: string, rest: string)
    requires w != [] && NoSpace(w)
    requires rest == [] || IsSpace(rest[0])
    ensures Words(w + rest) == [w] + Words(rest)
  {
    var s := w + rest;
    assert s[0] == w[0];
    TakeWordOf(w, rest);
    assert s[|w|..] == rest;
  }

  /** A leading space does not change the words. */
  lemma WordsSkipSpace(x: string)
    ensures Words(" " + x) == Words(x)
  {
    assert (" " + x)[1..] == x;
  }

  /** Words separated by single spaces are read back as exactly those words. */
  lemma {:induction false} WordsOfJoin(ws: seq<string>)
    requires forall i :: 0 <= i < |ws| ==> ws[i] != [] && NoSpace(ws[i])
    ensures Words(Join(ws, " ")) == ws
  {
    if |ws| == 1 {
      WordsStep(ws[0], "");
      assert ws[0] + "" == ws[0];
    } else if |ws| > 1 {
      var tail := Join(ws[1..], " ");
      assert forall i :: 0 <= i < |ws[1..]| ==> ws[1..][i] == ws[i + 1];
      assert ws[0] != [] && NoSpace(ws[0]);
      assert IsSpace((" " + tail)[0]);
      calc {
        Words(Join(ws, " "));
        { assert Join(ws, " ") == ws[0] + (" " + tail); }
        Words(ws[0] + (" " + tail));
        { WordsStep(ws[0], " " + tail); }
        [ws[0]] + Words(" " + tail);
        { WordsSkipSpace(tail); }
        [ws[0]] + Words(tail);
        { WordsOfJoin(ws[1..]); }
        [ws[0]] + ws[1..];
      }
      assert ws == [ws[0]] + ws[1..];
    }
  }

  /** A word `validateWord` accepts has no white space, so the share splitter reads it back as
      one word. */
  lemma ValidWordIsOneWord(w: string)
    requires ValidateWord(w)
    ensures NoSpace(w) && Words(w) == [w]
  {
    WordsOfJoin([w]);
    assert Join([w], " ") == w;
  }

  /** The positions of `s` whose element satisfies `p`, counted from `from`, in increasing
      order. */
  function PositionsFrom<T>(s: seq<T>, p: T -> bool, from: nat): (r: seq<nat>)
    ensures |r| <= |s|
  {
    if |s| == 0 then []
    else (if p(s[0]) then [from] else []) + PositionsFrom(s[1..], p, from + 1)
  }

  /** The positions of `s` whose element satisfies `p`, in increasing order (characterised by
      `PositionsExact`). */
  function Positions<T>(s: seq<T>, p: T -> bool): seq<nat> {
    PositionsFrom(s, p, 0)
  }

  /** Indexing the tail is indexing one further on. */
  lemma TailIndex<T>(s: seq<T>, k: nat)
    requires k + 1 < |s|
    ensures s[1..][k] == s[k + 1]
  {
  }

  /** Every listed position is in range and its element satisfies `p`. */
  lemma {:induction false} PositionsSound<T>(s: seq<T>, p: T -> bool, from: nat, j: nat)
    requires j < |PositionsFrom(s, p, from)|
    ensures var k := PositionsFrom(s, p, from)[j]; from <= k < from + |s| && p(s[k - from])
  {
    var h := if p(s[0]) then 1 else 0;
    if j >= h {
      PositionsSound(s[1..], p, from + 1, j - h);
      TailIndex(s, PositionsFrom(s[1..], p, from + 1)[j - h] - from - 1);
    }
  }

  /** Positions are listed in strictly increasing order. */
  lemma {:induction false} PositionsIncreasing<T>(s: seq<T>, p: T -> bool, from: nat, j: nat, l: nat)
    requires j < l < |PositionsFrom(s, p, from)|
    ensures PositionsFrom(s, p, from)[j] < PositionsFrom(s, p, from)[l]
  {
    var h := if p(s[0]) then 1 else 0;
    if j >= h {
      PositionsIncreasing(s[1..], p, from + 1, j - h, l - h);
    } else {
      PositionsSound(s[1..], p, from + 1, l - h);
    }
  }

  /** Every position whose element satisfies `p` is listed. */
  lemma {:induction false} PositionsComplete<T>(s: seq<T>, p: T -> bool, from: nat, k: nat)
    requires k < |s| && p(s[k])
    ensures from + k in PositionsFrom(s, p, from)
  {
    if k > 0 {
      TailIndex(s, k - 1);
      PositionsComplete(s[1..], p, from + 1, k - 1);
    }
  }

  /** Counting from `from` shifts every position by `from`. */
  lemma {:induction false} PositionsOffset<T>(s: seq<T>, p: T -> bool, from: nat, j: nat)
    ensures |PositionsFrom(s, p, from)| == |Positions(s, p)|
    ensures j < |Positions(s, p)| ==> PositionsFrom(s, p, from)[j] == from + Positions(s, p)[j]
  {
    if |s| > 0 {
      var h := if p(s[0]) then 1 else 0;
      var i := if j >= h then j - h else 0;
      PositionsOffset(s[1..], p, from + 1, i);
      PositionsOffset(s[1..], p, 1, i);
    }
  }

  /** `Positions` lists exactly the positions whose element satisfies `p`, each once, in
      increasing order. */
  lemma PositionsExact<T>(s: seq<T>, p: T -> bool)
    ensures var r := Positions(s, p);
      (forall j :: 0 <= j < |r| ==> r[j] < |s| && p(s[r[j]])) &&
      (forall j, l :: 0 <= j < l < |r| ==> r[j] < r[l]) &&
      (forall k :: 0 <= k < |s| && p(s[k]) ==> k in r)
  {
    var r := Positions(s, p);
    forall j | 0 <= j < |r| ensures r[j] < |s| && p(s[r[j]]) {
      PositionsSound(s, p, 0, j);
    }
    forall j, l | 0 <= j < l < |r| ensures r[j] < r[l] {
      PositionsIncreasing(s, p, 0, j, l);
    }
    forall k | 0 <= k < |s| && p(s[k]) ensures k in r {
      PositionsComplete(s, p, 0, k);
    }
  }

  /** The elements that satisfy `p`, each mapped by `f` together with its position counted
      from `from`, in order: the shape of both the word-error loop and the share-line filter. */
  function FilterMapAt<T, U>(s: seq<T>, p: T -> bool, f: (nat, T) -> U, from: nat): seq<U> {
    if |s| == 0 then []
    else (if p(s[0]) then [f(from, s[0])] else []) + FilterMapAt(s[1..], p, f, from + 1)
  }

  /** One output per qualifying position. */
  lemma {:induction false} FilterMapAtCount<T, U>(s: seq<T>, p: T -> bool, f: (nat, T) -> U, from: nat)
    ensures |FilterMapAt(s, p, f, from)| == |PositionsFrom(s, p, from)|
  {
    if |s| > 0 {
      FilterMapAtCount(s[1..], p, f, from + 1);
    }
  }

  /** The j-th output is `f` of the j-th qualifying position and its element. */
  lemma {:induction false} FilterMapAtEntry<T, U>(s: seq<T>, p: T -> bool, f: (nat, T) -> U, from: nat, j: nat)
    requires j < |FilterMapAt(s, p, f, from)|
    ensures var ps := PositionsFrom(s, p, from);
      j < |ps| && from <= ps[j] < from + |s| && FilterMapAt(s, p, f, from)[j] == f(ps[j], s[ps[j] - from])
  {
    FilterMapAtCount(s, p, f, from);
    var h := if p(s[0]) then 1 else 0;
    if j >= h {
      FilterMapAtEntry(s[1..], p, f, from + 1, j - h);
      TailIndex(s, PositionsFrom(s[1..], p, from + 1)[j - h] - from - 1);
    }
  }

  /** `validateWord` rejects the word. */
  predicate Invalid(w: string) {
    !ValidateWord(w)
  }

  /** The message for the invalid word at 0-based position `k`. */
  function WordError(k: nat, w: string): string {
    "Word " + NatToString(k + 1) + " (\"" + w + "\") is not valid"
  }

  /** The `forEach` over the words: one error per invalid word, in word order, numbered from
      `from + 1` (exactly so by `WordErrorsExact`). */
  function WordErrors(words: seq<string>, from: nat): (r: seq<string>)
    ensures |r| <= |words|
    ensures r == [] <==> AllWordsValid(words)
  {
    if |words| == 0 then []
    else
      var rest := WordErrors(words[1..], from + 1);
      assert forall i :: 1 <= i < |words| ==> words[i] == words[1..][i - 1];
      (if ValidateWord(words[0]) then [] else [WordError(from, words[0])]) + rest
  }

  /** The word-error loop is the filter-map of the invalid words. */
  lemma {:induction false} WordErrorsFilterMap(words: seq<string>, from: nat)
    ensures WordErrors(words, from) == FilterMapAt(words, Invalid, WordError, from)
  {
    if |words| > 0 {
      WordErrorsFilterMap(words[1..], from + 1);
    }
  }

  /** As many errors as invalid words. */
  lemma WordErrorsCount(words: seq<string>, from: nat)
    ensures |WordErrors(words, from)| == |Positions(words, Invalid)|
  {
    WordErrorsFilterMap(words, from);
    FilterMapAtCount(words, Invalid, WordError, from);
    PositionsOffset(words, Invalid, from, 0);
  }

  /** The j-th error names the j-th invalid word with its position. */
  lemma WordErrorsEntry(words: seq<string>, from: nat, j: nat)
    requires j < |WordErrors(words, from)|
    ensures var bad := Positions(words, Invalid);
      j < |bad| && bad[j] < |words| && WordErrors(words, from)[j] == WordError(from + bad[j], words[bad[j]])
  {
    WordErrorsFilterMap(words, from);
    FilterMapAtEntry(words, Invalid, WordError, from, j);
    PositionsOffset(words, Invalid, from, j);
  }

  /** The errors of the words are exactly one per invalid word, in word order, each naming the
      word and its 1-based position. */
  lemma WordErrorsExact(words: seq<string>, from: nat)
    ensures var r := WordErrors(words, from); var bad := Positions(words, Invalid);
      |r| == |bad| &&
      forall j :: 0 <= j < |r| ==> bad[j] < |words| && r[j] == WordError(from + bad[j], words[bad[j]])
  {
    WordErrorsCount(words, from);
    forall j | 0 <= j < |WordErrors(words, from)|
      ensures var bad := Positions(words, Invalid);
        bad[j] < |words| && WordErrors(words, from)[j] == WordError(from + bad[j], words[bad[j]])
    {
      WordErrorsEntry(words, from, j);
    }
  }

  /** The first error is for the first invalid word. */
  lemma {:induction false} WordErrorsFirst(words: seq<string>, from: nat, k: nat)
    requires k < |words| && !ValidateWord(words[k])
    requires forall i :: 0 <= i < k ==> ValidateWord(words[i])
    ensures WordErrors(words, from) != [] && WordErrors(words, from)[0] == WordError(from + k, words[k])
  {
    if k > 0 {
      assert words[1..][k - 1] == words[k];
      WordErrorsFirst(words[1..], from + 1, k - 1);
    }
  }

  /** Every word passes `validateWord`. */
  predicate AllWordsValid(words: seq<string>) {
    forall i :: 0 <= i < |words| ==> ValidateWord(words[i])
  }

  /** `validateShare(share)`. */
  function ValidateShare(share: string): (r: seq<string>)
    ensures Words(share) == [] ==> r == [EmptyShareMessage]
    ensures 0 < |Words(share)| < MinWords ==> |r| > 0 && r[0] == TooFewWordsMessage
    ensures r == [] <==> |Words(share)| >= MinWords && AllWordsValid(Words(share))
  {
    var words := Words(share);
    if |words| == 0 then [EmptyShareMessage]
    else (if |words| < MinWords then [TooFewWordsMessage] else []) + WordErrors(words, 0)
  }

  /** A line that is not blank once trimmed. */
  predicate Kept(line: string) {
    Trim(line) != []
  }

  /** The lines of the text split at `\n`, each trimmed, blank ones dropped, in order
      (exactly so by `ParseSharesExact`). */
  function ParseShares(text: string): (r: seq<string>)
    ensures AllTrimmed(r)
  {
    TrimmedNonEmpty(Split(text, '\n'))
  }

  /** `map(line => line.trim()).filter(line => line.length > 0)`. */
  function TrimmedNonEmpty(lines: seq<string>): (r: seq<string>)
    ensures |r| <= |lines|
    ensures AllTrimmed(r)
  {
    if |lines| == 0 then []
    else
      var t := Trim(lines[0]);
      var head := if t == [] then [] else [t];
      HeadTrimmed(lines[0]);
      AllTrimmedAppend(head, TrimmedNonEmpty(lines[1..]));
      head + TrimmedNonEmpty(lines[1..])
  }

  /** `Trim`, ignoring the position. */
  function TrimAt(k: nat, line: string): string {
    Trim(line)
  }

  /** The line filter is the filter-map of the non-blank lines. */
  lemma {:induction false} TrimmedNonEmptyFilterMap(lines: seq<string>, from: nat)
    ensures TrimmedNonEmpty(lines) == FilterMapAt(lines, Kept, TrimAt, from)
  {
    if |lines| > 0 {
      TrimmedNonEmptyFilterMap(lines[1..], from + 1);
    }
  }

  /** As many lines are kept as there are non-blank lines. */
  lemma TrimmedNonEmptyCount(lines: seq<string>)
    ensures |TrimmedNonEmpty(lines)| == |Positions(lines, Kept)|
  {
    TrimmedNonEmptyFilterMap(lines, 0);
    FilterMapAtCount(lines, Kept, TrimAt, 0);
  }

  /** The j-th line kept is the j-th non-blank line, trimmed. */
  lemma TrimmedNonEmptyEntry(lines: seq<string>, j: nat)
    requires j < |TrimmedNonEmpty(lines)|
    ensures var kept := Positions(lines, Kept);
      j < |kept| && kept[j] < |lines| && TrimmedNonEmpty(lines)[j] == Trim(lines[kept[j]])
  {
    TrimmedNonEmptyFilterMap(lines, 0);
    FilterMapAtEntry(lines, Kept, TrimAt, 0, j);
  }

  /** The lines kept are exactly the non-blank lines, trimmed, in order. */
  lemma TrimmedNonEmptyExact(lines: seq<string>)
    ensures var r := TrimmedNonEmpty(lines); var kept := Positions(lines, Kept);
      |r| == |kept| &&
      forall j :: 0 <= j < |r| ==> kept[j] < |lines| && r[j] == Trim(lines[kept[j]])
  {
    TrimmedNonEmptyCount(lines);
    forall j | 0 <= j < |TrimmedNonEmpty(lines)|
      ensures var kept := Positions(lines, Kept);
        kept[j] < |lines| && TrimmedNonEmpty(lines)[j] == Trim(lines[kept[j]])
    {
      TrimmedNonEmptyEntry(lines, j);
    }
  }

  /** The j-th share is the j-th non-blank line of the text, trimmed. */
  lemma ParseSharesExact(text: string)
    ensures var lines := Split(text, '\n'); var r := ParseShares(text); var kept := Positions(lines, Kept);
      |r| == |kept| &&
      forall j :: 0 <= j < |r| ==> kept[j] < |lines| && r[j] == Trim(lines[kept[j]])
  {
    TrimmedNonEmptyExact(Split(text, '\n'));
  }

  /** A single padded line is one share: the line without its surrounding white space. */
  lemma ParseSharesOneLine(line: string)
    requires '\n' !in line && Kept(line)
    ensures ParseShares(line) == [Trim(line)]
  {
    SplitJoin([line], '\n');
    assert Join([line], "\n") == line;
  }

  /** Every line is non-empty and already trimmed. */
  predicate AllTrimmed(lines: seq<string>) {
    forall i :: 0 <= i < |lines| ==> lines[i] != [] && Trim(lines[i]) == lines[i]
  }

  lemma HeadTrimmed(line: string)
    ensures var t := Trim(line); AllTrimmed(if t == [] then [] else [t])
  {
    TrimIdempotent(line);
  }

  lemma AllTrimmedAppend(a: seq<string>, b: seq<string>)
    requires AllTrimmed(a) && AllTrimmed(b)
    ensures AllTrimmed(a + b)
  {
    forall i | 0 <= i < |a + b| ensures (a + b)[i] != [] && Trim((a + b)[i]) == (a + b)[i] {
      if i >= |a| {
        assert (a + b)[i] == b[i - |a|];
      }
    }
  }

  lemma {:induction false} TrimmedNonEmptyKeeps(lines: seq<string>)
    requires AllTrimmed(lines)
    ensures TrimmedNonEmpty(lines) == lines
  {
    if |lines| > 0 {
      assert lines[0] != [] && Trim(lines[0]) == lines[0];
      assert AllTrimmed(lines[1..]) by {
        forall i | 0 <= i < |lines[1..]| ensures lines[1..][i] != [] && Trim(lines[1..][i]) == lines[1..][i] {
          assert lines[1..][i] == lines[i + 1];
        }
      }
      TrimmedNonEmptyKeeps(lines[1..]);
      assert lines == [lines[0]] + lines[1..];
    }
  }

  /** Shares written one per line are parsed back as exactly those shares. */
  lemma ParseSharesOfLines(shares: seq<string>)
    requires |shares| >= 1
    requires AllTrimmed(shares)
    requires forall i :: 0 <= i < |shares| ==> '\n' !in shares[i]
    ensures ParseShares(Join(shares, "\n")) == shares
  {
    SplitJoin(shares, '\n');
    TrimmedNonEmptyKeeps(shares);
  }

  /** The errors of one share, each prefixed `Share i: `. */
  function Prefixed(i: nat, errors: seq<string>): (r: seq<string>)
    ensures |r| == |errors|
    ensures forall k :: 0 <= k < |r| ==> r[k] == "Share " + NatToString(i) + ": " + errors[k]
    ensures forall k :: 0 <= k < |r| ==> StartsWith(r[k], "Share ")
  {
    var prefix := "Share " + NatToString(i) + ": ";
    seq(|errors|, k requires 0 <= k < |errors| => prefix + errors[k])
  }

  /** Each share's error list holds no error. */
  predicate NoErrors(perShare: seq<seq<string>>) {
    forall i :: 0 <= i < |perShare| ==> perShare[i] == []
  }

  /** The number of errors over all shares. */
  function ErrorCount(perShare: seq<seq<string>>): nat {
    if |perShare| == 0 then 0 else |perShare[0]| + ErrorCount(perShare[1..])
  }

  /** The prefixed errors of every share in order, numbered from `from + 1`. */
  function ShareErrors(perShare: seq<seq<string>>, from: nat): (r: seq<string>)
    ensures |r| == ErrorCount(perShare)
    ensures forall k :: 0 <= k < |r| ==> StartsWith(r[k], "Share ")
    ensures r == [] <==> NoErrors(perShare)
  {
    if |perShare| == 0 then []
    else
      var mine := Prefixed(from + 1, perShare[0]);
      var rest := ShareErrors(perShare[1..], from + 1);
      assert NoErrors(perShare) <==> perShare[0] == [] && NoErrors(perShare[1..]) by {
        assert forall i :: 1 <= i < |perShare| ==> perShare[i] == perShare[1..][i - 1];
      }
      var r := mine + rest;
      assert forall k :: 0 <= k < |r| ==> StartsWith(r[k], "Share ") by {
        forall k | 0 <= k < |r| ensures StartsWith(r[k], "Share ") {
          if k < |mine| { assert r[k] == mine[k]; } else { assert r[k] == rest[k - |mine|]; }
        }
      }
      r
  }

  /** The errors of consecutive groups of shares follow each other, the second group numbered
      on from where the first stopped. */
  lemma {:induction false} ShareErrorsAppend(a: seq<seq<string>>, b: seq<seq<string>>, from: nat)
    ensures ShareErrors(a + b, from) == ShareErrors(a, from) + ShareErrors(b, from + |a|)
    decreases |a|
  {
    if |a| == 0 {
      assert a + b == b;
    } else {
      assert (a + b)[0] == a[0];
      assert (a + b)[1..] == a[1..] + b;
      ShareErrorsAppend(a[1..], b, from + 1);
    }
  }

  /** The m-th error of the i-th share appears as `Share <from + i + 1>: <error>`, after all
      errors of the shares before it. */
  lemma ShareErrorsAt(perShare: seq<seq<string>>, from: nat, i: nat, m: nat)
    requires i < |perShare| && m < |perShare[i]|
    ensures var r := ShareErrors(perShare, from); var at := ErrorCount(perShare[..i]) + m;
      at < |r| && r[at] == "Share " + NatToString(from + i + 1) + ": " + perShare[i][m]
  {
    var pre, post := perShare[..i], perShare[i + 1..];
    var tail := [perShare[i]] + post;
    assert perShare == pre + tail;
    ShareErrorsAppend(pre, tail, from);
    assert tail[0] == perShare[i] && tail[1..] == post;
    var mine := Prefixed(from + i + 1, perShare[i]);
    assert ShareErrors(tail, from + i) == mine + ShareErrors(post, from + i + 1);
  }

  /** `validateShare` applied to every share. */
  function ValidateEach(shares: seq<string>): (r: seq<seq<string>>)
    ensures |r| == |shares|
    ensures forall i :: 0 <= i < |shares| ==> r[i] == ValidateShare(shares[i])
  {
    seq(|shares|, i requires 0 <= i < |shares| => ValidateShare(shares[i]))
  }

  /** Every share passes `validateShare`. */
  predicate AllSharesValid(shares: seq<string>) {
    NoErrors(ValidateEach(shares))
  }

  /** What a submit leads to: the errors shown, or a recovery attempt with the shares. */
  datatype Submit = ShowErrors(errors: seq<string>) | Attempt(shares: seq<string>)

  lemma ShareIsNotNoShares(errors: seq<string>)
    requires errors != [] && StartsWith(errors[0], "Share ")
    ensures errors != [NoSharesMessage]
  {
    assert errors[0][0] == 'S';
  }

  /** `handleTextModeSubmit()`. */
  function HandleTextModeSubmit(text: string): (r: Submit)
    ensures ParseShares(text) == [] <==> r == ShowErrors([NoSharesMessage])
    ensures r.ShowErrors? ==> r.errors != []
    ensures r.Attempt? <==> ParseShares(text) != [] && AllSharesValid(ParseShares(text))
    ensures r.Attempt? ==> r.shares == ParseShares(text)
  {
    var shares := ParseShares(text);
    if |shares| == 0 then ShowErrors([NoSharesMessage])
    else
      var errors := ShareErrors(ValidateEach(shares), 0);
      if |errors| > 0 then
        ShareIsNotNoShares(errors);
        ShowErrors(errors)
      else Attempt(shares)
  }
}

=== FILE: secret_form.dfy ===
/**
 * The add-secret form of src/components/SecretForm.tsx: the submission rule
 * of `handleAdd`, the default name `generateSecretName` builds from the clock,
 * the fields a reopened form starts from, and the buttons it offers.
 */
module SecretForm {
  import opened Wrappers
  import opened Text
  import opened DocStore
  import App

  /** The four inputs of the form. */
  datatype Fields = Fields(name: string, username: string, password: string, notes: string)

  const Empty: Fields := Fields("", "", "", "")

  /** The local clock reading `new Date()` gives; `month` is 0-based as `getMonth()` returns it. */
  datatype Clock = Clock(year: nat, month: nat, day: nat, hours: nat, minutes: nat, seconds: nat)

  predicate ValidClock(t: Clock) {
    && t.year >= 10 && t.month < 12 && 1 <= t.day <= 31
    && t.hours < 24 && t.minutes < 60 && t.seconds < 60
  }

  /** `String(n).padStart(2, '0')`. */
  function Pad2(n: nat): string {
    PadStart2(NatToString(n))
  }

  /** `Secret-DD-MM-YY-HH-MM-SS`. */
  function SecretName(t: Clock): string {
    "Secret-" + Pad2(t.day) + "-" + Pad2(t.month + 1) + "-" + LastTwo(NatToString(t.year))
    + "-" + Pad2(t.hours) + "-" + Pad2(t.minutes) + "-" + Pad2(t.seconds)
  }

  /** The last decimal digit of `n`'s spelling is `n % 10`. */
  lemma LastDigit(n: nat)
    ensures var s := NatToString(n); s[|s| - 1] == DigitChar(n % 10)
  {
  }

  /** A number below 100, padded, is its two decimal digits. */
  lemma Pad2Digits(n: nat)
    requires n < 100
    ensures Pad2(n) == [DigitChar(n / 10), DigitChar(n % 10)]
  {
    if n >= 10 {
      assert NatToString(n) == NatToString(n / 10) + [DigitChar(n % 10)];
    }
  }

  /** The last two characters of a year of at least two digits are the year modulo 100,
      padded. */
  lemma {:induction false} LastTwoDigits(y: nat)
    requires y >= 10
    ensures LastTwo(NatToString(y)) == Pad2(y % 100)
  {
    var s := NatToString(y);
    assert s == NatToString(y / 10) + [DigitChar(y % 10)];
    LastDigit(y / 10);
    Mod100Digits(y);
    Pad2Digits(y % 100);
  }

  /** The digits of `n % 100` are the last two digits of `n`. */
  lemma Mod100Digits(n: nat)
    ensures n % 100 / 10 == n / 10 % 10 && n % 100 % 10 == n % 10
  {
    var q, r := n / 100, n % 100;
    assert n == 10 * (10 * q + r / 10) + r % 10;
    assert n / 10 == 10 * q + r / 10;
  }

  /** The two-digit number spelled at `s[i]`, `s[i + 1]`. */
  function TwoDigitsAt(s: string, i: nat): Option<nat> {
    if i + 2 <= |s| && IsDigit(s[i]) && IsDigit(s[i + 1]) then Some(10 * DigitValue(s[i]) + DigitValue(s[i + 1])) else None
  }

  /** Appending a dash and a two-character piece keeps the text so far and puts the piece after
      the dash. */
  lemma Extend(p: string, x: string)
    requires |x| == 2
    ensures var s := p + "-" + x;
      && |s| == |p| + 3 && s[|p|] == '-' && s[|p| + 1] == x[0] && s[|p| + 2] == x[1]
      && forall k :: 0 <= k < |p| ==> s[k] == p[k]
  {
  }

  /** Where the six fields sit in a name built from two-character pieces. */
  lemma NameLayout(a: string, b: string, c: string, d: string, e: string, f: string)
    requires |a| == 2 && |b| == 2 && |c| == 2 && |d| == 2 && |e| == 2 && |f| == 2
    ensures var s := "Secret-" + a + "-" + b + "-" + c + "-" + d + "-" + e + "-" + f;
      && |s| == 24 && StartsWith(s, "Secret-")
      && s[9] == '-' && s[12] == '-' && s[15] == '-' && s[18] == '-' && s[21] == '-'
      && s[7] == a[0] && s[8] == a[1] && s[10] == b[0] && s[11] == b[1] && s[13] == c[0] && s[14] == c[1]
      && s[16] == d[0] && s[17] == d[1] && s[19] == e[0] && s[20] == e[1] && s[22] == f[0] && s[23] == f[1]
  {
    var s1 := "Secret-" + a;
    var s2 := s1 + "-" + b;
    var s3 := s2 + "-" + c;
    var s4 := s3 + "-" + d;
    var s5 := s4 + "-" + e;
    var s6 := s5 + "-" + f;
    Extend(s1, b);
    Extend(s2, c);
    Extend(s3, d);
    Extend(s4, e);
    Extend(s5, f);
    assert s6[..7] == s1[..7];
  }

  /** A padded number below 100 has two characters. */
  lemma Pad2Length(n: nat)
    requires n < 100
    ensures |Pad2(n)| == 2
  {
    Pad2Digits(n);
  }

  /** Two digit characters read back as the number they spell. */
  lemma DigitsReadBack(s: string, i: nat, hi: nat, lo: nat)
    requires hi < 10 && lo < 10 && i + 2 <= |s|
    requires s[i] == DigitChar(hi) && s[i + 1] == DigitChar(lo)
    ensures TwoDigitsAt(s, i) == Some(10 * hi + lo)
  {
  }

  /** A padded two-digit number reads back at the place it was written. */
  lemma ReadsBackAt(s: string, i: nat, n: nat)
    requires n < 100 && i + 2 <= |s|
    requires |Pad2(n)| == 2 && s[i] == Pad2(n)[0] && s[i + 1] == Pad2(n)[1]
    ensures TwoDigitsAt(s, i) == Some(n)
  {
    Pad2Digits(n);
    DigitsReadBack(s, i, n / 10, n % 10);
  }

  /** The generated name has 24 characters, starts with `Secret-`, has dashes at fixed places,
      and reading its six digit pairs back gives day, 1-based month, the year's last two
      digits, hours, minutes and seconds. */
  lemma {:induction false} SecretNameReadsBack(t: Clock)
    requires ValidClock(t)
    ensures var s := SecretName(t);
      && |s| == 24 && StartsWith(s, "Secret-")
      && s[9] == '-' && s[12] == '-' && s[15] == '-' && s[18] == '-' && s[21] == '-'
      && TwoDigitsAt(s, 7) == Some(t.day)
      && TwoDigitsAt(s, 10) == Some(t.month + 1)
      && TwoDigitsAt(s, 13) == Some(t.year % 100)
      && TwoDigitsAt(s, 16) == Some(t.hours)
      && TwoDigitsAt(s, 19) == Some(t.minutes)
      && TwoDigitsAt(s, 22) == Some(t.seconds)
  {
    var a, b, c := Pad2(t.day), Pad2(t.month + 1), Pad2(t.year % 100);
    var d, e, f := Pad2(t.hours), Pad2(t.minutes), Pad2(t.seconds);
    LastTwoDigits(t.year);
    var s := SecretName(t);
    assert s == "Secret-" + a + "-" + b + "-" + c + "-" + d + "-" + e + "-" + f;
    Pad2Length(t.day);
    Pad2Length(t.month + 1);
    Pad2Length(t.year % 100);
    Pad2Length(t.hours);
    Pad2Length(t.minutes);
    Pad2Length(t.seconds);
    NameLayout(a, b, c, d, e, f);
    ReadsBackAt(s, 7, t.day);
    ReadsBackAt(s, 10, t.month + 1);
    ReadsBackAt(s, 13, t.year % 100);
    ReadsBackAt(s, 16, t.hours);
    ReadsBackAt(s, 19, t.minutes);
    ReadsBackAt(s, 22, t.seconds);
  }

  /** Two clock readings give the same name exactly when they agree to the second, up to the
      century. */
  lemma SecretNameInjective(t: Clock, u: Clock)
    requires ValidClock(t) && ValidClock(u)
    requires SecretName(t) == SecretName(u)
    ensures t.day == u.day && t.month == u.month && t.year % 100 == u.year % 100
    ensures t.hours == u.hours && t.minutes == u.minutes && t.seconds == u.seconds
  {
    SecretNameReadsBack(t);
    SecretNameReadsBack(u);
  }

  /** The secret `addSecret` receives. */
  function SecretDoc(name: string, f: Fields): Doc {
    map["name" := name, "username" := f.username, "password" := f.password, "notes" := f.notes]
  }

  /** The form after a submit: its inputs, the password error flag, the secret handed to
      `addSecret`, and whether the form was closed. */
  datatype Submit = Submit(fields: Fields, passwordError: bool, submitted: Option<Doc>, closed: bool)

  /** `handleAdd` at clock reading `now`. */
  function HandleAdd(f: Fields, now: Clock): (r: Submit)
    ensures f.password == "" <==> r.passwordError
    ensures r.submitted.Some? <==> f.password != ""
    ensures r.passwordError ==> r == Submit(f, true, None, false)
    ensures r.submitted.Some? ==>
      && r.fields == Empty && r.closed
      && var d := r.submitted.value;
         && d.Keys == {"name", "username", "password", "notes"}
         && d["name"] == (if f.name != "" then f.name else SecretName(now))
         && d["username"] == f.username && d["password"] == f.password && d["notes"] == f.notes
  {
    if f.password == "" then Submit(f, true, None, false)
    else
      var name := if f.name != "" then f.name else SecretName(now);
      Submit(Empty, false, Some(SecretDoc(name, f)), true)
  }

  /** `initialData?.field || ''`. */
  function FieldOr(d: Option<Doc>, key: string): string {
    if d.Some? && key in d.value then d.value[key] else ""
  }

  /** The inputs a (re)opened form starts from: the failed secret's fields, or empty ones. */
  function InitialFields(failed: Option<Doc>): Fields {
    Fields(FieldOr(failed, "name"), FieldOr(failed, "username"), FieldOr(failed, "password"), FieldOr(failed, "notes"))
  }

  /** After a failed save, the reopened form shows what was submitted: the same inputs, with the
      generated name if the name was left empty. */
  lemma ReopenAfterFailure(f: Fields, now: Clock)
    requires f.password != ""
    ensures var failed := HandleAdd(f, now).submitted;
      InitialFields(failed) == f.(name := if f.name != "" then f.name else SecretName(now))
  {
  }

  /** A form opened with no failed data starts empty. */
  lemma FreshFormIsEmpty()
    ensures InitialFields(None) == Empty
  {
  }

  /** The labels of the form's buttons: "Clear and hide" is offered except at the first
      onboarding stage. */
  function Buttons(stage: App.Stage): (r: seq<string>)
    ensures |r| >= 1 && r[0] == "Add a Secret"
    ensures "Clear and hide" in r <==> stage != App.SecretStage
  {
    ["Add a Secret"] + (if stage != App.SecretStage then ["Clear and hide"] else [])
  }
}

=== FILE: secret_store.dfy ===
/**
 * The secret CRUD layer of src/services/secrets.ts over the abstract
 * document store. Secrets live in the secrets database, the data key in the
 * user database; only the `password` field is encrypted. Every operation
 * returns a `Response` instead of throwing, and records the order of its
 * I/O as a trace of `Effect`s.
 */
module SecretStore {
  import opened Wrappers
  import opened Bytes
  import opened Text
  import opened DocStore
  import opened FieldEncryption
  import opened Service

  /** The two local databases the layer touches. */
  datatype Vault = Vault(secrets: Db, user: Db)

  /** What the environment supplies to one call: the cipher, whether reading the key document
      fails, the key `generateKey` would produce, the IV, the id `generateDocId` would hand out,
      the clock reading, and the revisions the store would assign. */
  datatype Env = Env(cipher: Cipher, keyReadFails: bool, freshKey: Key, iv: seq<byte>,
                     freshId: string, now: string, rev: string, keyRev: string)

  predicate ValidEnv(env: Env) {
    |env.freshKey| == KeyLength && |env.iv| == IvLength
  }

  /** The I/O an operation performs, in order. */
  datatype Effect = FetchKey | Read | Write | Query | Delete

  datatype Outcome<+T> = Outcome(response: Response<T>, vault: Vault, effects: seq<Effect>)

  const SecretPrefix: string := "secret:"
  const PasswordField: string := "password"
  const InvalidSecretMessage: string := "Invalid secret data. Name, username and password are required."
  const InvalidIdMessage: string := "Invalid secret ID"

  /** `validateSecret`: name and username non-blank, password non-empty. */
  predicate ValidateSecret(secret: Doc) {
    && "name" in secret && Trim(secret["name"]) != ""
    && "username" in secret && Trim(secret["username"]) != ""
    && PasswordField in secret && secret[PasswordField] != ""
  }

  /** `validateId`: the id is not empty or white space only. */
  predicate ValidateId(id: string) {
    Trim(id) != ""
  }

  /** The validators stated directly over characters: a field counts as filled when some
      character of it is not white space. */
  lemma ValidateSecretIff(secret: Doc)
    ensures ValidateSecret(secret) <==>
      && "name" in secret && (exists i :: 0 <= i < |secret["name"]| && !IsSpace(secret["name"][i]))
      && "username" in secret && (exists i :: 0 <= i < |secret["username"]| && !IsSpace(secret["username"][i]))
      && PasswordField in secret && |secret[PasswordField]| > 0
  {
    if "name" in secret { TrimEmptyIffBlank(secret["name"]); }
    if "username" in secret { TrimEmptyIffBlank(secret["username"]); }
  }

  lemma ValidateIdIff(id: string)
    ensures ValidateId(id) <==> exists i :: 0 <= i < |id| && !IsSpace(id[i])
  {
    TrimEmptyIffBlank(id);
  }

  /** The text `decryptField` receives for a document: a missing password field reaches
      `atob` as the string "undefined". */
  function PasswordText(doc: Doc): string {
    if PasswordField in doc then doc[PasswordField] else "undefined"
  }

  /** The document a created secret is stored as, before the store adds its revision. */
  function NewSecretDoc(secret: Doc, env: Env, key: Key): (d: Doc)
    requires ValidateSecret(secret) && ValidEnv(env)
    ensures IdField in d && "createdAt" in d && PasswordField in d
    ensures d[IdField] == env.freshId && d["createdAt"] == env.now
    ensures Base64Framed(d[PasswordField], env, key, secret[PasswordField])
  {
    secret[IdField := env.freshId]["createdAt" := env.now][PasswordField := EncryptField(env.cipher, secret[PasswordField], key, env.iv)]
  }

  /** The new document keeps every other field of the input and adds no field besides `_id`
      and `createdAt`. */
  lemma NewSecretDocKeepsFields(secret: Doc, env: Env, key: Key)
    requires ValidateSecret(secret) && ValidEnv(env)
    ensures var d := NewSecretDoc(secret, env, key);
      && (forall f :: f in secret && f != IdField && f != "createdAt" && f != PasswordField ==> f in d && d[f] == secret[f])
      && (forall f :: f in d ==> f in secret || f == IdField || f == "createdAt")
  {
    var m1 := secret[IdField := env.freshId];
    var m2 := m1["createdAt" := env.now];
    var d := m2[PasswordField := EncryptField(env.cipher, secret[PasswordField], key, env.iv)];
    assert d == NewSecretDoc(secret, env, key);
    forall f | f in secret && f != IdField && f != "createdAt" && f != PasswordField
      ensures f in d && d[f] == secret[f]
    {
      assert m1[f] == secret[f];
      assert m2[f] == m1[f];
    }
    forall f | f in d
      ensures f in secret || f == IdField || f == "createdAt"
    {
      assert f in m2 || f == PasswordField;
      assert f in m1 || f == "createdAt" || f == PasswordField;
    }
  }

  /** `blob` is the encryption of `plain` under the call's cipher and IV. */
  ghost predicate Base64Framed(blob: string, env: Env, key: Key, plain: string)
    requires ValidEnv(env)
  {
    blob == EncryptField(env.cipher, plain, key, env.iv)
  }

  /** `createSecret(secret)`. */
  function CreateSecret(v: Vault, secret: Doc, env: Env): (r: Outcome<WriteReply>)
    requires ValidEnv(env)
    ensures r.response.Rejected? <==> !ValidateSecret(secret)
    ensures !ValidateSecret(secret) ==> r == Outcome(Rejected(InvalidSecretMessage), v, [])
    ensures ValidateSecret(secret) ==> r.effects == [FetchKey, Write]
    ensures r.response.Success? ==> r.response.data == WriteReply(env.freshId, env.rev)
    ensures r.response.Failed? ==> r.vault.secrets == v.secrets
  {
    if !ValidateSecret(secret) then Outcome(Rejected(InvalidSecretMessage), v, [])
    else
      var (key, user) := GetEncryptionKey(v.user, env.keyReadFails, env.freshKey, env.now, env.keyRev);
      match Put(v.secrets, NewSecretDoc(secret, env, key), env.rev)
      case Ok((db, reply)) => Outcome(Success(reply), Vault(db, user), [FetchKey, Write])
      case Err(e) => Outcome(Failed(ErrorMessage(e)), Vault(v.secrets, user), [FetchKey, Write])
  }

  /** The key a call obtains. */
  function KeyOf(v: Vault, env: Env): Key
    requires ValidEnv(env)
  {
    GetEncryptionKey(v.user, env.keyReadFails, env.freshKey, env.now, env.keyRev).0
  }

  /** A successful create stores the new document, with the store's revision, under the fresh id
      and leaves every other secret as it was. */
  lemma CreateSecretStores(v: Vault, secret: Doc, env: Env)
    requires ValidEnv(env)
    requires CreateSecret(v, secret, env).response.Success?
    ensures var r := CreateSecret(v, secret, env);
      && env.freshId in r.vault.secrets
      && r.vault.secrets[env.freshId] == NewSecretDoc(secret, env, KeyOf(v, env))[RevField := env.rev]
    ensures var r := CreateSecret(v, secret, env);
      forall id :: id != env.freshId ==>
        (id in r.vault.secrets <==> id in v.secrets) && (id in v.secrets ==> r.vault.secrets[id] == v.secrets[id])
  {
    var doc := NewSecretDoc(secret, env, KeyOf(v, env));
    assert doc[IdField] == env.freshId;
    assert Put(v.secrets, doc, env.rev).Ok?;
  }

  /** A created secret is stored under the fresh id, stamped with the id, its creation time
      and the store's revision. */
  lemma CreatedSecretStamp(v: Vault, secret: Doc, env: Env)
    requires ValidEnv(env)
    requires CreateSecret(v, secret, env).response.Success?
    ensures env.freshId in CreateSecret(v, secret, env).vault.secrets
    ensures var d := CreateSecret(v, secret, env).vault.secrets[env.freshId];
      && IdField in d && "createdAt" in d && RevField in d && PasswordField in d
      && d[IdField] == env.freshId && d["createdAt"] == env.now && d[RevField] == env.rev
  {
    CreateSecretStores(v, secret, env);
  }

  /** A created secret keeps every other field of the input and gains only `_id`, `createdAt`
      and `_rev`. */
  lemma CreatedSecretKeepsFields(v: Vault, secret: Doc, env: Env)
    requires ValidEnv(env)
    requires CreateSecret(v, secret, env).response.Success?
    ensures env.freshId in CreateSecret(v, secret, env).vault.secrets
    ensures var d := CreateSecret(v, secret, env).vault.secrets[env.freshId];
      && (forall f :: f in secret && f != IdField && f != "createdAt" && f != PasswordField && f != RevField ==>
            f in d && d[f] == secret[f])
      && (forall f :: f in d ==> f in secret || f == IdField || f == "createdAt" || f == RevField)
  {
    CreateSecretStores(v, secret, env);
    StampedNewDocKeepsFields(secret, env, KeyOf(v, env));
  }

  /** The new document stamped with the store's revision keeps the other input fields and gains
      only `_id`, `createdAt` and `_rev`. */
  lemma StampedNewDocKeepsFields(secret: Doc, env: Env, key: Key)
    requires ValidateSecret(secret) && ValidEnv(env)
    ensures var w := NewSecretDoc(secret, env, key)[RevField := env.rev];
      && (forall f :: f in secret && f != IdField && f != "createdAt" && f != PasswordField && f != RevField ==>
            f in w && w[f] == secret[f])
      && (forall f :: f in w ==> f in secret || f == IdField || f == "createdAt" || f == RevField)
  {
    var d := NewSecretDoc(secret, env, key);
    var w := d[RevField := env.rev];
    NewSecretDocKeepsFields(secret, env, key);
    forall f | f in secret && f != IdField && f != "createdAt" && f != PasswordField && f != RevField
      ensures f in w && w[f] == secret[f]
    {
      assert d[f] == secret[f];
    }
    forall f | f in w ensures f in secret || f == IdField || f == "createdAt" || f == RevField {
      assert f in d || f == RevField;
    }
  }

  /** Under a correct cipher the stored password of a created secret decrypts back to the
      submitted one. */
  lemma CreatedSecretContents(v: Vault, secret: Doc, env: Env)
    requires ValidEnv(env) && Correct(env.cipher)
    requires CreateSecret(v, secret, env).response.Success?
    ensures env.freshId in CreateSecret(v, secret, env).vault.secrets
    ensures var d := CreateSecret(v, secret, env).vault.secrets[env.freshId];
      PasswordField in d && DecryptField(env.cipher, d[PasswordField], KeyOf(v, env)) == Ok(secret[PasswordField])
  {
    var key := KeyOf(v, env);
    CreateSecretStores(v, secret, env);
    DecryptEncrypt(env.cipher, secret[PasswordField], key, env.iv);
  }

  /** Decrypts the password of one listed document; `None` is a record that is skipped. */
  function DecryptRow(c: Cipher, key: Key, doc: Doc): (r: Option<Doc>)
    ensures r.Some? <==> DecryptField(c, PasswordText(doc), key).Ok?
    ensures r.Some? ==> r.value == doc[PasswordField := DecryptField(c, PasswordText(doc), key).value]
    ensures r.Some? ==> SameId(r.value, doc)
  {
    match DecryptField(c, PasswordText(doc), key)
    case Ok(p) => Some(doc[PasswordField := p])
    case Err(_) => None
  }

  /** Both documents carry the same id (or neither has one). */
  predicate SameId(a: Doc, b: Doc) {
    (IdField in a <==> IdField in b) && (IdField in a ==> a[IdField] == b[IdField])
  }

  /** `a` is listed before `b`: strictly greater id. */
  predicate Before(a: Doc, b: Doc) {
    IdField in a && IdField in b && LexLe(b[IdField], a[IdField]) && a[IdField] != b[IdField]
  }

  /** Every document is listed before all later ones. */
  predicate Ordered(r: seq<Doc>) {
    forall i, j :: 0 <= i < j < |r| ==> Before(r[i], r[j])
  }

  /** The present values of `xs`, in order. */
  function Somes(xs: seq<Option<Doc>>): (r: seq<Doc>)
    ensures |r| <= |xs|
    ensures forall d :: d in r ==> Some(d) in xs
  {
    if |xs| == 0 then []
    else
      var rest := Somes(xs[1..]);
      assert forall d :: d in rest ==> Some(d) in xs by {
        forall d | d in rest ensures Some(d) in xs {
          assert Some(d) in xs[1..];
        }
      }
      if xs[0].Some? then [xs[0].value] + rest else rest
  }

  lemma {:induction false} SomesAppend(a: seq<Option<Doc>>, b: seq<Option<Doc>>)
    ensures Somes(a + b) == Somes(a) + Somes(b)
  {
    if |a| > 0 {
      assert (a + b)[1..] == a[1..] + b;
      SomesAppend(a[1..], b);
    } else {
      assert a + b == b;
    }
  }

  lemma {:induction false} SomesComplete(xs: seq<Option<Doc>>, d: Doc)
    requires Some(d) in xs
    ensures d in Somes(xs)
  {
    if xs[0] != Some(d) {
      assert Some(d) in xs[1..];
      SomesComplete(xs[1..], d);
    }
  }

  /** The present values of `xs` are pairwise in listing order. */
  predicate OrderedSomes(xs: seq<Option<Doc>>) {
    forall i, j :: 0 <= i < j < |xs| && xs[i].Some? && xs[j].Some? ==> Before(xs[i].value, xs[j].value)
  }

  lemma {:induction false} SomesKeepOrder(xs: seq<Option<Doc>>)
    requires OrderedSomes(xs)
    ensures Ordered(Somes(xs))
  {
    if |xs| > 0 {
      var tail := xs[1..];
      assert OrderedSomes(tail) by {
        forall i, j | 0 <= i < j < |tail| && tail[i].Some? && tail[j].Some?
          ensures Before(tail[i].value, tail[j].value)
        {
          assert tail[i] == xs[i + 1] && tail[j] == xs[j + 1];
          assert 0 <= i + 1 < j + 1 < |xs| && xs[i + 1].Some? && xs[j + 1].Some?;
        }
      }
      SomesKeepOrder(tail);
      var rest := Somes(tail);
      if xs[0].Some? {
        var r := [xs[0].value] + rest;
        assert Somes(xs) == r;
        forall i, j | 0 <= i < j < |r| ensures Before(r[i], r[j]) {
          if i == 0 {
            assert r[j] in rest;
            assert Some(r[j]) in tail;
            var k :| 0 <= k < |tail| && tail[k] == Some(r[j]);
            assert xs[k + 1] == tail[k];
            assert 0 < k + 1 < |xs| && xs[0].Some? && xs[k + 1].Some?;
            assert Before(xs[0].value, xs[k + 1].value);
            assert r[0] == xs[0].value;
            assert r[j] == xs[k + 1].value;
          } else {
            assert r[i] == rest[i - 1] && r[j] == rest[j - 1];
            assert 0 <= i - 1 < j - 1 < |rest|;
            assert Before(rest[i - 1], rest[j - 1]);
          }
        }
      }
    }
  }

  /** The row-by-row decryption results. */
  function DecryptEach(c: Cipher, key: Key, rows: seq<Doc>): (r: seq<Option<Doc>>)
    ensures |r| == |rows|
    ensures forall i :: 0 <= i < |rows| ==> r[i] == DecryptRow(c, key, rows[i])
  {
    seq(|rows|, i requires 0 <= i < |rows| => DecryptRow(c, key, rows[i]))
  }

  /** The loop of `getAllSecrets`: each row is decrypted, and a row that fails is skipped. */
  function DecryptRows(c: Cipher, key: Key, rows: seq<Doc>): (r: seq<Doc>)
    ensures |r| <= |rows|
    ensures forall d :: d in r ==> exists i :: 0 <= i < |rows| && DecryptRow(c, key, rows[i]) == Some(d)
  {
    var xs := DecryptEach(c, key, rows);
    var r := Somes(xs);
    assert forall d :: d in r ==> exists i :: 0 <= i < |rows| && DecryptRow(c, key, rows[i]) == Some(d) by {
      forall d | d in r ensures exists i :: 0 <= i < |rows| && DecryptRow(c, key, rows[i]) == Some(d) {
        var i :| 0 <= i < |xs| && xs[i] == Some(d);
      }
    }
    r
  }

  /** Skipping distributes over concatenation: a failing row never affects the others. */
  lemma DecryptRowsAppend(c: Cipher, key: Key, a: seq<Doc>, b: seq<Doc>)
    ensures DecryptRows(c, key, a + b) == DecryptRows(c, key, a) + DecryptRows(c, key, b)
  {
    var x, y, z := DecryptEach(c, key, a + b), DecryptEach(c, key, a), DecryptEach(c, key, b);
    forall i | 0 <= i < |x| ensures x[i] == (y + z)[i] {
      if i < |a| {
        assert (a + b)[i] == a[i];
      } else {
        assert (a + b)[i] == b[i - |a|];
      }
    }
    assert x == y + z;
    SomesAppend(y, z);
  }

  /** Every row that decrypts is returned. */
  lemma DecryptRowsComplete(c: Cipher, key: Key, rows: seq<Doc>, i: nat)
    requires i < |rows| && DecryptRow(c, key, rows[i]).Some?
    ensures DecryptRow(c, key, rows[i]).value in DecryptRows(c, key, rows)
  {
    var xs := DecryptEach(c, key, rows);
    assert xs[i] in xs;
    SomesComplete(xs, DecryptRow(c, key, rows[i]).value);
  }

  /** Decryption keeps ids, so skipping rows keeps a descending listing descending. */
  lemma DecryptRowsKeepOrder(c: Cipher, key: Key, rows: seq<Doc>)
    requires Ordered(rows)
    ensures Ordered(DecryptRows(c, key, rows))
  {
    var xs := DecryptEach(c, key, rows);
    assert OrderedSomes(xs) by {
      forall i, j | 0 <= i < j < |xs| && xs[i].Some? && xs[j].Some?
        ensures Before(xs[i].value, xs[j].value)
      {
        assert Before(rows[i], rows[j]);
        assert SameId(xs[i].value, rows[i]) && SameId(xs[j].value, rows[j]);
      }
    }
    SomesKeepOrder(xs);
  }

  /** The upper bound of the listing range. */
  const SecretRangeEnd: string := SecretPrefix + "\U{FFFF}"

  /** `getAllSecrets()`: the key is fetched, the `secret:` range is listed in descending id order,
      and every row whose password fails to decrypt is left out. */
  function GetAllSecrets(v: Vault, env: Env): (r: Outcome<seq<Doc>>)
    requires ValidEnv(env)
    ensures r.response.Success?
    ensures r.vault.secrets == v.secrets && r.effects == [FetchKey, Query]
  {
    var (key, user) := GetEncryptionKey(v.user, env.keyReadFails, env.freshKey, env.now, env.keyRev);
    var rows := AllDocsDescending(v.secrets, SecretRangeEnd, SecretPrefix);
    Outcome(Success(DecryptRows(env.cipher, key, rows)), Vault(v.secrets, user), [FetchKey, Query])
  }

  /** What the listing contains: only stored `secret:` documents with their password decrypted,
      in strictly descending id order, and every such document whose password decrypts. */
  lemma GetAllSecretsSpec(v: Vault, env: Env)
    requires ValidEnv(env) && WellFormed(v.secrets)
    ensures var list := GetAllSecrets(v, env).response.data;
      var key := KeyOf(v, env);
      && (forall i :: 0 <= i < |list| ==>
            IdField in list[i] && list[i][IdField] in v.secrets
            && InRange(list[i][IdField], SecretPrefix, SecretRangeEnd)
            && DecryptRow(env.cipher, key, v.secrets[list[i][IdField]]) == Some(list[i]))
      && Ordered(list)
      && (forall id ::
            (id in v.secrets && InRange(id, SecretPrefix, SecretRangeEnd)
             && DecryptRow(env.cipher, key, v.secrets[id]).Some?) ==>
            DecryptRow(env.cipher, key, v.secrets[id]).value in list)
  {
    var key := KeyOf(v, env);
    var rows := AllDocsDescending(v.secrets, SecretRangeEnd, SecretPrefix);
    AllDocsDescendingSound(v.secrets, SecretRangeEnd, SecretPrefix);
    AllDocsDescendingComplete(v.secrets, SecretRangeEnd, SecretPrefix);
    AllDocsDescendingOrdered(v.secrets, SecretRangeEnd, SecretPrefix);
    var list := DecryptRows(env.cipher, key, rows);
    assert list == GetAllSecrets(v, env).response.data;
    forall i | 0 <= i < |list|
      ensures IdField in list[i] && list[i][IdField] in v.secrets
        && InRange(list[i][IdField], SecretPrefix, SecretRangeEnd)
        && DecryptRow(env.cipher, key, v.secrets[list[i][IdField]]) == Some(list[i])
    {
      assert list[i] in list;
      var k :| 0 <= k < |rows| && DecryptRow(env.cipher, key, rows[k]) == Some(list[i]);
      assert list[i][IdField] == rows[k][IdField];
    }
    DecryptRowsKeepOrder(env.cipher, key, rows);
    forall id | (id in v.secrets && InRange(id, SecretPrefix, SecretRangeEnd)
                 && DecryptRow(env.cipher, key, v.secrets[id]).Some?)
      ensures DecryptRow(env.cipher, key, v.secrets[id]).value in list
    {
      var k :| 0 <= k < |rows| && rows[k] == v.secrets[id];
      DecryptRowsComplete(env.cipher, key, rows, k);
    }
  }

  /** Listed ids are exactly those that start with `secret:` (up to the `￿` bound). */
  lemma SecretRangeIsPrefix(id: string)
    ensures InRange(id, SecretPrefix, SecretRangeEnd) <==>
      StartsWith(id, SecretPrefix) && LexLe(id[|SecretPrefix|..], "\U{FFFF}")
  {
    PrefixRange(id, SecretPrefix);
  }

  /** `getSecret(id)`: the key is fetched, then the document is read and its password
      decrypted. */
  function GetSecret(v: Vault, id: string, env: Env): (r: Outcome<Doc>)
    requires ValidEnv(env)
    ensures !ValidateId(id) ==> r == Outcome(Rejected(InvalidIdMessage), v, [])
    ensures ValidateId(id) ==> r.effects == [FetchKey, Read] && r.vault.secrets == v.secrets
    ensures ValidateId(id) && id !in v.secrets ==> r.response == Failed(ErrorMessage(NotFound))
    ensures r.response.Success? <==>
      ValidateId(id) && id in v.secrets && DecryptRow(env.cipher, KeyOf(v, env), v.secrets[id]).Some?
    ensures r.response.Success? ==> Some(r.response.data) == DecryptRow(env.cipher, KeyOf(v, env), v.secrets[id])
  {
    if !ValidateId(id) then Outcome(Rejected(InvalidIdMessage), v, [])
    else
      var (key, user) := GetEncryptionKey(v.user, env.keyReadFails, env.freshKey, env.now, env.keyRev);
      match Get(v.secrets, id)
      case Err(e) => Outcome(Failed(ErrorMessage(e)), Vault(v.secrets, user), [FetchKey, Read])
      case Ok(doc) =>
        match DecryptField(env.cipher, PasswordText(doc), key)
        case Ok(p) => Outcome(Success(doc[PasswordField := p]), Vault(v.secrets, user), [FetchKey, Read])
        case Err(m) => Outcome(Failed(m), Vault(v.secrets, user), [FetchKey, Read])
  }

  /** Reading back a created secret (with the key readable the second time) yields the
      submitted password in the clear. */
  lemma CreateThenGet(v: Vault, secret: Doc, env: Env, env2: Env)
    requires ValidEnv(env) && ValidEnv(env2) && Correct(env.cipher)
    requires env2.cipher == env.cipher && !env2.keyReadFails
    requires GetKeyFromDb(v.user, env.keyReadFails).Some? || KeyDocId !in v.user
    requires ValidateId(env.freshId)
    requires CreateSecret(v, secret, env).response.Success?
    ensures var g := GetSecret(CreateSecret(v, secret, env).vault, env.freshId, env2);
      g.response.Success? && g.response.data[PasswordField] == secret[PasswordField]
      && g.response.data["createdAt"] == env.now
  {
    var v1 := CreateSecret(v, secret, env).vault;
    GetEncryptionKeyIdempotent(v.user, env.keyReadFails, env.freshKey, env2.freshKey, env.now, env2.now, env.keyRev, env2.keyRev);
    assert KeyOf(v1, env2) == KeyOf(v, env);
    CreatedSecretStamp(v, secret, env);
    CreatedSecretContents(v, secret, env);
  }

  /** Whether `updateSecret` re-encrypts: the update carries a non-empty password that differs
      from the stored value. */
  predicate Reencrypts(current: Doc, updates: Doc) {
    PasswordField in updates && updates[PasswordField] != ""
    && (PasswordField !in current || updates[PasswordField] != current[PasswordField])
  }

  /** The document `updateSecret` writes: the stored one overlaid by the updates, stamped with
      `updatedAt`, with the password re-encrypted when it changed. */
  function MergedSecret(current: Doc, updates: Doc, env: Env, key: Key): (d: Doc)
    requires ValidEnv(env)
    ensures "updatedAt" in d && d["updatedAt"] == env.now
    ensures forall f :: f in current && f !in updates && f != "updatedAt" && f != PasswordField ==>
      f in d && d[f] == current[f]
    ensures forall f :: f in updates && f != "updatedAt" && f != PasswordField ==> f in d && d[f] == updates[f]
    ensures forall f :: f in d ==> f in current || f in updates || f == "updatedAt"
    ensures Reencrypts(current, updates) ==>
      PasswordField in d && d[PasswordField] == EncryptField(env.cipher, updates[PasswordField], key, env.iv)
    ensures !Reencrypts(current, updates) ==>
      (PasswordField in d <==> PasswordField in current || PasswordField in updates)
      && (PasswordField in updates ==> d[PasswordField] == updates[PasswordField])
      && (PasswordField !in updates && PasswordField in current ==> d[PasswordField] == current[PasswordField])
  {
    var union := current + updates;
    var merged := union["updatedAt" := env.now];
    assert forall f :: f in current && f !in updates && f != "updatedAt" ==> f in merged && merged[f] == current[f] by {
      forall f | f in current && f !in updates && f != "updatedAt" ensures f in merged && merged[f] == current[f] {
        assert union[f] == current[f];
      }
    }
    assert forall f :: f in updates && f != "updatedAt" ==> f in merged && merged[f] == updates[f] by {
      forall f | f in updates && f != "updatedAt" ensures f in merged && merged[f] == updates[f] {
        assert union[f] == updates[f];
      }
    }
    assert forall f :: f in merged ==> f in current || f in updates || f == "updatedAt" by {
      forall f | f in merged ensures f in current || f in updates || f == "updatedAt" {
        assert f in union || f == "updatedAt";
      }
    }
    if Reencrypts(current, updates)
    then merged[PasswordField := EncryptField(env.cipher, updates[PasswordField], key, env.iv)]
    else merged
  }

  /** A created secret whose fresh id carries the `secret:` prefix is listed by a later
      `getAllSecrets`, as the same document `getSecret` reads back. */
  lemma CreateThenList(v: Vault, secret: Doc, env: Env, env2: Env)
    requires ValidEnv(env) && ValidEnv(env2) && Correct(env.cipher) && WellFormed(v.secrets)
    requires env2.cipher == env.cipher && !env2.keyReadFails
    requires GetKeyFromDb(v.user, env.keyReadFails).Some? || KeyDocId !in v.user
    requires StartsWith(env.freshId, SecretPrefix) && LexLe(env.freshId[|SecretPrefix|..], "\U{FFFF}")
    requires CreateSecret(v, secret, env).response.Success?
    ensures var v1 := CreateSecret(v, secret, env).vault;
      var g := GetSecret(v1, env.freshId, env2);
      g.response.Success? && g.response.data in GetAllSecrets(v1, env2).response.data
      && g.response.data[PasswordField] == secret[PasswordField]
  {
    var v1 := CreateSecret(v, secret, env).vault;
    assert ValidateId(env.freshId) by {
      assert env.freshId[..|SecretPrefix|][0] == 's';
      assert !IsSpace(env.freshId[0]);
      ValidateIdIff(env.freshId);
    }
    CreateThenGet(v, secret, env, env2);
    CreateKeepsWellFormed(v, secret, env);
    SecretRangeIsPrefix(env.freshId);
    GetAllSecretsSpec(v1, env2);
  }

  /** A successful create keeps the secrets store well formed. */
  lemma CreateKeepsWellFormed(v: Vault, secret: Doc, env: Env)
    requires ValidEnv(env) && WellFormed(v.secrets)
    requires CreateSecret(v, secret, env).response.Success?
    ensures WellFormed(CreateSecret(v, secret, env).vault.secrets)
  {
    var doc := NewSecretDoc(secret, env, KeyOf(v, env));
    assert doc[IdField] == env.freshId;
    assert Put(v.secrets, doc, env.rev).Ok?;
    PutPreservesWellFormed(v.secrets, doc, env.rev);
  }

  /** `updateSecret(id, updates)`. */
  function UpdateSecret(v: Vault, id: string, updates: Doc, env: Env): (r: Outcome<WriteReply>)
    requires ValidEnv(env)
    ensures !ValidateId(id) ==> r == Outcome(Rejected(InvalidIdMessage), v, [])
    ensures ValidateId(id) && id !in v.secrets ==>
      r == Outcome(Failed(ErrorMessage(NotFound)), v, [Read])
    ensures ValidateId(id) && id in v.secrets ==>
      r.effects == (if Reencrypts(v.secrets[id], updates) then [Read, FetchKey, Write] else [Read, Write])
    ensures ValidateId(id) && id in v.secrets && !Reencrypts(v.secrets[id], updates) ==> r.vault.user == v.user
    ensures r.response.Failed? ==> r.vault.secrets == v.secrets
  {
    if !ValidateId(id) then Outcome(Rejected(InvalidIdMessage), v, [])
    else match Get(v.secrets, id)
      case Err(e) => Outcome(Failed(ErrorMessage(e)), v, [Read])
      case Ok(current) => WriteMerged(v, current, updates, env)
  }

  /** The write half of `updateSecret`, once the current document was read: the key is fetched
      only when the password is re-encrypted, then the merged document is put. */
  function WriteMerged(v: Vault, current: Doc, updates: Doc, env: Env): (r: Outcome<WriteReply>)
    requires ValidEnv(env)
    ensures r.effects == (if Reencrypts(current, updates) then [Read, FetchKey, Write] else [Read, Write])
    ensures !Reencrypts(current, updates) ==> r.vault.user == v.user
    ensures r.response.Failed? ==> r.vault.secrets == v.secrets
  {
    var reencrypt := Reencrypts(current, updates);
    var (key, user) :=
      if reencrypt then GetEncryptionKey(v.user, env.keyReadFails, env.freshKey, env.now, env.keyRev)
      else (env.freshKey, v.user);
    var effects := if reencrypt then [Read, FetchKey, Write] else [Read, Write];
    match Put(v.secrets, MergedSecret(current, updates, env, key), env.rev)
    case Ok((db, reply)) => Outcome(Success(reply), Vault(db, user), effects)
    case Err(e) => Outcome(Failed(ErrorMessage(e)), Vault(v.secrets, user), effects)
  }

  /** An update whose password is the empty string is not re-encrypted: the stored ciphertext
      is overwritten with "". */
  lemma EmptyPasswordUpdateClearsCiphertext(v: Vault, id: string, updates: Doc, env: Env)
    requires ValidEnv(env) && ValidateId(id) && id in v.secrets
    requires PasswordField in updates && updates[PasswordField] == ""
    requires UpdateSecret(v, id, updates, env).response.Success?
    ensures var d := UpdateSecret(v, id, updates, env).vault.secrets;
      var wid := (v.secrets[id] + updates)[IdField];
      wid in d && d[wid][PasswordField] == ""
  {
    var current := v.secrets[id];
    assert Get(v.secrets, id) == Ok(current);
    assert UpdateSecret(v, id, updates, env) == WriteMerged(v, current, updates, env);
    var d := MergedSecret(current, updates, env, env.freshKey);
    assert UpdateKey(v, current, updates, env) == env.freshKey;
    WriteMergedPuts(v, current, updates, env);
    assert IdField in d && d[IdField] == (current + updates)[IdField];
  }

  /** The key an update encrypts with: the fetched one when it re-encrypts. */
  function UpdateKey(v: Vault, current: Doc, updates: Doc, env: Env): Key
    requires ValidEnv(env)
  {
    if Reencrypts(current, updates) then KeyOf(v, env) else env.freshKey
  }

  /** With a well-formed store and an update that leaves `_id` and `_rev` alone, the update
      succeeds and writes the merged document back under the same id. */
  lemma UpdateWritesMerged(v: Vault, id: string, updates: Doc, env: Env)
    requires ValidEnv(env) && WellFormed(v.secrets) && ValidateId(id) && id in v.secrets
    requires IdField !in updates && RevField !in updates
    ensures var r := UpdateSecret(v, id, updates, env);
      && r.response.Success?
      && id in r.vault.secrets
      && r.vault.secrets[id]
         == MergedSecret(v.secrets[id], updates, env, UpdateKey(v, v.secrets[id], updates, env))[RevField := env.rev]
  {
    var current := v.secrets[id];
    var d := MergedSecret(current, updates, env, UpdateKey(v, current, updates, env));
    assert IdField in current && current[IdField] == id;
    assert RevField in current;
    assert IdField in d && d[IdField] == id;
    assert RevField in d && d[RevField] == current[RevField];
    assert Get(v.secrets, id) == Ok(current);
    assert UpdateSecret(v, id, updates, env) == WriteMerged(v, current, updates, env);
    WriteMergedPuts(v, current, updates, env);
  }

  /** When the put of the merged document succeeds, the write stores it with the new revision. */
  lemma WriteMergedPuts(v: Vault, current: Doc, updates: Doc, env: Env)
    requires ValidEnv(env)
    requires Put(v.secrets, MergedSecret(current, updates, env, UpdateKey(v, current, updates, env)), env.rev).Ok?
    ensures var d := MergedSecret(current, updates, env, UpdateKey(v, current, updates, env));
      var r := WriteMerged(v, current, updates, env);
      r.response.Success? && r.vault.secrets == v.secrets[d[IdField] := d[RevField := env.rev]]
  {
  }

  /** After such an update the document carries the update time and the new revision, fields the
      update does not name keep their stored values, and the named ones take the new values. */
  lemma UpdateKeepsOtherFields(v: Vault, id: string, updates: Doc, env: Env)
    requires ValidEnv(env) && WellFormed(v.secrets) && ValidateId(id) && id in v.secrets
    requires IdField !in updates && RevField !in updates
    ensures var r := UpdateSecret(v, id, updates, env);
      && r.response.Success?
      && id in r.vault.secrets
      && "updatedAt" in r.vault.secrets[id] && r.vault.secrets[id]["updatedAt"] == env.now
      && RevField in r.vault.secrets[id] && r.vault.secrets[id][RevField] == env.rev
      && (forall f :: f in v.secrets[id] && f !in updates && f != "updatedAt" && f != PasswordField && f != RevField ==>
            f in r.vault.secrets[id] && r.vault.secrets[id][f] == v.secrets[id][f])
      && (forall f :: f in updates && f != "updatedAt" && f != PasswordField ==>
            f in r.vault.secrets[id] && r.vault.secrets[id][f] == updates[f])
  {
    var current := v.secrets[id];
    UpdateWritesMerged(v, id, updates, env);
    StampedMergeKeepsFields(current, updates, env, UpdateKey(v, current, updates, env));
  }

  /** The merged document stamped with a new revision keeps the stored fields the update does not
      name and takes the named ones. */
  lemma StampedMergeKeepsFields(current: Doc, updates: Doc, env: Env, key: Key)
    requires ValidEnv(env) && RevField !in updates
    ensures var w := MergedSecret(current, updates, env, key)[RevField := env.rev];
      && "updatedAt" in w && w["updatedAt"] == env.now
      && RevField in w && w[RevField] == env.rev
      && (forall f :: f in current && f !in updates && f != "updatedAt" && f != PasswordField && f != RevField ==>
            f in w && w[f] == current[f])
      && (forall f :: f in updates && f != "updatedAt" && f != PasswordField ==> f in w && w[f] == updates[f])
  {
    var d := MergedSecret(current, updates, env, key);
    var w := d[RevField := env.rev];
    forall f | f in current && f !in updates && f != "updatedAt" && f != PasswordField && f != RevField
      ensures f in w && w[f] == current[f]
    {
      assert d[f] == current[f];
    }
    forall f | f in updates && f != "updatedAt" && f != PasswordField
      ensures f in w && w[f] == updates[f]
    {
      assert d[f] == updates[f];
    }
  }

  /** `deleteSecret(id)`: the current document is read and removed with its revision. */
  function DeleteSecret(v: Vault, id: string): (r: Outcome<string>)
    ensures !ValidateId(id) ==> r == Outcome(Rejected(InvalidIdMessage), v, [])
    ensures ValidateId(id) && id !in v.secrets ==> r == Outcome(Failed(ErrorMessage(NotFound)), v, [Read])
    ensures r.response.Success? ==> id in v.secrets
    ensures r.response.Success? && WellFormed(v.secrets) ==> r.vault.secrets == v.secrets - {id}
    ensures !r.response.Success? ==> r.vault == v
    ensures r.vault.user == v.user
  {
    if !ValidateId(id) then Outcome(Rejected(InvalidIdMessage), v, [])
    else match Get(v.secrets, id)
      case Err(e) => Outcome(Failed(ErrorMessage(e)), v, [Read])
      case Ok(doc) =>
        match Remove(v.secrets, doc)
        case Ok(db) => Outcome(Success(id), Vault(db, v.user), [Read, Delete])
        case Err(e) => Outcome(Failed(ErrorMessage(e)), v, [Read, Delete])
  }

  /** In a well-formed store, deleting a stored secret succeeds, and a later read fails with
      "missing". */
  lemma DeleteThenGet(v: Vault, id: string, env: Env)
    requires ValidEnv(env) && WellFormed(v.secrets) && ValidateId(id) && id in v.secrets
    ensures DeleteSecret(v, id).response == Success(id)
    ensures GetSecret(DeleteSecret(v, id).vault, id, env).response == Failed(ErrorMessage(NotFound))
  {
    RemoveAfterGet(v.secrets, id);
  }
}

=== FILE: service.dfy ===
/** The `ServiceResponse` shape every local service returns instead of throwing. */
module Service {

  /** `success: true` with data, `success: false` with a validation `message`, or
      `success: false` with the `error` text of a caught exception. */
  datatype Response<+T> = Success(data: T) | Rejected(message: string) | Failed(error: string)
}

=== FILE: text.dfy ===
/**
 * String helpers with the semantics of the JavaScript built-ins the source
 * uses: `trim()`, the `\s` regex class, `split`, `join`, `startsWith`,
 * `includes`, `toLowerCase` (ASCII part), `String(n)` and `padStart(2, '0')`.
 * Strings are sequences of Unicode scalar values.
 */
module Text {
  import opened Wrappers

  /** ECMAScript WhiteSpace and LineTerminator code points: what `trim()` strips and `\s` matches. */
  predicate IsSpace(c: char) {
    || c == '\t' || c == '\n' || c == '\U{000B}' || c == '\U{000C}' || c == '\r' || c == ' '
    || c == '\U{00A0}' || c == '\U{1680}' || ('\U{2000}' <= c <= '\U{200A}')
    || c == '\U{2028}' || c == '\U{2029}' || c == '\U{202F}' || c == '\U{205F}'
    || c == '\U{3000}' || c == '\U{FEFF}'
  }

  /** Every character of `s` is white space (vacuously true of ""). */
  predicate Blank(s: string) {
    forall i :: 0 <= i < |s| ==> IsSpace(s[i])
  }

  /** True when no character of `s` is white space. */
  predicate NoSpace(s: string) {
    forall i :: 0 <= i < |s| ==> !IsSpace(s[i])
  }

  predicate IsAsciiLetter(c: char) {
    'a' <= c <= 'z' || 'A' <= c <= 'Z'
  }

  predicate IsDigit(c: char) {
    '0' <= c <= '9'
  }

  predicate IsHexDigit(c: char) {
    IsDigit(c) || 'a' <= c <= 'f' || 'A' <= c <= 'F'
  }

  predicate AllDigits(s: string) {
    forall i :: 0 <= i < |s| ==> IsDigit(s[i])
  }

  /** `s.trimStart()`: the suffix left after dropping the longest blank prefix. */
  function TrimStart(s: string): (r: string)
    ensures |r| <= |s| && r == s[|s| - |r|..]
    ensures Blank(s[..|s| - |r|])
    ensures r == [] || !IsSpace(r[0])
  {
    if |s| > 0 && IsSpace(s[0]) then
      var t := s[1..];
      var r := TrimStart(t);
      var k := |s| - |r|;
      assert t[|t| - |r|..] == s[k..];
      assert Blank(s[..k]) by {
        forall i | 0 <= i < k ensures IsSpace(s[..k][i]) {
          if i > 0 {
            assert s[..k][i] == t[..k - 1][i - 1];
          }
        }
      }
      r
    else s
  }

  /** `s.trimEnd()`: the prefix left after dropping the longest blank suffix. */
  function TrimEnd(s: string): (r: string)
    ensures |r| <= |s| && r == s[..|r|]
    ensures Blank(s[|r|..])
    ensures r == [] || !IsSpace(r[|r| - 1])
  {
    if |s| > 0 && IsSpace(s[|s| - 1]) then
      var r := TrimEnd(s[..|s| - 1]);
      assert s[|r|..] == s[..|s| - 1][|r|..] + [s[|s| - 1]];
      r
    else s
  }

  /** `s.trim()`. */
  function Trim(s: string): (r: string)
    ensures |r| <= |s|
    ensures r == [] || (!IsSpace(r[0]) && !IsSpace(r[|r| - 1]))
  {
    var t := TrimStart(s);
    var r := TrimEnd(t);
    assert r != [] ==> r[0] == t[0];
    r
  }

  lemma {:induction false} TrimStartOfBlank(s: string)
    requires Blank(s)
    ensures TrimStart(s) == []
  {
    if |s| > 0 {
      TrimStartOfBlank(s[1..]);
    }
  }

  /** `s.trim().length > 0` holds exactly when some character of `s` is not white space. */
  lemma TrimEmptyIffBlank(s: string)
    ensures Trim(s) == [] <==> Blank(s)
  {
    if Blank(s) {
      TrimStartOfBlank(s);
    } else {
      var i :| 0 <= i < |s| && !IsSpace(s[i]);
      var t := TrimStart(s);
      assert i >= |s| - |t|;
      assert t[i - (|s| - |t|)] == s[i];
      assert !Blank(t);
    }
  }

  /** Trimming twice is the same as trimming once. */
  lemma TrimIdempotent(s: string)
    ensures Trim(Trim(s)) == Trim(s)
  {
    var r := Trim(s);
    if r != [] {
      assert TrimStart(r) == r;
      assert TrimEnd(r) == r;
    }
  }

  /** `s.startsWith(p)`. */
  predicate StartsWith(s: string, p: string) {
    |p| <= |s| && s[..|p|] == p
  }

  /** `sub` occurs in `s` starting at index `i`. */
  predicate OccursAt(s: string, sub: string, i: int) {
    0 <= i && i + |sub| <= |s| && s[i..i + |sub|] == sub
  }

  /** `s.includes(sub)`. */
  predicate Contains(s: string, sub: string)
    decreases |s|
  {
    StartsWith(s, sub) || (|s| > 0 && Contains(s[1..], sub))
  }

  /** A slice of the tail is the slice one place further on in the whole. */
  lemma TailSlice(s: string, j: nat, n: nat)
    requires 1 + j + n <= |s|
    ensures s[1..][j..j + n] == s[j + 1..j + 1 + n]
  {
    var a, b := s[1..][j..j + n], s[j + 1..j + 1 + n];
    assert forall k :: 0 <= k < n ==> a[k] == b[k];
  }

  /** `Contains` holds exactly when `sub` occurs at some position of `s`. */
  lemma {:induction false} ContainsIffOccurs(s: string, sub: string)
    ensures Contains(s, sub) <==> exists i :: OccursAt(s, sub, i)
    decreases |s|
  {
    if StartsWith(s, sub) {
      assert OccursAt(s, sub, 0);
    } else if |s| == 0 {
    } else {
      ContainsIffOccurs(s[1..], sub);
      if exists i :: OccursAt(s, sub, i) {
        var i :| OccursAt(s, sub, i);
        assert i != 0;
        TailSlice(s, i - 1, |sub|);
        assert OccursAt(s[1..], sub, i - 1);
      }
      if Contains(s[1..], sub) {
        var j :| OccursAt(s[1..], sub, j);
        TailSlice(s, j, |sub|);
        assert OccursAt(s, sub, j + 1);
      }
    }
  }

  /** The index of the first `c` in `s`, as `s.indexOf(c)` finds it. */
  function IndexOf(s: string, c: char): (r: Option<nat>)
    ensures r.None? <==> c !in s
    ensures r.Some? ==> r.value < |s| && s[r.value] == c && c !in s[..r.value]
  {
    if |s| == 0 then None
    else if s[0] == c then Some(0)
    else match IndexOf(s[1..], c)
      case None => None
      case Some(i) =>
        assert s[..i + 1] == [s[0]] + s[1..][..i];
        Some(i + 1)
  }

  /** The character `c` occurs in `s` iff `s` contains the one-character string `[c]`. */
  lemma ContainsChar(s: string, c: char)
    ensures Contains(s, [c]) <==> c in s
  {
    ContainsIffOccurs(s, [c]);
    if c in s {
      var i :| 0 <= i < |s| && s[i] == c;
      assert OccursAt(s, [c], i);
    }
    if Contains(s, [c]) {
      var i :| OccursAt(s, [c], i);
      assert s[i] == s[i..i + 1][0];
    }
  }

  function AsciiLowerChar(c: char): char {
    if 'A' <= c <= 'Z' then (c as int + 32) as char else c
  }

  /** `s.toLowerCase()` restricted to the ASCII letters. */
  function AsciiLower(s: string): (r: string)
    ensures |r| == |s|
    ensures forall i :: 0 <= i < |s| ==> r[i] == AsciiLowerChar(s[i])
  {
    if |s| == 0 then "" else [AsciiLowerChar(s[0])] + AsciiLower(s[1..])
  }

  /** `parts.join(sep)`. */
  function Join(parts: seq<string>, sep: string): string
  {
    if |parts| == 0 then ""
    else if |parts| == 1 then parts[0]
    else parts[0] + sep + Join(parts[1..], sep)
  }

  /** `s.split(sep)` for a one-character separator. */
  function Split(s: string, sep: char): (r: seq<string>)
    ensures |r| >= 1
    ensures forall i :: 0 <= i < |r| ==> sep !in r[i]
  {
    if |s| == 0 then [""]
    else if s[0] == sep then [""] + Split(s[1..], sep)
    else
      var rest := Split(s[1..], sep);
      [[s[0]] + rest[0]] + rest[1..]
  }

  /** Joining the pieces of a split with the separator gives back the original text. */
  lemma {:induction false} JoinSplit(s: string, sep: char)
    ensures Join(Split(s, sep), [sep]) == s
  {
    if |s| == 0 {
    } else if s[0] == sep {
      JoinSplit(s[1..], sep);
      assert s == [sep] + s[1..];
    } else {
      JoinSplit(s[1..], sep);
      var rest := Split(s[1..], sep);
      if |rest| == 1 {
        assert s == [s[0]] + s[1..];
      } else {
        assert Join(rest, [sep]) == rest[0] + [sep] + Join(rest[1..], [sep]);
        assert s == [s[0]] + s[1..];
      }
    }
  }

  /** Splitting a text that starts with the separator. */
  lemma SplitSep(t: string, sep: char)
    ensures Split([sep] + t, sep) == [""] + Split(t, sep)
  {
    assert ([sep] + t)[1..] == t;
  }

  /** Splitting a text that starts with another character. */
  lemma SplitCons(c: char, t: string, sep: char)
    requires c != sep
    ensures Split([c] + t, sep) == [[c] + Split(t, sep)[0]] + Split(t, sep)[1..]
  {
    assert ([c] + t)[1..] == t;
  }

  /** Joining pieces whose first one is non-empty starts with that piece's first character. */
  lemma JoinCons(parts: seq<string>, sep: string)
    requires |parts| >= 1 && |parts[0]| > 0
    ensures Join(parts, sep) == [parts[0][0]] + Join([parts[0][1..]] + parts[1..], sep)
  {
    var shorter := [parts[0][1..]] + parts[1..];
    assert shorter[1..] == parts[1..];
    assert parts[0] == [parts[0][0]] + parts[0][1..];
  }

  /** Splitting a join of separator-free pieces gives back the pieces. */
  lemma {:induction false} SplitJoin(parts: seq<string>, sep: char)
    requires |parts| >= 1
    requires forall i :: 0 <= i < |parts| ==> sep !in parts[i]
    ensures Split(Join(parts, [sep]), sep) == parts
    decreases |parts|, |parts[0]|
  {
    if |parts[0]| == 0 {
      if |parts| > 1 {
        var tail := Join(parts[1..], [sep]);
        assert Join(parts, [sep]) == [sep] + tail;
        SplitJoin(parts[1..], sep);
        SplitSep(tail, sep);
        assert parts == [""] + parts[1..];
      }
    } else {
      var c := parts[0][0];
      var shorter := [parts[0][1..]] + parts[1..];
      assert c != sep by { assert parts[0][0] in parts[0]; }
      forall i | 0 <= i < |shorter| ensures sep !in shorter[i] {
        if i == 0 {
          assert forall x :: x in parts[0][1..] ==> x in parts[0];
        } else {
          assert shorter[i] == parts[i];
        }
      }
      SplitJoin(shorter, sep);
      JoinCons(parts, [sep]);
      SplitCons(c, Join(shorter, [sep]), sep);
      assert parts[0] == [c] + parts[0][1..];
      assert parts == [parts[0]] + shorter[1..];
    }
  }

  function DigitChar(d: nat): char
    requires d < 10
  {
    ('0' as int + d) as char
  }

  function DigitValue(c: char): nat
    requires IsDigit(c)
  {
    c as int - '0' as int
  }

  /** The value of a decimal digit string, as `parseInt(s, 10)` reads an all-digit string. */
  function DecimalValue(s: string): nat
    requires AllDigits(s)
  {
    if |s| == 0 then 0 else 10 * DecimalValue(s[..|s| - 1]) + DigitValue(s[|s| - 1])
  }

  /** `s.length`: the number of UTF-16 code units, two for a character above U+FFFF. */
  function Utf16Length(s: string): (n: nat)
    ensures |s| <= n <= 2 * |s|
  {
    if |s| == 0 then 0 else (if s[0] as int > 0xFFFF then 2 else 1) + Utf16Length(s[1..])
  }

  /** `length` counts characters exactly when none lies above U+FFFF. */
  lemma {:induction false} Utf16LengthBmp(s: string)
    ensures Utf16Length(s) == |s| <==> forall i :: 0 <= i < |s| ==> s[i] as int <= 0xFFFF
  {
    if |s| > 0 {
      Utf16LengthBmp(s[1..]);
      assert forall i :: 1 <= i < |s| ==> s[i] == s[1..][i - 1];
    }
  }

  /** `String(n)` for a natural number: its shortest decimal spelling. */
  function NatToString(n: nat): (r: string)
    ensures |r| >= 1 && AllDigits(r)
    ensures r[0] == '0' ==> n == 0
  {
    if n < 10 then [DigitChar(n)] else NatToString(n / 10) + [DigitChar(n % 10)]
  }

  /** Reading back the decimal spelling of `n` yields `n`. */
  lemma {:induction false} NatToStringRoundTrip(n: nat)
    ensures DecimalValue(NatToString(n)) == n
  {
    if n >= 10 {
      NatToStringRoundTrip(n / 10);
      var s := NatToString(n);
      assert s[..|s| - 1] == NatToString(n / 10);
    }
  }

  /** `s.padStart(2, '0')`. */
  function PadStart2(s: string): (r: string)
    ensures |r| == if |s| >= 2 then |s| else 2
    ensures r[|r| - |s|..] == s
    ensures forall i :: 0 <= i < |r| - |s| ==> r[i] == '0'
  {
    if |s| >= 2 then s else if |s| == 1 then "0" + s else "00"
  }

  /** `s.slice(-2)`: the last two characters, or all of `s` when it is shorter. */
  function LastTwo(s: string): (r: string)
    ensures |r| == if |s| >= 2 then 2 else |s|
    ensures r == s[|s| - |r|..]
  {
    if |s| >= 2 then s[|s| - 2..] else s
  }
}

=== FILE: users.dfy ===
/**
 * The local user service of src/services/users.ts: device credentials and
 * the master password kept in the user database, and the e-mail check.
 *
 * The record ids come from `DocType.USER_CREDENTIALS` and
 * `DocType.MASTER_PASSWORD`, which the `DocType` enum of src/types.ts does
 * not define, so at run time they are `undefined`. `IdScheme` makes the ids a
 * parameter: `AsWritten` gives the code's behaviour (a put without `_id`, a
 * get of the string "undefined" or of no id at all), `Intended` gives fixed
 * ids, and the rest of the model reasons about `Intended`.
 */
module Users {
  import opened Wrappers
  import opened Text
  import opened DocStore
  import opened Service

  datatype IdScheme = AsWritten | Intended

  const CredentialsId: string := "user_credentials"
  const MasterPasswordId: string := "master_password"
  const MasterPasswordMinLength: nat := 8

  const InvalidCredentialsMessage: string := "Invalid credentials data"
  const ShortPasswordMessage: string := "Password must be at least 8 characters long"
  const InvalidEmailMessage: string := "Invalid email address"
  const AccountCreatedMessage: string := "Account created successfully"

  /** The `_id` written for the credentials record (`None`: the property is `undefined`). */
  function CredentialsWriteId(scheme: IdScheme): Option<string> {
    if scheme == AsWritten then None else Some(CredentialsId)
  }

  /** The id read for the credentials record: a template literal turns `undefined` into the
      string "undefined". */
  function CredentialsReadId(scheme: IdScheme): string {
    if scheme == AsWritten then "undefined" else CredentialsId
  }

  /** The id used for the master-password record, both to write and to read. */
  function MasterId(scheme: IdScheme): Option<string> {
    if scheme == AsWritten then None else Some(MasterPasswordId)
  }

  /** Adds `_id` when there is one. */
  function WithId(id: Option<string>, doc: Doc): (d: Doc)
    ensures id.Some? ==> IdField in d && d[IdField] == id.value
    ensures id.None? ==> d == doc - {IdField}
  {
    match id
    case Some(i) => doc[IdField := i]
    case None => doc - {IdField}
  }

  /** A field of a stored record, `undefined` when absent. */
  function Field(doc: Doc, f: string): Option<string> {
    if f in doc then Some(doc[f]) else None
  }

  datatype Credentials = Credentials(uuid: Option<string>, password: Option<string>,
                                     dbName: Option<string>, createdAt: Option<string>)

  /** `getUserCredentials()`: a missing record and a failed read (`readFails`) both give null. */
  function GetUserCredentials(scheme: IdScheme, db: Db, readFails: bool): (r: Option<Credentials>)
    ensures r.Some? <==> !readFails && CredentialsReadId(scheme) in db
    ensures r.Some? ==> var doc := db[CredentialsReadId(scheme)];
      r.value == Credentials(Field(doc, "uuid"), Field(doc, "password"), Field(doc, "dbName"), Field(doc, "createdAt"))
  {
    if readFails then None
    else match Get(db, CredentialsReadId(scheme))
      case Err(_) => None
      case Ok(doc) =>
        Some(Credentials(Field(doc, "uuid"), Field(doc, "password"), Field(doc, "dbName"), Field(doc, "createdAt")))
  }

  /** `isAuthenticated()`. */
  function IsAuthenticated(scheme: IdScheme, db: Db, readFails: bool): (b: bool)
    ensures b <==> GetUserCredentials(scheme, db, readFails).Some?
  {
    GetUserCredentials(scheme, db, readFails).Some?
  }

  /** What `createUserCredentials` reports back: the password is not included. */
  datatype CredentialsReply = CredentialsReply(uuid: string, dbName: string)

  /** `createUserCredentials(uuid, password, dbName)`. */
  function CreateUserCredentials(scheme: IdScheme, db: Db, uuid: string, password: string, dbName: string,
                                 now: string, newRev: string): (r: (Response<CredentialsReply>, Db))
    ensures (uuid == "" || password == "" || dbName == "") ==> r == (Rejected(InvalidCredentialsMessage), db)
    ensures r.0.Success? ==> r.0.data == CredentialsReply(uuid, dbName)
    ensures !r.0.Success? ==> r.1 == db
    ensures r.0.Success? ==>
      (CredentialsWriteId(scheme).Some? && CredentialsWriteId(scheme).value in r.1
       && "password" in r.1[CredentialsWriteId(scheme).value]
       && r.1[CredentialsWriteId(scheme).value]["password"] == password)
  {
    if uuid == "" || password == "" || dbName == "" then (Rejected(InvalidCredentialsMessage), db)
    else
      var doc := WithId(CredentialsWriteId(scheme),
        map["uuid" := uuid, "password" := password, "dbName" := dbName, "createdAt" := now]);
      match Put(db, doc, newRev)
      case Ok((db', _)) => (Success(CredentialsReply(uuid, dbName)), db')
      case Err(e) => (Failed(ErrorMessage(e)), db)
  }

  /** The master-password record, with the hint only when one is given. */
  function MasterDoc(scheme: IdScheme, password: string, hint: Option<string>, now: string): (d: Doc)
    ensures "password" in d && d["password"] == password
  {
    var base := map["password" := password, "createdAt" := now];
    WithId(MasterId(scheme), match hint case Some(h) => base["hint" := h] case None => base)
  }

  /** `storeMasterPassword(password, hint)`. */
  function StoreMasterPassword(scheme: IdScheme, db: Db, password: string, hint: Option<string>,
                               now: string, newRev: string): (r: (Response<()>, Db))
    ensures Utf16Length(password) < MasterPasswordMinLength ==> r == (Rejected(ShortPasswordMessage), db)
    ensures !r.0.Success? ==> r.1 == db
    ensures r.0.Success? ==>
      (Utf16Length(password) >= MasterPasswordMinLength && MasterId(scheme).Some?
       && MasterId(scheme).value !in db
       && r.1 == db[MasterId(scheme).value := MasterDoc(scheme, password, hint, now)[RevField := newRev]])
  {
    if Utf16Length(password) < MasterPasswordMinLength then (Rejected(ShortPasswordMessage), db)
    else
      match Put(db, MasterDoc(scheme, password, hint, now), newRev)
      case Ok((db', _)) => (Success(()), db')
      case Err(e) => (Failed(ErrorMessage(e)), db)
  }

  /** `verifyMasterPassword(candidate)`: false when the record is missing, has no password, or
      cannot be read. */
  function VerifyMasterPassword(scheme: IdScheme, db: Db, readFails: bool, candidate: string): (b: bool)
    ensures b ==> MasterId(scheme).Some? && !readFails && MasterId(scheme).value in db
    ensures b <==>
      (MasterId(scheme).Some? && !readFails && MasterId(scheme).value in db
       && Field(db[MasterId(scheme).value], "password") == Some(candidate))
  {
    match MasterId(scheme)
    case None => false
    case Some(id) =>
      if readFails then false
      else match Get(db, id)
        case Err(_) => false
        case Ok(doc) => "password" in doc && doc["password"] == candidate
  }

  /** With fixed ids, a stored master password is the one and only password that verifies. */
  lemma StoreThenVerify(db: Db, password: string, hint: Option<string>, now: string, newRev: string, candidate: string)
    requires StoreMasterPassword(Intended, db, password, hint, now, newRev).0.Success?
    ensures VerifyMasterPassword(Intended, StoreMasterPassword(Intended, db, password, hint, now, newRev).1, false, candidate)
      <==> candidate == password
  {
  }

  /** With fixed ids, storing the master password succeeds exactly when it is long enough and no
      record exists yet (a second put without `_rev` conflicts). */
  lemma StoreMasterPasswordSucceeds(db: Db, password: string, hint: Option<string>, now: string, newRev: string)
    ensures StoreMasterPassword(Intended, db, password, hint, now, newRev).0.Success? <==>
      Utf16Length(password) >= MasterPasswordMinLength && MasterPasswordId !in db
  {
    var doc := MasterDoc(Intended, password, hint, now);
    assert IdField in doc && RevField !in doc;
  }

  /** `length` counts UTF-16 code units: four characters above U+FFFF already make eight, so
      such a password passes the length gate. */
  lemma AstralPasswordPassesGate(db: Db, password: string, hint: Option<string>, now: string, newRev: string)
    requires |password| == 4 && forall i :: 0 <= i < 4 ==> password[i] as int > 0xFFFF
    ensures StoreMasterPassword(Intended, db, password, hint, now, newRev).0 != Rejected(ShortPasswordMessage)
  {
    var s := password;
    assert s[1..][1..][1..][1..] == [];
    assert Utf16Length(s[1..][1..][1..]) == 2;
    assert Utf16Length(s[1..][1..]) == 4;
    assert Utf16Length(s[1..]) == 6;
    assert Utf16Length(s) == 8;
  }

  /** As written, no master password can ever be stored (the put has no `_id`), and none ever
      verifies (the get has no id). */
  lemma AsWrittenMasterPasswordNeverWorks(db: Db, password: string, hint: Option<string>, now: string,
                                          newRev: string, readFails: bool, candidate: string)
    requires Utf16Length(password) >= MasterPasswordMinLength
    ensures StoreMasterPassword(AsWritten, db, password, hint, now, newRev) ==
      (Failed(ErrorMessage(MissingId)), db)
    ensures !VerifyMasterPassword(AsWritten, db, readFails, candidate)
  {
  }

  /** As written, creating credentials fails with the missing-id error, and the user counts as
      authenticated only if some record happens to have the id "undefined". */
  lemma AsWrittenCredentialsNeverStored(db: Db, uuid: string, password: string, dbName: string,
                                        now: string, newRev: string)
    requires uuid != "" && password != "" && dbName != ""
    ensures CreateUserCredentials(AsWritten, db, uuid, password, dbName, now, newRev) ==
      (Failed(ErrorMessage(MissingId)), db)
    ensures IsAuthenticated(AsWritten, db, false) <==> "undefined" in db
  {
  }

  /** With fixed ids, storing credentials makes the user authenticated, and the stored
      credentials are the ones given. */
  lemma CreateThenAuthenticated(db: Db, uuid: string, password: string, dbName: string, now: string, newRev: string)
    requires CreateUserCredentials(Intended, db, uuid, password, dbName, now, newRev).0.Success?
    ensures var db' := CreateUserCredentials(Intended, db, uuid, password, dbName, now, newRev).1;
      && IsAuthenticated(Intended, db', false)
      && GetUserCredentials(Intended, db', false) == Some(Credentials(Some(uuid), Some(password), Some(dbName), Some(now)))
  {
  }

  // ---- e-mail ----

  /** A character the class `[^\s@]` accepts. */
  predicate EmailChar(c: char) {
    !IsSpace(c) && c != '@'
  }

  predicate EmailChars(s: string) {
    forall i :: 0 <= i < |s| ==> EmailChar(s[i])
  }

  /** `/^[^\s@]+@[^\s@]+\.[^\s@]+$/` read literally: `s` is `a@b.c` with `a`, `b`, `c`
      non-empty runs of `[^\s@]`. */
  ghost predicate MatchesEmailPattern(s: string) {
    exists i, j :: 0 < i && i + 1 < j && j + 1 < |s| && s[i] == '@' && s[j] == '.'
      && EmailChars(s[..i]) && EmailChars(s[i + 1..j]) && EmailChars(s[j + 1..])
  }

  /** The domain has a dot that is neither its first nor its last character. */
  predicate HasInnerDot(d: string) {
    exists j :: 0 < j < |d| - 1 && d[j] == '.'
  }

  /** `isValidEmail(email)`: no white space, exactly one `@` with a non-empty local part, and a
      domain with an inner dot. */
  predicate IsValidEmail(s: string) {
    NoSpace(s) &&
    match IndexOf(s, '@')
    case None => false
    case Some(i) => i > 0 && '@' !in s[i + 1..] && HasInnerDot(s[i + 1..])
  }

  /** A slice is a run of `[^\s@]` exactly when each of its characters is. */
  lemma EmailCharsSlice(s: string, lo: nat, hi: nat)
    requires lo <= hi <= |s|
    ensures EmailChars(s[lo..hi]) <==> forall x :: lo <= x < hi ==> EmailChar(s[x])
  {
    if EmailChars(s[lo..hi]) {
      forall x | lo <= x < hi ensures EmailChar(s[x]) {
        assert s[x] == s[lo..hi][x - lo];
      }
    }
  }

  lemma ValidEmailMatches(s: string)
    requires IsValidEmail(s)
    ensures MatchesEmailPattern(s)
  {
    var i := IndexOf(s, '@').value;
    var d := s[i + 1..];
    var k :| 0 < k < |d| - 1 && d[k] == '.';
    var j := i + 1 + k;
    assert s[j] == '.';
    forall x | 0 <= x < |s| && x != i ensures EmailChar(s[x]) {
      if x < i {
        assert s[x] == s[..i][x];
      } else {
        assert s[x] == d[x - (i + 1)];
      }
    }
    EmailCharsSlice(s, 0, i);
    EmailCharsSlice(s, i + 1, j);
    EmailCharsSlice(s, j + 1, |s|);
    assert s[..i] == s[0..i] && s[j + 1..] == s[j + 1..|s|];
  }

  lemma MatchIsValidEmail(s: string, i: nat, j: nat)
    requires 0 < i && i + 1 < j && j + 1 < |s| && s[i] == '@' && s[j] == '.'
    requires EmailChars(s[..i]) && EmailChars(s[i + 1..j]) && EmailChars(s[j + 1..])
    ensures IsValidEmail(s)
  {
    assert s[..i] == s[0..i] && s[j + 1..] == s[j + 1..|s|];
    EmailCharsSlice(s, 0, i);
    EmailCharsSlice(s, i + 1, j);
    EmailCharsSlice(s, j + 1, |s|);
    assert forall x :: 0 <= x < |s| && x != i && x != j ==> EmailChar(s[x]);
    assert '@' !in s[..i] by {
      forall x | 0 <= x < i ensures s[..i][x] != '@' {
        assert s[..i][x] == s[x];
      }
    }
    assert IndexOf(s, '@') == Some(i);
    var d := s[i + 1..];
    assert '@' !in d by {
      forall x | 0 <= x < |d| ensures d[x] != '@' {
        assert d[x] == s[i + 1 + x];
      }
    }
    assert d[j - (i + 1)] == '.';
  }

  /** The scanning check accepts exactly the strings the regular expression matches. */
  lemma IsValidEmailIff(s: string)
    ensures IsValidEmail(s) <==> MatchesEmailPattern(s)
  {
    if IsValidEmail(s) {
      ValidEmailMatches(s);
    }
    if MatchesEmailPattern(s) {
      var i, j :| 0 < i && i + 1 < j && j + 1 < |s| && s[i] == '@' && s[j] == '.'
        && EmailChars(s[..i]) && EmailChars(s[i + 1..j]) && EmailChars(s[j + 1..]);
      MatchIsValidEmail(s, i, j);
    }
  }

  /** `createUserAccount(email)`: only the e-mail shape is checked; nothing is stored. */
  function CreateUserAccount(email: string): (r: Response<string>)
    ensures r.Success? <==> MatchesEmailPattern(email)
    ensures r.Success? ==> r.data == AccountCreatedMessage
    ensures !r.Success? ==> r == Rejected(InvalidEmailMessage)
  {
    IsValidEmailIff(email);
    if !IsValidEmail(email) then Rejected(InvalidEmailMessage) else Success(AccountCreatedMessage)
  }
}

=== FILE: utf8.dfy ===
/**
 * UTF-8 as `TextEncoder.encode` produces it, and a strict decoder standing
 * for `TextDecoder.decode`. Characters are Unicode scalar values, so every
 * string of the model is well formed and has exactly one encoding.
 */
module Utf8 {
  import opened Wrappers
  import opened Bytes

  predicate IsContinuation(b: byte) {
    0x80 <= b < 0xC0
  }

  /** The 1- to 4-byte encoding of one scalar value. */
  function EncodeChar(c: char): (r: seq<byte>)
    ensures 1 <= |r| <= 4
  {
    var n := c as int;
    if n < 0x80 then [n]
    else if n < 0x800 then [0xC0 + n / 64, 0x80 + n % 64]
    else if n < 0x10000 then [0xE0 + n / 4096, 0x80 + (n / 64) % 64, 0x80 + n % 64]
    else [0xF0 + n / 262144, 0x80 + (n / 4096) % 64, 0x80 + (n / 64) % 64, 0x80 + n % 64]
  }

  function Encode(s: string): (r: seq<byte>)
    ensures |s| <= |r| <= 4 * |s|
  {
    if |s| == 0 then [] else EncodeChar(s[0]) + Encode(s[1..])
  }

  predicate IsScalar(n: int) {
    0 <= n < 0xD800 || 0xE000 <= n < 0x110000
  }

  /** Decodes the first character of `b`: the character and the number of bytes it used,
      or `None` for an ill-formed, overlong or surrogate sequence. */
  function DecodeFirst(b: seq<byte>): (r: Option<(char, nat)>)
    requires |b| > 0
    ensures r.Some? ==> 1 <= r.value.1 <= |b|
  {
    var b0: int := b[0];
    if b0 < 0x80 then Some((b0 as char, 1))
    else if 0xC2 <= b0 < 0xE0 then
      if |b| >= 2 && IsContinuation(b[1]) then
        Some((((b0 - 0xC0) * 64 + (b[1] as int - 0x80)) as char, 2))
      else None
    else if 0xE0 <= b0 < 0xF0 then
      if |b| >= 3 && IsContinuation(b[1]) && IsContinuation(b[2]) then
        var n := (b0 - 0xE0) * 4096 + (b[1] as int - 0x80) * 64 + (b[2] as int - 0x80);
        if 0x800 <= n && IsScalar(n) then Some((n as char, 3)) else None
      else None
    else if 0xF0 <= b0 < 0xF5 then
      if |b| >= 4 && IsContinuation(b[1]) && IsContinuation(b[2]) && IsContinuation(b[3]) then
        var n := (b0 - 0xF0) * 262144 + (b[1] as int - 0x80) * 4096 + (b[2] as int - 0x80) * 64 + (b[3] as int - 0x80);
        if 0x10000 <= n < 0x110000 then Some((n as char, 4)) else None
      else None
    else None
  }

  function Decode(b: seq<byte>): Option<string>
    decreases |b|
  {
    if |b| == 0 then Some("")
    else match DecodeFirst(b)
      case None => None
      case Some((c, k)) =>
        match Decode(b[k..])
        case None => None
        case Some(rest) => Some([c] + rest)
  }

  lemma Digits2(n: int)
    requires 0x80 <= n < 0x800
    ensures 0xC2 <= 0xC0 + n / 64 < 0xE0
    ensures (n / 64) * 64 + n % 64 == n
  {
  }

  lemma Digits3(n: int)
    requires 0x800 <= n < 0x10000
    ensures 0xE0 <= 0xE0 + n / 4096 < 0xF0
    ensures (n / 4096) * 4096 + ((n / 64) % 64) * 64 + n % 64 == n
  {
    var q := n / 64;
    assert n == 64 * q + n % 64;
    assert q == 64 * (q / 64) + q % 64;
    assert q / 64 == n / 4096;
  }

  lemma Digits4(n: int)
    requires 0x10000 <= n < 0x110000
    ensures 0xF0 <= 0xF0 + n / 262144 < 0xF5
    ensures (n / 262144) * 262144 + ((n / 4096) % 64) * 4096 + ((n / 64) % 64) * 64 + n % 64 == n
  {
    var q := n / 64;
    var q2 := q / 64;
    assert n == 64 * q + n % 64;
    assert q == 64 * q2 + q % 64;
    assert q2 == 64 * (q2 / 64) + q2 % 64;
    assert q2 == n / 4096;
    assert q2 / 64 == n / 262144;
  }

  /** The first character of an encoding followed by anything decodes back to that character. */
  lemma DecodeFirstEncodeChar(c: char, tail: seq<byte>)
    ensures DecodeFirst(EncodeChar(c) + tail) == Some((c, |EncodeChar(c)|))
  {
    var n := c as int;
    var b := EncodeChar(c) + tail;
    if n < 0x80 {
    } else if n < 0x800 {
      Digits2(n);
      assert (b[0] as int - 0xC0) * 64 + (b[1] as int - 0x80) == n;
    } else if n < 0x10000 {
      Digits3(n);
      assert (b[0] as int - 0xE0) * 4096 + (b[1] as int - 0x80) * 64 + (b[2] as int - 0x80) == n;
    } else {
      Digits4(n);
      assert (b[0] as int - 0xF0) * 262144 + (b[1] as int - 0x80) * 4096 + (b[2] as int - 0x80) * 64
        + (b[3] as int - 0x80) == n;
    }
  }

  /** Round trip: decoding the encoding of any string gives the string back. */
  lemma {:induction false} DecodeEncode(s: string)
    ensures Decode(Encode(s)) == Some(s)
  {
    if |s| > 0 {
      var e := Encode(s);
      var k := |EncodeChar(s[0])|;
      DecodeFirstEncodeChar(s[0], Encode(s[1..]));
      assert e[k..] == Encode(s[1..]);
      DecodeEncode(s[1..]);
      assert s == [s[0]] + s[1..];
    }
  }
}

=== FILE: validation.dfy ===
/**
 * The newer secret validator of src/app/services/validation.ts. It differs
 * from the one in src/services/secrets.ts only in accepting an empty (or
 * blank) username.
 */
module Validation {
  import opened Text
  import opened DocStore
  import SecretStore

  /** `validateSecret`: name non-blank, a username present (possibly empty), password non-empty. */
  predicate ValidateSecret(secret: Doc) {
    && "name" in secret && Trim(secret["name"]) != ""
    && "username" in secret
    && "password" in secret && secret["password"] != ""
  }

  /** The rule over characters: the name has a non-white-space character and the password is
      not empty; the username only has to be there. */
  lemma ValidateSecretIff(secret: Doc)
    ensures ValidateSecret(secret) <==>
      && "name" in secret && (exists i :: 0 <= i < |secret["name"]| && !IsSpace(secret["name"][i]))
      && "username" in secret
      && "password" in secret && |secret["password"]| > 0
  {
    if "name" in secret { TrimEmptyIffBlank(secret["name"]); }
  }

  /** Everything the older validator accepts, the newer one accepts too. */
  lemma OlderImpliesNewer(secret: Doc)
    ensures SecretStore.ValidateSecret(secret) ==> ValidateSecret(secret)
  {
  }

  /** The two validators disagree exactly on a blank username. */
  lemma ValidatorsDifferOnBlankUsername(secret: Doc)
    ensures ValidateSecret(secret) && !SecretStore.ValidateSecret(secret) <==>
      ValidateSecret(secret) && Blank(secret["username"])
  {
    if "username" in secret { TrimEmptyIffBlank(secret["username"]); }
  }

  /** A white-space-only name is rejected. */
  lemma BlankNameRejected(secret: Doc)
    requires "name" in secret && Blank(secret["name"])
    ensures !ValidateSecret(secret)
  {
    TrimEmptyIffBlank(secret["name"]);
  }

  /** Fields other than name, username and password (`notes`, `_id`, ...) do not matter. */
  lemma OtherFieldsIrrelevant(secret: Doc, f: string, value: string)
    requires f != "name" && f != "username" && f != "password"
    ensures ValidateSecret(secret[f := value]) == ValidateSecret(secret)
    ensures ValidateSecret(secret - {f}) == ValidateSecret(secret)
  {
    var s1 := secret[f := value];
    var s2 := secret - {f};
    assert "name" in s1 <==> "name" in secret;
    assert "name" in s2 <==> "name" in secret;
    assert "name" in secret ==> s1["name"] == secret["name"] && s2["name"] == secret["name"];
    assert "password" in secret ==> s1["password"] == secret["password"] && s2["password"] == secret["password"];
  }
}

=== FILE: wrappers.dfy ===
/** Failure-compatible wrappers shared by every module of the model. */
module Wrappers {

  /** A value that may be absent: JavaScript's `undefined` / `null`. */
  datatype Option<+T> = None | Some(value: T) {
    function GetOr(default: T): T {
      match this
      case Some(v) => v
      case None => default
    }
  }

  /** The outcome of an operation that may throw: a returned value or an error. */
  datatype Result<+T, +E> = Ok(value: T) | Err(error: E)
}

/** Octets, as held by a `Uint8Array`. */
module Bytes {
  type byte = b: int | 0 <= b < 256
}
